=== FILE: README.md ===
# SSID-open-core compliance scripts in Dafny

This project models the decision kernels of the SSID-open-core compliance
tooling. Around each kernel sits file, YAML/JSON and console plumbing. The
model keeps the kernel and takes the file system, the parsed documents, the
clock and the external tools' results as parameters.

The modelled kernels, one Dafny module per script:

- `CircularValidator` (`circular_dependency_validator.py`): the line-by-line
  classification of script text into `python_import`, `shell_call` and
  `yaml_ref` records, the fixed keyword-to-script edge table, and the
  verdict "valid iff the dependency graph has no cycle".
- `ComplianceGraph` (`dependency_graph_generator.py`): the curated graph of
  9 compliance components and 24 modules with 32 edges, proved acyclic, its
  idempotent construction, the DOT text, the JSON node defaults and the
  report counts.
- `ReviewGate` (`review_status_gate.py`), `ReviewChecker`
  (`review_status_checker.py`) and `ReviewLogUpdater`
  (`update_review_log.py`): the review-schedule thresholds of the CI gate
  and of the checker, and the record updates on the shared review log
  (`ReviewLog`).
- `WriteOverrides` (`update_write_overrides.py`) and `EvidenceRegistry`
  (`update_evidence_registry.py`): override expiry, ids and score; the
  evidence type classifier, registration and statistics.
- `PolicyReview` (`policy_review.py`), `Badges` (`badge_generator.py`) and
  `StructureLock` (`structure_lock_l3.py`): score deductions, colour bands,
  the error/warning accumulator and exit codes.
- `ReadmeBadges` (`update_readme_badges.py`) and `AuditExport`
  (`export_audit_package.py`): the marker-delimited README section and the
  per-type export paths, file sets, manifest and checksum line.
- `StructurePolicy` (`23_compliance/tests/unit/test_structure_policy_vs_md.py`):
  the shape the unit tests demand of the structure policy. It is proved of
  the hard-coded 24-module list.

Shared modules:

- `Wrappers`: `Option`.
- `Text`: Python `str` operations.
- `Paths`: `pathlib` names, stems and suffixes, `relative_to`, and the glob
  patterns.
- `Digraph`: the subset of `networkx.DiGraph` the two graph scripts use. It
  has an executable acyclicity test proved equivalent to "no closed walk".
- `Layout`: the 24 root modules.

Every operation has a partner property:

- an inverse (checksum lines, integer text, split and join);
- an invariant it keeps (registry ids, log history, acyclicity);
- idempotence (graph building, README update);
- or an independent characterisation (threshold bands, first-match
  classifiers, file selection).

## Model

| member | source | states |
|---|---|---|
| `Layout.Pad2` | 24_meta_orchestration/triggers/ci/gates/structure_lock_l3.py:64-67 | A two-digit module number reads back as the number it encodes. |
| `Layout.Modules` | 24_meta_orchestration/triggers/ci/gates/structure_lock_l3.py:44-52 | The hard-coded root-module list has 24 entries, entry i being number i+1 followed by its topic. |
| `Layout.ModulesNumbered` | 23_compliance/anti_gaming/dependency_graph_generator.py:56-64 | Module i of the list starts with the two-digit number i+1 and `_`. |
| `Layout.ModulesDistinct` | 24_meta_orchestration/triggers/ci/gates/structure_lock_l3.py:44-52 | No module is listed twice. |
| `Paths.LastIndexOf` | 12_tooling/scripts/export_audit_package.py:232 | The last occurrence of a character is found, with none after it; none is reported exactly when the character is absent. |
| `Paths.Name` | 12_tooling/scripts/export_audit_package.py:167 | `Path(p).name`: what follows the last `/`, or the whole path when it has none; `DirPrefixName` states that prefix and name rebuild the path. |
| `Paths.DirPrefixName` | 12_tooling/scripts/export_audit_package.py:232 | A path is its parent prefix followed by its `name`, and the name holds no `/`. |
| `Paths.StemSuffix` | 12_tooling/scripts/export_audit_package.py:232 | A name is its `stem` followed by its `suffix`; a non-empty suffix is one dot and a dot-free tail, and the stem is not empty. |
| `Paths.Suffix` | 12_tooling/scripts/export_audit_package.py:232 | `Path(name).suffix`: from the last dot to the end when that dot is neither the first nor the last character of the name, and empty otherwise. |
| `Paths.Stem` | 12_tooling/scripts/export_audit_package.py:232 | `Path(name).stem`: the name before that dot, or the whole name when it has no suffix; `StemSuffix` states that stem and suffix rebuild the name. |
| `Paths.MatchesStarStarIff` | 12_tooling/scripts/update_evidence_registry.py:59-61 | A glob `*MID*EXT` matches exactly the names of the form A + MID + B + EXT. |
| `Paths.RelativeTo` | 12_tooling/scripts/update_evidence_registry.py:66 | `relative_to` gives a part r with base + `/` + r equal to the path, or fails. |
| `Paths.RelativeUnderAbsolute` | 12_tooling/scripts/export_audit_package.py:108 | A relative path is never below an absolute directory, so `relative_to(Path.cwd())` fails on it. |
| `Paths.RelativeToOf` | 12_tooling/scripts/export_audit_package.py:158 | A path spelled base/rel is rel relative to base. |
| `Text.IndexOf` | 12_tooling/scripts/update_readme_badges.py:34 | A found position is an occurrence. |
| `Text.IndexOfFirst` | 12_tooling/scripts/update_readme_badges.py:34 | No occurrence lies before the found position, and none at all when nothing is found. |
| `Text.ContainsIndexOf` | 12_tooling/scripts/update_readme_badges.py:34 | `t in s` holds exactly when a search for t finds a position. |
| `Text.StripShape` | 12_tooling/scripts/badge_generator.py:46 | `strip()` gives a contiguous slice of its input. |
| `Text.Strip` | 12_tooling/scripts/export_audit_package.py:223 | `str.strip()`: leading and then trailing whitespace removed; `StripShape`, `StripEnds` and `StripIdempotent` state what it keeps. |
| `Text.StripEnds` | 12_tooling/scripts/badge_generator.py:46 | What `strip()` leaves neither starts nor ends with whitespace. |
| `Text.StripIdempotent` | 12_tooling/scripts/export_audit_package.py:223 | Stripping twice is stripping once. |
| `Text.JoinAppend` | 12_tooling/scripts/update_readme_badges.py:90 | Joining two non-empty lists is joining each and putting the separator between them. |
| `Text.Join` | 12_tooling/scripts/update_readme_badges.py:90 | `sep.join(parts)`: empty for no parts, the part itself for one, and otherwise the parts with the separator between neighbours; `SplitJoin` states that splitting undoes it. |
| `Text.Split` | 12_tooling/scripts/update_readme_badges.py:45 | Splitting gives at least one part, no part contains the separator, and joining the parts with it gives the text back. |
| `Text.SplitJoin` | 12_tooling/scripts/update_readme_badges.py:45-64 | Joining separator-free parts and splitting again gives the parts back. |
| `Text.SplitNoSeparator` | 12_tooling/scripts/export_audit_package.py:220 | A text without the separator splits into itself alone. |
| `Text.NatToString` | 12_tooling/scripts/badge_generator.py:113-114 | A count is written as non-empty decimal digits with no leading zero. |
| `Text.ParseIntOfString` | 12_tooling/scripts/badge_generator.py:46 | `int()` reads back every integer written by `str()`. |
| `Text.ParseInt` | 12_tooling/scripts/badge_generator.py:46 | `int(s)`: fails on text that, once stripped, is empty, a lone sign, or holds a non-digit after the optional sign; `ParseIntOfString` states that it reads back every written integer. |
| `Text.Lower` | 12_tooling/scripts/update_evidence_registry.py:114 | `str.lower()` keeps the length and lowers each character on its own, letter by letter. |
| `Digraph.AddNode` | 23_compliance/anti_gaming/dependency_graph_generator.py:43 | `add_node` adds a new node at the end, keeps an existing one in place, leaves edges and other nodes' attributes alone, and overwrites only the attributes given. |
| `Digraph.EnsureNode` | 23_compliance/anti_gaming/circular_dependency_validator.py:86-90 | An endpoint of a new edge is appended when missing, with no attributes, and nothing else changes. |
| `Digraph.AddEdge` | 23_compliance/anti_gaming/dependency_graph_generator.py:46-53 | `add_edge` gives exactly the old edges plus the new one and exactly the old nodes plus both endpoints, old nodes first and attributes kept. |
| `Digraph.AddNodeIdempotent` | 23_compliance/anti_gaming/circular_dependency_validator.py:81 | Adding a node again with the same attributes changes nothing. |
| `Digraph.AddEdgeIdempotent` | 23_compliance/anti_gaming/circular_dependency_validator.py:84-90 | Adding an edge again changes nothing: a directed graph keeps no parallel edges. |
| `Digraph.OutEdges` | 23_compliance/anti_gaming/dependency_graph_generator.py:90 | The edges leaving a node are exactly the edges whose source is that node. |
| `Digraph.EdgeListIsPermutation` | 23_compliance/anti_gaming/dependency_graph_generator.py:118-122 | `edges()` lists every edge exactly once, so `len(edges())` is the number of edges. |
| `Digraph.RankedIsAcyclic` | 23_compliance/anti_gaming/dependency_graph_generator.py:123 | A graph whose every edge climbs a ranking has no cycle. |
| `Digraph.Peel` | 23_compliance/anti_gaming/circular_dependency_validator.py:92-100 | Peeling leaves only original nodes, each with a predecessor among those left. |
| `Digraph.PeelEmptyIsAcyclic` | 23_compliance/anti_gaming/dependency_graph_generator.py:123 | When every node peels off, the graph has no cycle. |
| `Digraph.PeelStuckHasCycle` | 23_compliance/anti_gaming/circular_dependency_validator.py:95 | When peeling gets stuck, the graph has a cycle. |
| `Digraph.IsAcyclicCorrect` | 23_compliance/anti_gaming/circular_dependency_validator.py:92-100 | The executable test holds exactly when the graph has no cycle, standing in for `is_directed_acyclic_graph` and for `simple_cycles` being empty. |
| `Badges.HexInjective` | 12_tooling/scripts/badge_generator.py:18-25 | The six colours of the badge palette have six different hex codes, so a badge's code tells its colour. |
| `Badges.ScoreColour` | 12_tooling/scripts/badge_generator.py:27-36 | A score is green exactly from 95 up, yellow exactly from 80 to below 95, orange exactly from 60 to below 80, red exactly below 60. |
| `Badges.ScoreColourMonotone` | 12_tooling/scripts/badge_generator.py:27-36 | A higher score never gets a worse colour (red < orange < yellow < green). |
| `Badges.ComplianceStatus` | 12_tooling/scripts/badge_generator.py:38-54 | The status is UNKNOWN (light grey, score 0) exactly when the guard could not run or printed no integer; otherwise the score is the printed integer, COMPLIANT and green exactly from 95 up, NON-COMPLIANT and red below. |
| `Badges.ParseIntStripped` | 12_tooling/scripts/badge_generator.py:46 | Stripping the guard's output before `int()` changes nothing, since `int()` ignores surrounding whitespace. |
| `Badges.GuardBadgesAgree` | 12_tooling/scripts/badge_generator.py:88-97 | The compliance badge is green exactly when the score badge is, and the score badge's message is the status score followed by `%`, which reads back as that score. |
| `Badges.ComplianceBadge` | 12_tooling/scripts/badge_generator.py:88-91 | `generate_compliance_badge`: a `compliance` badge with the status and colour the guard output gives; `GuardBadgesAgree` relates it to the score badge. |
| `Badges.ScoreBadge` | 12_tooling/scripts/badge_generator.py:93-97 | `generate_score_badge`: a `score` badge showing the score and `%`, coloured by the score; `GuardBadgesAgree` states that it reads back as the score. |
| `Badges.ViolationsCount` | 12_tooling/scripts/badge_generator.py:102-113 | The violations total is zero exactly when no readable `*_evidence_*.json` file lists a violation. |
| `Badges.ViolationsAdd` | 12_tooling/scripts/badge_generator.py:106-111 | The total over two groups of files is the sum of their totals, so the order `glob` lists files in does not change it. |
| `Badges.UnreadableSkipped` | 12_tooling/scripts/badge_generator.py:106-113 | An unreadable file, or a file of another name, adds nothing to the total. |
| `Badges.ViolationsBadge` | 12_tooling/scripts/badge_generator.py:99-116 | The violations badge reads back as the total (0 when the run directory is missing) and is green exactly when that is 0, red otherwise. |
| `Badges.OverridesBadge` | 12_tooling/scripts/badge_generator.py:118-132 | The overrides badge reads back as the registry's `active_count` (0 when the registry is missing, unreadable or has none) and is green exactly when that is 0, yellow otherwise. |
| `Badges.Generate` | 12_tooling/scripts/badge_generator.py:146-159 | No badge exactly when no badge flag is set; otherwise the badge of the first flag set, in the order compliance, score, violations, overrides. |
| `ReadmeBadges.OptionalBadges` | 12_tooling/scripts/update_readme_badges.py:75-81 | The compliance badge comes first and the score badge last, each exactly when its path is given, written as a Markdown image with that path. |
| `ReadmeBadges.BadgeHtml` | 12_tooling/scripts/update_readme_badges.py:73-90 | `_create_badge_html`: the optional badges and then the three static ones, joined by single spaces; `BadgeHtmlShape` states the layout. |
| `ReadmeBadges.BadgeHtmlShape` | 12_tooling/scripts/update_readme_badges.py:73-90 | The badge line is the optional badges joined by spaces, one more space, then the three static badges; without optional badges it is the static badges alone. |
| `ReadmeBadges.NextBlock` | 12_tooling/scripts/update_readme_badges.py:36-42 | The lazy `marker.*?marker` match starts at the first marker and ends after the next marker that begins at or after the end of the first one. |
| `ReadmeBadges.ReplaceBlocks` | 12_tooling/scripts/update_readme_badges.py:36-42 | The `re.sub` of the lazy marker-to-marker pattern: from left to right each marker and the next marker after it, with what lies between, become the new block; a marker without a later one and all text outside blocks are kept. `ReplaceKeepsOutside` and `ReplaceIdempotent` state its properties. |
| `ReadmeBadges.NextMarkerAt` | 12_tooling/scripts/update_readme_badges.py:36 | With no `<` between the search start and an occurrence of a marker that begins with `<`, the search finds that occurrence. |
| `ReadmeBadges.FirstMarkerAt` | 12_tooling/scripts/update_readme_badges.py:36 | An occurrence of the marker after text that holds no marker is the first one found. |
| `ReadmeBadges.BlockAt` | 12_tooling/scripts/update_readme_badges.py:36-42 | A first marker followed by a `<`-free stretch and a second marker is the block the pattern matches. |
| `ReadmeBadges.BlockFound` | 12_tooling/scripts/update_readme_badges.py:36-42 | A freshly written block (marker, `<`-free badge text, marker) after marker-free text is the first block matched. |
| `ReadmeBadges.SecondPass` | 12_tooling/scripts/update_readme_badges.py:37-42 | Substituting again over a freshly written block rewrites it to itself and continues after it. |
| `ReadmeBadges.PrefixClear` | 12_tooling/scripts/update_readme_badges.py:36 | The text before the first marker contains no marker. |
| `ReadmeBadges.ReplaceIdempotent` | 12_tooling/scripts/update_readme_badges.py:36-42 | Substituting every marked block with the same block twice gives what substituting once gives. |
| `ReadmeBadges.ReplaceKeepsMarker` | 12_tooling/scripts/update_readme_badges.py:34-42 | A README that contains the marker still contains it after the substitution, so a second update takes the replacement branch again. |
| `ReadmeBadges.ReplaceKeepsOutside` | 12_tooling/scripts/update_readme_badges.py:34-42 | The substitution leaves a README without the marker unchanged and keeps every character before the first marker. |
| `ReadmeBadges.InsertAt` | 12_tooling/scripts/update_readme_badges.py:45-52 | The block goes just after the first line that starts with `#` but not `##`; when no line is such a title, it goes at index 0. |
| `ReadmeBadges.InsertSection` | 12_tooling/scripts/update_readme_badges.py:44-64 | The README is split into lines, the five block lines go in after the title line, and the lines are joined again; `InsertIsSplice` states the splice. |
| `ReadmeBadges.InsertIsSplice` | 12_tooling/scripts/update_readme_badges.py:44-64 | Read back line by line, the new README is the old lines with exactly the five block lines (blank, marker, stripped badge line, marker, blank) inserted at that index. |
| `ReadmeBadges.SpliceOneLine` | 12_tooling/scripts/update_readme_badges.py:63-64 | Splicing lines without newlines into lines without newlines gives lines without newlines, so joining and splitting again recovers them. |
| `ReadmeBadges.SectionOneLine` | 12_tooling/scripts/update_readme_badges.py:55-61 | Every line of a new badge block is free of newlines when the badge line is. |
| `ReadmeBadges.StripKeepsOut` | 12_tooling/scripts/update_readme_badges.py:58 | `strip()` adds no character its input lacks. |
| `ReadmeBadges.MarkerOneLine` | 12_tooling/scripts/update_readme_badges.py:16 | The badge marker fits on one line. |
| `ReadmeBadges.MarkerShape` | 12_tooling/scripts/update_readme_badges.py:16 | The badge marker starts with its only `<`, so two occurrences cannot overlap. |
| `ReadmeBadges.Update` | 12_tooling/scripts/update_readme_badges.py:18-71 | An update yields nothing exactly when the README does not exist. |
| `ReadmeBadges.UpdateIdempotent` | 12_tooling/scripts/update_readme_badges.py:18-71 | With badge text free of `<`, updating a README that has the marker a second time with the same badges leaves it as the first update left it. |
| `WriteOverrides.KeptSpec` | 12_tooling/scripts/update_write_overrides.py:54-59 | An override is kept exactly when it is in the registry and created strictly after the cutoff; the kept overrides keep their order. |
| `WriteOverrides.CountExpired` | 12_tooling/scripts/update_write_overrides.py:51-63 | The number of overrides that do not survive the cutoff, which `Expire` records as the expired count. |
| `WriteOverrides.Kept` | 12_tooling/scripts/update_write_overrides.py:51-59 | The overrides created after the cutoff, in their original order; `KeptSpec` states which are kept. |
| `WriteOverrides.Expire` | 12_tooling/scripts/update_write_overrides.py:46-65 | Expiry raises exactly when `now - hours` lies outside `datetime`'s range (`OverflowError`, line 49) or some `created` is rejected by `fromisoformat` or carries a UTC offset (`ValueError` or `TypeError`, lines 55-56); otherwise it keeps the overrides created after the cutoff, counts the others, sets the expired count to that number (replacing the old one) and the active count to the number kept; kept plus expired is the old length. |
| `WriteOverrides.LongWindowOverflows` | 12_tooling/scripts/update_write_overrides.py:46-49 | A window `<n>h` reaching back before 0001-01-01 parses to n hours and makes the expiry raise; `--expire 20000000h` does so from any time before the year 2282. |
| `WriteOverrides.IncomparableFails` | 12_tooling/scripts/update_write_overrides.py:54-56 | One override whose `created` is rejected or offset-aware makes the expiry raise, whatever the window. |
| `WriteOverrides.AddedComparable` | 12_tooling/scripts/update_write_overrides.py:67-79 | An override written by `add_override` carries a naive `created`, so it never makes a later expiry raise. |
| `WriteOverrides.Add` | 12_tooling/scripts/update_write_overrides.py:67-79 | A new override is appended with id one more than the old list length, status `active`, created now; the old entries are unchanged and the active count is the new length. |
| `WriteOverrides.Score` | 12_tooling/scripts/update_write_overrides.py:95 | The evidence score lies in 0..100: it is 100 with no active override and 0 from twenty up. |
| `WriteOverrides.ScoreMonotone` | 12_tooling/scripts/update_write_overrides.py:95 | More active overrides never raise the score, and below twenty each one costs exactly five points. |
| `WriteOverrides.ParseExpire` | 12_tooling/scripts/update_write_overrides.py:115-117 | A `--expire` value not ending in `h` leaves the 48-hour default. |
| `WriteOverrides.ParseExpireHours` | 12_tooling/scripts/update_write_overrides.py:115-117 | A value of the form `<n>h` gives n hours. |
| `WriteOverrides.Run` | 12_tooling/scripts/update_write_overrides.py:104-137 | A run fails exactly when the `--expire` value cannot be parsed or the expiry raises (cutoff out of range, or a rejected or offset-aware `created`); otherwise the active count equals the number of overrides, the score is that number's score, and without `--add-override` the registry never grows. |
| `ComplianceGraph.Components` | 23_compliance/anti_gaming/dependency_graph_generator.py:29-39 | The component table has one entry per component name, in the order listed. |
| `ComplianceGraph.GuardEdges` | 23_compliance/anti_gaming/dependency_graph_generator.py:66-68 | The structure guard gets one edge to each module, in module order. |
| `ComplianceGraph.AddComponents` | 23_compliance/anti_gaming/dependency_graph_generator.py:42-43 | Adding the components keeps the graph well formed. |
| `ComplianceGraph.AddEdges` | 23_compliance/anti_gaming/dependency_graph_generator.py:46-53 | Adding the fixed dependencies keeps the graph well formed. |
| `ComplianceGraph.AddModules` | 23_compliance/anti_gaming/dependency_graph_generator.py:66-68 | Adding the modules keeps the graph well formed. |
| `ComplianceGraph.Build` | 23_compliance/anti_gaming/dependency_graph_generator.py:26-68 | `build_compliance_graph` keeps the graph well formed, whatever it held before. |
| `ComplianceGraph.BuildWith` | 23_compliance/anti_gaming/dependency_graph_generator.py:26-68 | The build steps (components, fixed edges, then modules, each behind the guard) keep a well-formed graph well formed. |
| `ComplianceGraph.AddComponentsFresh` | 23_compliance/anti_gaming/dependency_graph_generator.py:42-43 | Components not yet in the graph are appended as nodes in table order. |
| `ComplianceGraph.AddNewNode` | 23_compliance/anti_gaming/dependency_graph_generator.py:43 | A new node is appended with exactly the given attributes. |
| `ComplianceGraph.AddNodeAgain` | 23_compliance/anti_gaming/dependency_graph_generator.py:43 | Re-adding a node whose attributes already agree changes nothing. |
| `ComplianceGraph.AddEdgeAgain` | 23_compliance/anti_gaming/dependency_graph_generator.py:46-53 | Re-adding an existing edge changes nothing. |
| `ComplianceGraph.AddFreshEdge` | 23_compliance/anti_gaming/dependency_graph_generator.py:46-53 | A new edge between existing nodes is appended and nothing else changes. |
| `ComplianceGraph.AddEdgesFresh` | 23_compliance/anti_gaming/dependency_graph_generator.py:46-53 | New distinct edges between existing nodes are appended in order. |
| `ComplianceGraph.AddModulesFresh` | 23_compliance/anti_gaming/dependency_graph_generator.py:66-68 | New modules are appended as nodes, and one guard edge per module is appended, in module order. |
| `ComplianceGraph.AddModulesFreshPaths` | 23_compliance/anti_gaming/dependency_graph_generator.py:67 | A module added fresh has no `path` attribute. |
| `ComplianceGraph.ComponentNamesDistinct` | 23_compliance/anti_gaming/dependency_graph_generator.py:29-39 | No component is named twice. |
| `ComplianceGraph.StaticEdgesDistinct` | 23_compliance/anti_gaming/dependency_graph_generator.py:46-53 | No fixed dependency is listed twice. |
| `ComplianceGraph.StaticEdgesBetweenComponents` | 23_compliance/anti_gaming/dependency_graph_generator.py:46-53 | Every fixed dependency joins two components. |
| `ComplianceGraph.ModulesAreNotComponents` | 23_compliance/anti_gaming/dependency_graph_generator.py:55-68 | No module has a component's name. |
| `ComplianceGraph.BuildWithFresh` | 23_compliance/anti_gaming/dependency_graph_generator.py:26-68 | A build on an empty graph lays out exactly the given components, then the modules, as nodes, and the fixed edges, then the guard edges, as edges. |
| `ComplianceGraph.CuratedShape` | 23_compliance/anti_gaming/dependency_graph_generator.py:26-68 | A fresh generator's graph after one build has the 9 components then the 24 modules as nodes, and the 8 fixed edges then one guard edge per module as edges. |
| `ComplianceGraph.CuratedSize` | 23_compliance/anti_gaming/dependency_graph_generator.py:26-68 | That graph has 33 nodes and 32 edges. |
| `ComplianceGraph.FreshCounts` | 23_compliance/anti_gaming/dependency_graph_generator.py:179-182 | In a freshly built graph, exactly the components are typed as components and exactly the modules as modules. |
| `ComplianceGraph.AcyclicTest` | 23_compliance/anti_gaming/dependency_graph_generator.py:123 | The executable acyclicity test agrees with having no cycle on every well-formed graph. |
| `ComplianceGraph.StaticEdgesRanked` | 23_compliance/anti_gaming/dependency_graph_generator.py:46-53 | Every fixed dependency goes from a lower to a higher rank. |
| `ComplianceGraph.ModulesRanked` | 23_compliance/anti_gaming/dependency_graph_generator.py:55-68 | Every module outranks the structure guard. |
| `ComplianceGraph.CuratedEdgesClimb` | 23_compliance/anti_gaming/dependency_graph_generator.py:46-68 | Every edge of the curated graph climbs in rank. |
| `ComplianceGraph.CuratedEdgesAcyclic` | 23_compliance/anti_gaming/dependency_graph_generator.py:46-68 | A graph with the curated edge list has no cycle. |
| `ComplianceGraph.CuratedAcyclic` | 23_compliance/anti_gaming/dependency_graph_generator.py:123 | The curated graph has no cycle, so `is_acyclic` is reported true. |
| `ComplianceGraph.AddComponentsSets` | 23_compliance/anti_gaming/dependency_graph_generator.py:42-43 | After adding, every component is a node with type `compliance_component` and its path; old nodes and all edges stay. |
| `ComplianceGraph.AddComponentsKeeps` | 23_compliance/anti_gaming/dependency_graph_generator.py:42-43 | A node that is not a component keeps its attributes. |
| `ComplianceGraph.AddEdgesSets` | 23_compliance/anti_gaming/dependency_graph_generator.py:46-53 | After adding, every given and every old edge is present, and old nodes keep their attributes. |
| `ComplianceGraph.AddModulesSets` | 23_compliance/anti_gaming/dependency_graph_generator.py:66-68 | After adding, every module is a node of type `module` with a guard edge to it; old edges stay and other nodes keep their attributes. |
| `ComplianceGraph.BuildWithEstablishes` | 23_compliance/anti_gaming/dependency_graph_generator.py:26-68 | Whatever the graph held, one build leaves every component, fixed edge, module and guard edge in place with the attributes the build sets. |
| `ComplianceGraph.AddComponentsNoop` | 23_compliance/anti_gaming/dependency_graph_generator.py:42-43 | Adding components already present with the same attributes changes nothing. |
| `ComplianceGraph.AddEdgesNoop` | 23_compliance/anti_gaming/dependency_graph_generator.py:46-53 | Adding edges already present changes nothing. |
| `ComplianceGraph.AddModulesNoop` | 23_compliance/anti_gaming/dependency_graph_generator.py:66-68 | Adding modules already present, typed and with their guard edge, changes nothing. |
| `ComplianceGraph.BuildWithIdempotent` | 23_compliance/anti_gaming/dependency_graph_generator.py:26-68 | Running the build steps twice gives what running them once gives. |
| `ComplianceGraph.BuildIdempotent` | 23_compliance/anti_gaming/dependency_graph_generator.py:157-171 | Building again changes nothing, so the report that rebuilds after an export sees the graph the export saw. |
| `ComplianceGraph.StyleFor` | 23_compliance/anti_gaming/dependency_graph_generator.py:81-87 | A node is drawn in the component style exactly when its type is `compliance_component` and in the module style exactly when its type is `module`. |
| `ComplianceGraph.NodeLines` | 23_compliance/anti_gaming/dependency_graph_generator.py:81-87 | There is one node line per node, in node order, each in that node's style. |
| `ComplianceGraph.EdgeLines` | 23_compliance/anti_gaming/dependency_graph_generator.py:89-91 | There is one edge line per edge, in order. |
| `ComplianceGraph.DotFrame` | 23_compliance/anti_gaming/dependency_graph_generator.py:70-95 | The DOT text is the three header lines, the node lines in node order, the edge lines in `edges()` order, and `}`. |
| `ComplianceGraph.DotLines` | 23_compliance/anti_gaming/dependency_graph_generator.py:70-95 | `export_dot`: three header lines, one line per node in node order, one `->` line per edge in edge order, and `}`; `DotFrame` states the layout. |
| `ComplianceGraph.EdgeLinesCover` | 23_compliance/anti_gaming/dependency_graph_generator.py:89-91 | Every edge of the graph has its line in the DOT text. |
| `ComplianceGraph.EdgeLinesSound` | 23_compliance/anti_gaming/dependency_graph_generator.py:89-91 | With quote-free node names, every edge line names an edge of the graph. |
| `ComplianceGraph.DotEdges` | 23_compliance/anti_gaming/dependency_graph_generator.py:89-91 | With quote-free node names, the edge lines name exactly the graph's edges, one line each. |
| `ComplianceGraph.StyleTextInjective` | 23_compliance/anti_gaming/dependency_graph_generator.py:83-87 | The three drawing styles end their node lines differently. |
| `ComplianceGraph.NodeLineInjective` | 23_compliance/anti_gaming/dependency_graph_generator.py:83-87 | With quote-free names, two node lines coincide only for the same name and style, so the rendering loses nothing. |
| `ComplianceGraph.EdgeLineInjective` | 23_compliance/anti_gaming/dependency_graph_generator.py:91 | With quote-free names, two edge lines coincide only for the same edge. |
| `ComplianceGraph.NodeEntry` | 23_compliance/anti_gaming/dependency_graph_generator.py:108-115 | A JSON node carries the node's id, its type or `unknown` when it has none, and its path or `""` when it has none. |
| `ComplianceGraph.CountKind` | 23_compliance/anti_gaming/dependency_graph_generator.py:179-182 | No more nodes are counted than are listed. |
| `ComplianceGraph.CountKindAppend` | 23_compliance/anti_gaming/dependency_graph_generator.py:179-182 | Counting over two lists of nodes adds up. |
| `ComplianceGraph.CountKindAll` | 23_compliance/anti_gaming/dependency_graph_generator.py:179-182 | When all listed nodes have the type, all are counted; when none has it, none is. |
| `ComplianceGraph.CuratedStats` | 23_compliance/anti_gaming/dependency_graph_generator.py:169-185 | The report on the curated graph built from scratch shows 33 nodes, 32 edges, acyclic, 9 components and 24 modules. |
| `ComplianceGraph.ReportAfterExport` | 23_compliance/anti_gaming/dependency_graph_generator.py:188-206 | What `export_graph` prints after exporting from a fresh generator: the report rebuilds the built graph and still shows 33 nodes, 32 edges, acyclic, 9 components and 24 modules. |
| `ComplianceGraph.MakeReport` | 23_compliance/anti_gaming/dependency_graph_generator.py:169-185 | `generate_report`: the graph is rebuilt first, then its node and edge counts, its acyclicity, and the numbers of components and modules are reported. |
| `StructureLock.CriticalErrors` | 24_meta_orchestration/triggers/ci/gates/structure_lock_l3.py:26-40 | One error per absent critical file, naming it: there are no errors exactly when all exist, and an error names a file exactly when that file is absent. |
| `StructureLock.MissingCriticalInjective` | 24_meta_orchestration/triggers/ci/gates/structure_lock_l3.py:40 | Different files give different messages. |
| `StructureLock.CriticalErrorsCount` | 24_meta_orchestration/triggers/ci/gates/structure_lock_l3.py:37-40 | The number of errors is the number of absent critical files. |
| `StructureLock.ModuleError` | 24_meta_orchestration/triggers/ci/gates/structure_lock_l3.py:55-59 | An expected module gives at most one error, and none exactly when it is a directory. |
| `StructureLock.ModuleErrors` | 24_meta_orchestration/triggers/ci/gates/structure_lock_l3.py:42-59 | There are no module errors exactly when every expected module is a directory. |
| `StructureLock.LayoutWarnings` | 24_meta_orchestration/triggers/ci/gates/structure_lock_l3.py:73-82 | A numbered module gives at most five warnings. |
| `StructureLock.FileWarnings` | 24_meta_orchestration/triggers/ci/gates/structure_lock_l3.py:74-77 | There are no file warnings exactly when both required files exist in the module. |
| `StructureLock.DirWarnings` | 24_meta_orchestration/triggers/ci/gates/structure_lock_l3.py:79-82 | There are no directory warnings exactly when the three required sub-directories exist in the module. |
| `StructureLock.CheckedEntries` | 24_meta_orchestration/triggers/ci/gates/structure_lock_l3.py:63-68 | An entry is checked exactly when it is a root entry, a directory, and named with a prefix `01_` to `24_`. |
| `StructureLock.OnlyCheckedEntries` | 24_meta_orchestration/triggers/ci/gates/structure_lock_l3.py:61-82 | Entries that are not numbered module directories add no warning. |
| `StructureLock.StructureWarningsBound` | 24_meta_orchestration/triggers/ci/gates/structure_lock_l3.py:61-82 | There are at most five warnings per checked module. |
| `StructureLock.GuardError` | 24_meta_orchestration/triggers/ci/gates/structure_lock_l3.py:84-99 | The guard adds no error exactly when it ran and exited with 0. |
| `StructureLock.ValidateParts` | 24_meta_orchestration/triggers/ci/gates/structure_lock_l3.py:120-128 | All warnings come from the module-layout check; the errors are those of the critical-file, module and guard checks, in that order. |
| `StructureLock.ValidateWith` | 24_meta_orchestration/triggers/ci/gates/structure_lock_l3.py:120-128 | The four checks of `run_validation` in order, with the critical files and modules as parameters; `ValidateParts` states where each finding comes from. |
| `StructureLock.Validate` | 24_meta_orchestration/triggers/ci/gates/structure_lock_l3.py:120-128 | `run_validation` with the fixed critical files and the 24 modules: the critical-file, module, inner-layout and guard checks in that order. |
| `StructureLock.ValidateClean` | 24_meta_orchestration/triggers/ci/gates/structure_lock_l3.py:120-128 | A run has no errors exactly when every critical file exists, every expected module is a directory and the guard exited with 0. |
| `StructureLock.GateClean` | 24_meta_orchestration/triggers/ci/gates/structure_lock_l3.py:26-128 | For the hard-coded lists, on the tree below the gate's root: no errors exactly when the six critical files exist, the 24 numbered module directories exist and the guard succeeded. |
| `StructureLock.GateRoots` | 24_meta_orchestration/triggers/ci/gates/structure_lock_l3.py:22 | The script's fourth parent, the root the gate takes, is `24_meta_orchestration`; its fifth is the repository root. |
| `StructureLock.FourDeep` | 24_meta_orchestration/triggers/ci/gates/structure_lock_l3.py:22 | The fourth parent of `a/b/c/d/x` is `a` and the fifth is `.`, for components without `/`. |
| `StructureLock.SeenFrom` | 24_meta_orchestration/triggers/ci/gates/structure_lock_l3.py:37-82 | A path exists below the gate's root exactly when root/path exists in the repository, with the same kind; from `.` the whole repository is seen. |
| `StructureLock.GateAtRoot` | 24_meta_orchestration/triggers/ci/gates/structure_lock_l3.py:22-128 | Corrected: rooted five parents up, the gate checks the repository itself. |
| `StructureLock.GateAsWrittenFails` | 24_meta_orchestration/triggers/ci/gates/structure_lock_l3.py:22-59 | As written: on any repository without a `24_meta_orchestration/01_ai_layer` directory the gate has an error and exits with 24, whatever the guard reports. |
| `StructureLock.GateAsWritten` | 24_meta_orchestration/triggers/ci/gates/structure_lock_l3.py:22-128 | The gate as written: every check reads the tree below the script's fourth parent; `GateAsWrittenFails` states what that does to a full checkout. |
| `StructureLock.StandardRepoLayout` | 24_meta_orchestration/triggers/ci/gates/structure_lock_l3.py:28-52 | The repository holding just the critical files and the 24 module directories has them all at its root and no module inside `24_meta_orchestration`. |
| `StructureLock.NestedModuleAbsent` | 24_meta_orchestration/triggers/ci/gates/structure_lock_l3.py:28-52 | `24_meta_orchestration/01_ai_layer` is neither a critical file nor a module name. |
| `StructureLock.StandardRepoGates` | 24_meta_orchestration/triggers/ci/gates/structure_lock_l3.py:22-128 | On that repository with a succeeding guard, the gate rooted at the repository root passes and the gate as written fails. |
| `Paths.Parent` | 24_meta_orchestration/triggers/ci/gates/structure_lock_l3.py:22 | `parent` is the directory prefix without its `/`, or `.` for a bare name. |
| `Paths.ParentAppend` | 24_meta_orchestration/triggers/ci/gates/structure_lock_l3.py:22 | The parent of `d/x` is `d` when `x` has no `/`. |
| `StructureLock.Status` | 24_meta_orchestration/triggers/ci/gates/structure_lock_l3.py:108 | The evidence status is `PASS` exactly when there is no error. |
| `StructureLock.ExitCode` | 24_meta_orchestration/triggers/ci/gates/structure_lock_l3.py:149-152 | The gate exits with 24 exactly when there is an error, and with 0 otherwise. |
| `StructureLock.WarningsDoNotFail` | 24_meta_orchestration/triggers/ci/gates/structure_lock_l3.py:108-152 | Warnings alone change neither the status nor the exit code. |
| `StructurePolicy.StepClassify` | 23_compliance/tests/unit/test_structure_policy_vs_md.py:58 | One more character moves the scanner to the class of the longer prefix. |
| `StructurePolicy.MatchNaming` | 23_compliance/tests/unit/test_structure_policy_vs_md.py:55-61 | The scanner accepts exactly the names the naming pattern matches, including one final newline before `$`. |
| `StructurePolicy.SplitHead` | 23_compliance/tests/unit/test_structure_policy_vs_md.py:67 | The first field of `split('_')` is everything before the first `_`. |
| `StructurePolicy.ThresholdOkIff` | 23_compliance/tests/unit/test_structure_policy_vs_md.py:98-103 | The threshold test passes exactly for an integer from 90 to 100; a boolean is an `int` to `isinstance` but has value 0 or 1, so it fails. |
| `StructurePolicy.TopicChars` | 24_meta_orchestration/triggers/ci/gates/structure_lock_l3.py:44-52 | Every module topic is a non-empty run of lower-case letters and underscores. |
| `StructurePolicy.ModulesNamed` | 23_compliance/tests/unit/test_structure_policy_vs_md.py:55-61 | Each of the 24 hard-coded module names matches the naming pattern. |
| `StructurePolicy.ModulesSequential` | 23_compliance/tests/unit/test_structure_policy_vs_md.py:63-69 | The hard-coded modules are numbered `01` to `24` in order. |
| `StructurePolicy.ModulesConform` | 23_compliance/tests/unit/test_structure_policy_vs_md.py:50-69 | A policy listing exactly the hard-coded modules passes the count, naming and numbering tests. |
| `StructurePolicy.SequentialDistinct` | 23_compliance/tests/unit/test_structure_policy_vs_md.py:63-69 | Passing the numbering test already rules out a module listed twice. |
| `CircularValidator.DecodeRecord` | 23_compliance/anti_gaming/circular_dependency_validator.py:62-70 | A stored dependency record reads back as its kind and its stripped line. |
| `CircularValidator.Piece` | 23_compliance/anti_gaming/circular_dependency_validator.py:60-70 | A line yields a record of a kind, tagged with that kind, exactly when it passes that kind's test. |
| `CircularValidator.RecordInjective` | 23_compliance/anti_gaming/circular_dependency_validator.py:62-70 | Two kinds never give the same record of one line. |
| `CircularValidator.LineRecordsShape` | 23_compliance/anti_gaming/circular_dependency_validator.py:57-70 | A stripped line yields a record of a kind exactly when it passes that kind's test; every record is one of that line; records come in the order import, shell call, YAML reference, so at most three. |
| `CircularValidator.LineRecords` | 23_compliance/anti_gaming/circular_dependency_validator.py:57-70 | One raw line is stripped and checked for a Python import, a shell call and a YAML reference, in that order, each adding one record. |
| `CircularValidator.EdgeTargetFirstRule` | 23_compliance/anti_gaming/circular_dependency_validator.py:83-90 | A record gives an edge exactly when one of the three keywords occurs in it, and then to the target of the first keyword that occurs. |
| `CircularValidator.EdgeTarget` | 23_compliance/anti_gaming/circular_dependency_validator.py:83-90 | The one edge target a record contributes: that of the first rule whose keyword occurs in it, or none. |
| `CircularValidator.RecordTargets` | 23_compliance/anti_gaming/circular_dependency_validator.py:83-90 | The targets of a file's records are exactly the targets some record points at. |
| `CircularValidator.AddTargetEdges` | 23_compliance/anti_gaming/circular_dependency_validator.py:83-90 | Adding one edge per target gives exactly the old edges plus an edge from the file to each target, and exactly the old nodes plus the targets. |
| `CircularValidator.AddToGraph` | 23_compliance/anti_gaming/circular_dependency_validator.py:79-90 | `_add_to_graph` makes the file a node even without edges, and adds exactly the edges from the file to the targets its records name. |
| `CircularValidator.FilesUnder` | 23_compliance/anti_gaming/circular_dependency_validator.py:40-44 | A directory's scan lists exactly the files at any depth below it whose suffix is `.py`, `.sh`, `.yaml` or `.yml`. |
| `CircularValidator.ScanFrom` | 23_compliance/anti_gaming/circular_dependency_validator.py:26-38 | The scan lists exactly the files below one of the scan directories that exist. |
| `CircularValidator.PutDeps` | 23_compliance/anti_gaming/circular_dependency_validator.py:73 | Setting a key in `dependencies` replaces its entry in place or appends a new one, and no key appears twice. |
| `CircularValidator.PutDepsKeys` | 23_compliance/anti_gaming/circular_dependency_validator.py:73 | Afterwards the keys are the old keys and the new one. |
| `CircularValidator.AnalyzeFileKeepsInv` | 23_compliance/anti_gaming/circular_dependency_validator.py:46-77 | Analysing a file records it exactly when it is readable and yields a record; an unreadable or record-free file changes nothing. |
| `CircularValidator.AnalyzeFile` | 23_compliance/anti_gaming/circular_dependency_validator.py:46-77 | `_analyze_file`: a file that is unreadable or yields no record changes nothing; otherwise its records are stored and its edges added. `AnalyzeFileKeepsInv` states the effect. |
| `CircularValidator.AnalyzeAll` | 23_compliance/anti_gaming/circular_dependency_validator.py:40-44 | After analysing a list of files, a file is recorded exactly when it was recorded before or is in the list and yields a record. |
| `CircularValidator.ScanPaths` | 23_compliance/anti_gaming/circular_dependency_validator.py:26-90 | After a scan a file is recorded exactly when it was scanned and yielded a record; an edge exists exactly when it runs from a scanned file to a target one of its records names; every recorded file is a node. |
| `CircularValidator.Scan` | 23_compliance/anti_gaming/circular_dependency_validator.py:26-44 | `scan_dependencies` on a fresh validator: the files of the script directories, each analysed in turn; `ScanPaths` states what the scan records. |
| `CircularValidator.RecordMapLookup` | 23_compliance/anti_gaming/circular_dependency_validator.py:48-56 | The record table holds exactly the records of each readable file. |
| `CircularValidator.DetectCircular` | 23_compliance/anti_gaming/circular_dependency_validator.py:92-100 | Detection reports valid exactly when the graph has no cycle, and also when the cycle search itself fails. |
| `CircularValidator.ExitCode` | 23_compliance/anti_gaming/circular_dependency_validator.py:159-161 | A plain run exits with 0 or 1, and with 1 exactly when the search did not fail and the scanned graph has a cycle. |
| `CircularValidator.FilesAtMostRecords` | 23_compliance/anti_gaming/circular_dependency_validator.py:134-135 | Every analysed file has at least one record, so the printed number of dependencies is at least the number of files analysed. |
| `CircularValidator.CycleLineCloses` | 23_compliance/anti_gaming/circular_dependency_validator.py:142 | A printed cycle is its nodes with the first node appended, joined by ` -> `. |
| `CircularValidator.CycleLineEnds` | 23_compliance/anti_gaming/circular_dependency_validator.py:142 | A printed cycle starts and ends with the same node. |
| `EvidenceRegistry.Classify` | 12_tooling/scripts/update_evidence_registry.py:112-127 | The type is decided by the first of `policy_review`, `structure`, `write_override`, `test`, `audit` found in the lower-cased path, and is `compliance_evidence` when none is found; each type is given exactly in its case. |
| `EvidenceRegistry.Matching` | 12_tooling/scripts/update_evidence_registry.py:59-61 | A pattern's scan lists exactly the files whose name matches it. |
| `EvidenceRegistry.CountBucket` | 12_tooling/scripts/update_evidence_registry.py:100-107 | No counter exceeds the number of entries. |
| `EvidenceRegistry.BucketsPartition` | 12_tooling/scripts/update_evidence_registry.py:100-107 | Every entry feeds exactly one of the three counters. |
| `EvidenceRegistry.StatsOf` | 12_tooling/scripts/update_evidence_registry.py:96-107 | Corrected statistics: the three counters add up to the total, which is the number of entries. |
| `EvidenceRegistry.Register` | 12_tooling/scripts/update_evidence_registry.py:63-94 | Corrected registration: old entries stay; each new entry gets id one more than the entries before it, a path not registered before the scan, and the type of its path; the registered paths become the old ones plus every found path; no path is registered twice. |
| `EvidenceRegistry.AppendPaths` | 12_tooling/scripts/update_evidence_registry.py:93 | Appending an entry adds exactly its path to the registered paths. |
| `EvidenceRegistry.Scan` | 12_tooling/scripts/update_evidence_registry.py:49-110 | Corrected scan: a missing evidence directory changes nothing; otherwise registration as above over every file matching one of the three patterns, with statistics that agree with the entries. |
| `EvidenceRegistry.ScanTwice` | 12_tooling/scripts/update_evidence_registry.py:49-110 | Scanning the same files again registers nothing new and leaves the registry as it was. |
| `EvidenceRegistry.NothingNew` | 12_tooling/scripts/update_evidence_registry.py:63-94 | An extension that registers no new path but only appends entries with unregistered paths appends nothing. |
| `EvidenceRegistry.RegisterAgainst` | 12_tooling/scripts/update_evidence_registry.py:63-94 | As written: the loop keeps the old entries and appends at most one entry per found file. |
| `EvidenceRegistry.StatsAsWritten` | 12_tooling/scripts/update_evidence_registry.py:96-107 | As written: the total is recomputed, but each counter is incremented once per entry on top of its stored value. |
| `EvidenceRegistry.ScanAsWrittenRaises` | 12_tooling/scripts/update_evidence_registry.py:59-66 | As written: run from an absolute working directory, the scan raises as soon as it finds a relative evidence path, since `rglob` under a relative directory yields relative paths. |
| `EvidenceRegistry.ScanAsWritten` | 12_tooling/scripts/update_evidence_registry.py:49-110 | The scan as written: nothing changes without the evidence directory; otherwise every found path goes through `relative_to(Path.cwd())`, a path not below the working directory makes the whole scan raise, and otherwise the new paths are registered and the statistics recounted. |
| `EvidenceRegistry.TwiceFoundListedTwice` | 12_tooling/scripts/update_evidence_registry.py:59-61 | A file named `x_evidence_log_y.json` is found by two patterns and listed twice. |
| `EvidenceRegistry.RegisterAsWrittenDuplicates` | 12_tooling/scripts/update_evidence_registry.py:63-94 | As written: a path listed twice is registered twice, with ids 1 and 2, because the set of known paths is never updated inside the loop. |
| `EvidenceRegistry.NamedTwiceFoundListedTwice` | 12_tooling/scripts/update_evidence_registry.py:59-61 | Any path to a file named `a_evidence_log_1.json`, in whatever directory, is listed twice by the scan. |
| `EvidenceRegistry.TwiceFoundUnder` | 12_tooling/scripts/update_evidence_registry.py:51-61 | `a_evidence_log_1.json` in the evidence directory below any working directory is listed twice by the scan. |
| `EvidenceRegistry.ScanAsWrittenListedTwice` | 12_tooling/scripts/update_evidence_registry.py:59-107 | As written: scanning one file that is listed twice and lies under the working directory registers the pair (file, relative path) twice against the paths known before the scan, then recounts. |
| `EvidenceRegistry.ScanAsWrittenDuplicates` | 12_tooling/scripts/update_evidence_registry.py:59-94 | As written: when the found path `<cwd>/23_compliance/evidence/a_evidence_log_1.json` lies under the working directory, so that `relative_to` succeeds, the scan of an empty registry does not raise and registers the relative path `23_compliance/evidence/a_evidence_log_1.json` twice, with ids 1 and 2. |
| `EvidenceRegistry.StatsAsWrittenDrift` | 12_tooling/scripts/update_evidence_registry.py:96-107 | As written: rescanning a registry with correct statistics leaves the counters adding up to the old entry count plus the new total, so they no longer agree with the entries. |
| `EvidenceRegistry.Recent` | 12_tooling/scripts/update_evidence_registry.py:138-140 | The exported recent evidence is the last ten entries, or all of them when there are fewer, in order. |
| `PolicyReview.MissingSections` | 12_tooling/scripts/policy_review.py:43-47 | The missing sections are exactly the required sections the policy lacks. |
| `PolicyReview.MissingMessages` | 12_tooling/scripts/policy_review.py:46 | There is one violation per missing section, naming it. |
| `PolicyReview.ReviewStructure` | 12_tooling/scripts/policy_review.py:24-56 | A malformed policy file costs ten points and adds one violation quoting the parser's message; the review fails exactly when a last-review date is present and does not parse. |
| `PolicyReview.ReviewStructureEffect` | 12_tooling/scripts/policy_review.py:42-54 | Each missing section costs five points; the violations become the earlier ones followed by one `Missing required policy section` message per missing section, in the order the sections are checked; a last review more than 30 days old appends one recommendation giving the days overdue beyond 30, and costs nothing; earlier recommendations are kept. |
| `PolicyReview.StructureScoreRange` | 12_tooling/scripts/policy_review.py:42-56 | From the start, a structure review scores from 75 to 100, and 100 exactly when no section is missing. |
| `PolicyReview.DefaultPolicyPasses` | 12_tooling/scripts/policy_review.py:28-31 | An absent policy file is replaced by the default policy, which passes and changes nothing. |
| `PolicyReview.ExpiredIds` | 12_tooling/scripts/policy_review.py:74-83 | The exceptions review fails exactly when some expiry date does not parse; otherwise it finds one id per expired exception. |
| `PolicyReview.ExpiredOf` | 12_tooling/scripts/policy_review.py:78-82 | The exceptions expired by `now` are as many as `CountExpired` counts, each listed and expired. |
| `PolicyReview.IdsOf` | 12_tooling/scripts/policy_review.py:83 | Each exception is reported under its id, or `unknown` when it has none. |
| `PolicyReview.ExpiredIdsFilter` | 12_tooling/scripts/policy_review.py:78-83 | When every expiry date parses, the review reports exactly the ids of the expired exceptions, in file order, `unknown` for one without an id. |
| `PolicyReview.CountExpired` | 12_tooling/scripts/policy_review.py:76-82 | No more exceptions expire than are listed. |
| `PolicyReview.ExpiredMonotone` | 12_tooling/scripts/policy_review.py:79-82 | A later `now` never finds fewer exceptions expired. |
| `PolicyReview.ExpiredMessages` | 12_tooling/scripts/policy_review.py:83 | There is one violation per expired exception, naming its id. |
| `PolicyReview.ReviewExceptions` | 12_tooling/scripts/policy_review.py:58-88 | A malformed exceptions file costs ten points and adds one violation quoting the parser's message; an absent file is replaced by the default, which lists none and changes nothing. |
| `PolicyReview.ReviewExceptionsEffect` | 12_tooling/scripts/policy_review.py:74-86 | Each exception expired by `now` costs five points and adds one violation; earlier violations and recommendations are kept. |
| `PolicyReview.ReviewStatus` | 12_tooling/scripts/policy_review.py:151 | The evidence says `COMPLIANT` exactly when the score is at least 95, and `NON-COMPLIANT` otherwise. |
| `PolicyReview.KindOf` | 12_tooling/scripts/policy_review.py:169-177 | The review is chosen by the target's file name: `structure_policy` first, then `exceptions`, otherwise unknown. |
| `PolicyReview.Run` | 12_tooling/scripts/policy_review.py:160-188 | A run ends in the unknown-type exit exactly when the target is of unknown type; a structure review of an absent policy file leaves the starting state. |
| `PolicyReview.ExitStatus` | 12_tooling/scripts/policy_review.py:160-188 | The process exits with status 1 when `main` calls `sys.exit(1)` or a review raises, and 0 when the review completes, whatever it found. |
| `PolicyReview.RunExitStatus` | 12_tooling/scripts/policy_review.py:160-188 | A run exits with status 1 exactly when the target is of unknown type, or the chosen review meets a date `fromisoformat` rejects (lines 51 and 80): the policy's last review, or an exception's expiry date. |
| `PolicyReview.ExceptionsRunVerdict` | 12_tooling/scripts/policy_review.py:58-88 | A completed exceptions review scores 100 less five per expired exception and is compliant exactly when at most one exception has expired. |
| `ReviewLog.Touch` | 23_compliance/reviews/update_review_log.py:70 | Stamping `last_updated` adds that key and changes nothing else in the log: history, schedule and CI settings stay as they were. |
| `ReviewLog.DefaultLog` | 24_meta_orchestration/triggers/ci/gates/review_status_gate.py:37-55 | A log created from nothing has the five top-level keys, an empty history, the internal review due in 90 days, the external one in 180 days, and the review-status check marked required. |
| `ReviewGate.IssuePrefixes` | 24_meta_orchestration/triggers/ci/gates/review_status_gate.py:77-125 | Error issues begin with the blocking `ERROR:` prefix and warnings never do. |
| `ReviewGate.AnyError` | 24_meta_orchestration/triggers/ci/gates/review_status_gate.py:125 | An issue list is blocking exactly when some issue begins with `ERROR:`. |
| `ReviewGate.CheckStatus` | 24_meta_orchestration/triggers/ci/gates/review_status_gate.py:57-128 | `check_review_status`: false for a missing or empty log or an early return; otherwise true exactly when no collected issue is an error. |
| `ReviewGate.ScheduleStep` | 24_meta_orchestration/triggers/ci/gates/review_status_gate.py:71-100 | A scheduled date stops the gate exactly when it is not a string or lies more than 60 days in the past; an unparsable date gives exactly one error, `ERROR: Invalid external review date format: <date>` or its `internal` counterpart; a parsable one gives at most one issue, never an error, and none exactly when the date is not in the past. |
| `ReviewGate.HistoryStep` | 24_meta_orchestration/triggers/ci/gates/review_status_gate.py:103-116 | A missing or empty history gives the single "No review history found" warning; otherwise at most one issue arises, and it is an error exactly when the last review's date is a string that cannot be parsed. |
| `ReviewGate.GateIssues` | 24_meta_orchestration/triggers/ci/gates/review_status_gate.py:57-125 | The issues `check_review_status` collects, external schedule first, then internal, then history, or an early return; `IssuePrefixes` and the blocking lemmas state their effect. |
| `ReviewGate.RunGate` | 24_meta_orchestration/triggers/ci/gates/review_status_gate.py:142-166 | A usable log that does not mark the check required passes without checking; otherwise the gate's verdict is the review-status check's. |
| `ReviewGate.ExternalBlocks` | 24_meta_orchestration/triggers/ci/gates/review_status_gate.py:71-78 | An external review more than 60 days overdue fails the check at once, whatever the internal schedule and the history hold. |
| `ReviewGate.InternalBlocks` | 24_meta_orchestration/triggers/ci/gates/review_status_gate.py:88-95 | An internal review more than 60 days overdue fails the check. |
| `ReviewGate.UnreadableDateFails` | 24_meta_orchestration/triggers/ci/gates/review_status_gate.py:84-114 | An unparsable external, internal or last-review date fails the check. |
| `ReviewGate.NoIssuesPasses` | 24_meta_orchestration/triggers/ci/gates/review_status_gate.py:126-128 | With no issues the check passes. |
| `ReviewGate.WarningsPass` | 24_meta_orchestration/triggers/ci/gates/review_status_gate.py:119-125 | Warnings alone never fail the check. |
| `ReviewGate.DefaultLogPasses` | 24_meta_orchestration/triggers/ci/gates/review_status_gate.py:37-55 | A freshly created log whose two dates lie ahead raises only the empty-history warning and passes the gate. |
| `ReviewChecker.GradeOf` | 23_compliance/reviews/review_status_checker.py:132-138 | A date is an error beyond its grace period, a warning when merely past, an upcoming action inside its notice window, and nothing otherwise; the four cases partition the day counts. |
| `ReviewChecker.GradeMonotone` | 23_compliance/reviews/review_status_checker.py:132-155 | A later due date never earns a worse grade. |
| `ReviewChecker.CheckDate` | 23_compliance/reviews/review_status_checker.py:127-158 | A non-string date raises; an unparsable one adds only an "Invalid … review date" error; a parsable one turns `current` false when it is overdue beyond grace, leaves it otherwise, and adds one message unless nothing is due. |
| `ReviewChecker.Currency` | 23_compliance/reviews/review_status_checker.py:108-160 | `check_review_currency` on a usable log: current without a schedule; otherwise the internal date, then the external one; `CurrentIff` states when it is current. |
| `ReviewChecker.CurrentIff` | 23_compliance/reviews/review_status_checker.py:108-160 | The reviews are reported not current exactly when a readable scheduled date is overdue beyond its grace period, 30 days for internal and 60 for external reviews. |
| `ReviewChecker.StatusOk` | 23_compliance/reviews/review_status_checker.py:162-216 | `generate_status_report`: false for a missing or empty log, the currency verdict for a readable one, and a raise where the currency check raises. |
| `ReviewChecker.NoScheduleIsCurrent` | 23_compliance/reviews/review_status_checker.py:122-160 | Without a schedule, or with neither date in it, the reviews are current and nothing is reported. |
| `ReviewChecker.RunCheck` | 23_compliance/reviews/review_status_checker.py:218-263 | The run raises exactly when the status report raises on a non-string date or the automated stamp hits a log without `ci_integration` (`KeyError`). Otherwise it fails exactly when the status is "not current" and blocking was asked for. A usable log is saved with `last_automated_check` set to now and its history and schedule kept; an unusable one is not written. |
| `ReviewChecker.ExitStatus` | 23_compliance/reviews/review_status_checker.py:277-289 | `main` exits with 1 for a failed run or an escaped exception and with 0 for a passed run. |
| `ReviewChecker.RunCheckBlocksIff` | 23_compliance/reviews/review_status_checker.py:245-289 | On a usable log with CI settings and readable dates, the run exits with 1 exactly when blocking was asked for and a date is overdue beyond its grace period. |
| `ReviewChecker.MissingCiFails` | 23_compliance/reviews/review_status_checker.py:224-226 | A usable log without `ci_integration` makes the run raise and exit with 1, even without blocking. |
| `ReviewChecker.UnusableLogRun` | 23_compliance/reviews/review_status_checker.py:167-170 | A missing or empty log is reported as not current and is not written; the run fails exactly when blocking was asked for. |
| `ReviewChecker.UpdateAppends` | 23_compliance/reviews/review_status_checker.py:218-233 | A given review is appended to the history with the earlier entries kept, an empty one adds nothing, the schedule is untouched and `last_updated` is stamped. |
| `ReviewChecker.UpdateLog` | 23_compliance/reviews/review_status_checker.py:218-243 | `update_review_log`: refused for a missing or empty log; the automated stamp needs `ci_integration` and a given review needs `review_history`, each a `KeyError` otherwise; then the review is appended and `last_updated` stamped. |
| `ReviewChecker.InitialLogShape` | 23_compliance/reviews/review_status_checker.py:37-106 | The initial log holds the one internal setup review and the first dates 2025-12-18 and 2026-03-18, and is current with nothing to report while those dates are far enough ahead. |
| `ReviewLogUpdater.AddEntryEffect` | 23_compliance/reviews/update_review_log.py:55-72 | An entry missing a required field is refused; an accepted one becomes the last entry of a history one longer, with the earlier entries and the schedule kept. |
| `ReviewLogUpdater.AddEntry` | 23_compliance/reviews/update_review_log.py:55-72 | `add_review_entry`: refused for a missing log or a missing required field, a `KeyError` without `review_history`, and otherwise the review is appended and the log saved with a new `last_updated`. |
| `ReviewLogUpdater.UpdateScheduleEffect` | 23_compliance/reviews/update_review_log.py:74-88 | Only the dates given as non-empty strings change; every other schedule entry keeps its value. |
| `ReviewLogUpdater.UpdateSchedule` | 23_compliance/reviews/update_review_log.py:74-88 | `update_schedule`: refused for a missing log; each date given as a non-empty string replaces its schedule entry, with a `KeyError` when there is such a date and no schedule. |
| `ReviewLogUpdater.AutomatedCheckEffect` | 23_compliance/reviews/update_review_log.py:90-106 | The automated-check time is always stamped, the PR and CI check times exactly in those contexts, and otherwise keep their old values. |
| `ReviewLogUpdater.UpdateAutomatedCheck` | 23_compliance/reviews/update_review_log.py:90-106 | `update_automated_check`: refused for a missing log, a `KeyError` without `ci_integration`, and otherwise the automated-check time is stamped, and the PR and CI check times only in those contexts. |
| `ReviewLogUpdater.FirstMatch` | 23_compliance/reviews/update_review_log.py:115-119 | The position found holds a review with the id and no earlier review has it; none is found exactly when no review has it. |
| `ReviewLogUpdater.CompleteFirstEffect` | 23_compliance/reviews/update_review_log.py:114-119 | Completion sets status and completion date on the first review with the id and changes no other review; with no match the history is unchanged. |
| `ReviewLogUpdater.MarkCompleteRouting` | 23_compliance/reviews/update_review_log.py:121-133 | The next date replaces the external date exactly when the matched review is external; otherwise, also with no match, it replaces the internal date; the other date is kept. |
| `ReviewLogUpdater.MarkComplete` | 23_compliance/reviews/update_review_log.py:108-137 | `mark_review_complete`: the first review with the id gets its status and completion date; a given next date goes to the external schedule for an external review and to the internal one otherwise. |
| `ReviewLogUpdater.CompleteFirstKeepsMatch` | 23_compliance/reviews/update_review_log.py:114-128 | Completing a review changes neither which review matches first nor its type, so the second search finds the same review. |
| `ReviewLogUpdater.FirstMatchAt` | 23_compliance/reviews/update_review_log.py:115-119 | A review with the id, with none before it, is the one the search finds. |
| `ReviewLogUpdater.CountType` | 23_compliance/reviews/update_review_log.py:173-174 | A per-type count never exceeds the number of reviews. |
| `ReviewLogUpdater.CountTypesBounded` | 23_compliance/reviews/update_review_log.py:173-174 | No review is counted under two types, so the internal and external counts together never exceed the total. |
| `ReviewLogUpdater.SummaryBounded` | 23_compliance/reviews/update_review_log.py:162-178 | A summary is given only for a non-empty history, and its type counts add up to at most its total. |
| `ReviewLogUpdater.Summarize` | 23_compliance/reviews/update_review_log.py:152-178 | `generate_summary`: with a non-empty history, its length and the counts of internal and external reviews; nothing otherwise. |
| `AuditExport.ParseType` | 12_tooling/scripts/export_audit_package.py:21-26 | A name is found in the exporter's table exactly when it is one of the four type keys, and then it is that type's key. |
| `AuditExport.ParseTypeName` | 12_tooling/scripts/export_audit_package.py:224 | Every type's own key is accepted as that type. |
| `AuditExport.Description` | 12_tooling/scripts/export_audit_package.py:94 | The manifest's description is the table's entry for a known type and `Unknown` exactly for a name the table lacks. |
| `AuditExport.StripAll` | 12_tooling/scripts/export_audit_package.py:220-223 | Each comma-separated piece of `--type` is stripped, one result per piece, in order. |
| `AuditExport.Items` | 12_tooling/scripts/export_audit_package.py:220-223 | The items of `--type`: its comma-separated pieces, each stripped, one per piece; `ItemsOfWord` states that a plain word is the one item. |
| `AuditExport.OutputPathShape` | 12_tooling/scripts/export_audit_package.py:229-232 | With several types a package goes to the directory of `--out`, named by the stem of `--out`, `_`, the type and the suffix of `--out`. |
| `AuditExport.OutputPath` | 12_tooling/scripts/export_audit_package.py:228-234 | A lone item keeps `--out`; with several items the package goes beside `--out` as `STEM_TYPE` and the suffix. `OutputPathShape`, `OutputPathLength` and `OutputPathsDistinct` state its properties. |
| `AuditExport.OutputPathLength` | 12_tooling/scripts/export_audit_package.py:232 | A per-type path is exactly `_TYPE` longer than `--out`. |
| `AuditExport.OutputPathsDistinct` | 12_tooling/scripts/export_audit_package.py:230-232 | Two different types listed together never get the same package path, and neither gets `--out` itself. |
| `AuditExport.JobsFrom` | 12_tooling/scripts/export_audit_package.py:222-236 | Unknown items are skipped; a type is exported exactly when its key is among the items, each to its output path. |
| `AuditExport.TypesOf` | 12_tooling/scripts/export_audit_package.py:222-236 | One type per job, in the order of the jobs. |
| `AuditExport.Jobs` | 12_tooling/scripts/export_audit_package.py:220-236 | A single item exports to `--out` itself; several items export each type to its own `_TYPE` path; the types exported are exactly the known items. |
| `AuditExport.SingleTypeKeepsOut` | 12_tooling/scripts/export_audit_package.py:233-234 | A lone type name gives one export, to `--out`. |
| `AuditExport.JobsNoClash` | 12_tooling/scripts/export_audit_package.py:229-236 | Whatever `--type` lists, exports of different types never write to the same path. |
| `AuditExport.EvidenceFiles` | 12_tooling/scripts/export_audit_package.py:28-41 | A missing evidence directory yields nothing; otherwise a file is collected exactly when it lies below the directory and its name matches one of the three evidence patterns. |
| `AuditExport.Present` | 12_tooling/scripts/export_audit_package.py:60-63 | A configuration file is collected exactly when it exists. |
| `AuditExport.WithExtension` | 12_tooling/scripts/export_audit_package.py:48-51 | A policy path is kept exactly when it was listed and its name ends in the extension. |
| `AuditExport.RootFiles` | 12_tooling/scripts/export_audit_package.py:79-87 | A protection root that is a file contributes itself; a directory contributes exactly the regular files below it; anything else contributes nothing. |
| `AuditExport.FilesOf` | 12_tooling/scripts/export_audit_package.py:83-87 | A path is collected from a directory listing exactly when it is listed as a regular file. |
| `AuditExport.PolicyFiles` | 12_tooling/scripts/export_audit_package.py:43-65 | A policy file is collected exactly when it is a `.yaml` or `.yml` entry of an existing policy directory or one of the three configuration files that exists. |
| `AuditExport.FilesUnder` | 12_tooling/scripts/export_audit_package.py:79-87 | A path is collected exactly when some existing root is that regular file or a directory holding it as a regular file. |
| `AuditExport.ProtectionFiles` | 12_tooling/scripts/export_audit_package.py:67-87 | A protection file is collected exactly when it is one of the four roots and a regular file, or a regular file below a root that is a directory. |
| `AuditExport.Collect` | 12_tooling/scripts/export_audit_package.py:137-144 | A `PROTECTION` export collects exactly the protection files; any other collects exactly the evidence and policy files, evidence first. |
| `AuditExport.ComplianceIgnoresProtection` | 12_tooling/scripts/export_audit_package.py:140-144 | What a compliance export collects depends only on the evidence directory, the policy directory and the configuration files. |
| `AuditExport.Checksums` | 12_tooling/scripts/export_audit_package.py:107-119 | The checksum table has exactly the recorded paths as keys, each with its file's digest. |
| `AuditExport.MakeManifest` | 12_tooling/scripts/export_audit_package.py:89-121 | The manifest names the type as given, describes it from the table, lists the files in order and records each file's digest under its path. |
| `AuditExport.ChecksumFields` | 12_tooling/scripts/export_audit_package.py:167 | A checksum line read back splits into a digest and a name that rebuild the line. |
| `AuditExport.ChecksumText` | 12_tooling/scripts/export_audit_package.py:165-167 | The checksum file holds the archive digest, two spaces, the archive name and a newline; `ChecksumRoundTrip` states that it reads back as the digest and the name. |
| `AuditExport.ChecksumRoundTrip` | 12_tooling/scripts/export_audit_package.py:162-167 | The written checksum line reads back as the archive's digest and the archive's file name. |
| `AuditExport.Export` | 12_tooling/scripts/export_audit_package.py:130-178 | An export yields nothing exactly when it collects no file; otherwise the archive goes to the given path and holds every collected file and then the manifest, the manifest is removed afterwards, and the checksum file stays with the archive's digest and name. |
| `AuditExport.ExportArchive` | 12_tooling/scripts/export_audit_package.py:153-160 | No export raises, and a produced package is written to the path it was given. |
| `AuditExport.RunJobs` | 12_tooling/scripts/export_audit_package.py:222-238 | One outcome per job, in order; none raises and each package is written to its own job's path. |
| `AuditExport.RunArchivesDistinct` | 12_tooling/scripts/export_audit_package.py:219-238 | In one run no export raises and packages of different types never land on the same archive. |
| `AuditExport.Run` | 12_tooling/scripts/export_audit_package.py:209-238 | `main`: one export per known item of `--type`, in the order listed; `RunArchivesDistinct` states what a run guarantees. |
| `AuditExport.FirstDoubleSpace` | 12_tooling/scripts/export_audit_package.py:167 | In a checksum line `HASH  NAME` with a space-free hash, the first double space comes right after the hash, so the line splits back into hash and name. |
| `AuditExport.AsMembers` | 12_tooling/scripts/export_audit_package.py:156-159 | Each file is added to the archive under its own name, one member per file, in order. |
| `AuditExport.Below` | 12_tooling/scripts/export_audit_package.py:158 | One path per relative path, each spelled as the working directory, `/`, and the relative path. |
| `AuditExport.ArcNames` | 12_tooling/scripts/export_audit_package.py:158 | Making the paths relative to the working directory succeeds only with names that, spelled below it, give back each path; it fails when some path is not below it. |
| `AuditExport.ExportAsWritten` | 12_tooling/scripts/export_audit_package.py:107-159 | As written, the export yields nothing exactly when it collects nothing, and produces a package only when every collected path and the manifest path lie below the working directory. |
| `AuditExport.ExportAsWrittenRaises` | 12_tooling/scripts/export_audit_package.py:108 | With an absolute working directory, any export that collects a relative path raises instead of producing a package. |
| `AuditExport.ArcNamesBelow` | 12_tooling/scripts/export_audit_package.py:158 | Paths spelled below the working directory are made relative to exactly the relative paths the corrected export records. |

## Left out

- File and directory I/O: reading and writing files, `mkdir`, `shutil.copy`, `tarfile` and `unlink`. The file system is given as sets of existing paths, directory listings or parsed documents. What is written is returned as a value.
- JSON and YAML parsing and `json.dump`: documents are given already parsed. Only the values the scripts inspect are kept; any non-string JSON value is opaque.
- Clock and dates: `datetime.now`, `strptime`, `fromisoformat` and `timedelta.days` are not modelled. A calendar parameter gives, for each date string the parser accepts, the whole days until and since it. Timestamps are integers on one clock, with `now` as a parameter.
- A YAML document that parses to something other than a mapping is not modelled. `fromisoformat` on a value that is not a string is not modelled either. Which strings `fromisoformat` accepts, and whether they carry a UTC offset, is given: a write override's `created` arrives already parsed. A policy document is either malformed or a mapping.
- `ReviewGate.RunGate`: a `ci_integration` value that is not a JSON object is not modelled, because the log's sections are modelled as objects. On such a value `.get` raises `AttributeError`.
- networkx enumeration: `simple_cycles` and `strongly_connected_components` are left out. The validator's verdict is modelled as acyclicity of the graph. The component count of `generate_report` (`dependency_graph_generator.py:178`) is not part of the modelled report.
- Rendering: the pygraphviz SVG export (`export_svg`), the SVG badge template and `nx_pydot.write_dot`. They produce drawings and files, not decisions.
- Subprocesses: the structure guard's output and exit status are parameters. `_generate_score_log` in `export_audit_package.py` is never called and is not modelled.
- The evidence-registry entry fields `created`, `size` and `registered`, and the optional `compliance_score` and `violations_count` read from a JSON evidence file (`update_evidence_registry.py:72-91`), are not modelled: they come from file times, sizes, the clock and file contents. An entry keeps its id, path and type.
- `Paths.RelativeTo`: Python's `.` for a path relative to itself and its answer for the base `/` are not modelled; both give `None`. No modelled caller passes such a pair.
- SHA-256: digests are parameters. The file sizes and modification times in the manifest are left out.
- Console output and argparse: only the parsing rules that decide behaviour are modelled. These are `--type`, `--expire` and the target dispatch of `policy_review.py`. The `main` dispatch of `update_review_log.py` (lines 199-277) and the environment reads in the `main` of `review_status_gate.py` (lines 169-189) are plumbing and are left out.
- `Text.Lower`: only ASCII letters are lowered. Python lowers all of Unicode.
- `StructurePolicy.NameCore`: `\d` is modelled as the ASCII digits. Python's `re` also accepts other Unicode decimal digits.
- `Text.ParseInt`: `int()` is modelled on optional surrounding whitespace, an optional sign and ASCII digits. Underscores between digits and non-ASCII digits are not modelled.
- Replacement escapes of `re.sub` are not modelled. The badge text is inserted literally, which is what `re.sub` does for text without backslashes.
- Paths are relative, normalised POSIX strings. `is_file`, `exists` and glob traversal order are given by the file-system parameter.
- `update_readme_badges.py`'s `main` (lines 103-123) is not modelled. It makes the `--badge` and `--score` paths relative with `Path(..).relative_to(Path.cwd())` (lines 107-111). That call raises `ValueError` for any relative path, the same failure as the first and fourth Findings rows. The model takes the badge link paths as given. The `shutil.copy` of the updated README to `--out` (line 122) is file plumbing.
- `Badges.ViolationsBadge`: a `violations` value that is not a list is not modelled. An evidence file gives the length of its list, or nothing.
- `Badges.OverridesBadge`: only an integer `active_count`, or none, is modelled. The source shows `str()` of whatever JSON value it finds and is green iff that value equals 0. So `false` gives `False` in green, `"3"` gives `3` in yellow, and `0.0` gives `0.0` in green. None of these is modelled.
- `ReadmeBadges.UpdateIdempotent`: idempotence is proved only for badge text free of `<`. Text holding the marker itself would change what the lazy pattern matches on a second run.
- `11_test_simulation/unit/test_structure_policy_vs_md.py` only runs subprocesses and checks files, so nothing in it is modelled. The same holds for `test_policy_file_exists` in the unit test.

## Findings

| source | as written | input that shows it | evidently intended | confidence | as-written member | corrected member |
|---|---|---|---|---|---|---|
| 12_tooling/scripts/update_evidence_registry.py:59-66 | `rglob` under the relative evidence directory yields relative paths. `relative_to(Path.cwd())` is called on them, and `Path.cwd()` is absolute. | any evidence file, e.g. `23_compliance/evidence/a_evidence_1.json`, with the working directory `/repo` | record each file's path relative to the repository root | not executed | `EvidenceRegistry.ScanAsWrittenRaises` | `EvidenceRegistry.Scan` |
| 12_tooling/scripts/update_evidence_registry.py:59-94 | A file whose name matches two patterns is listed twice. The set of known paths is not updated inside the loop, so the file is registered twice. | hidden behind the previous row, whose `relative_to` raises first; it shows once the found paths lie under the working directory: `<cwd>/23_compliance/evidence/a_evidence_log_1.json` matches `*_evidence_*.json` and `*_log_*.json` and is registered twice as `23_compliance/evidence/a_evidence_log_1.json` | register each path once | not executed | `EvidenceRegistry.ScanAsWrittenDuplicates` | `EvidenceRegistry.Register` |
| 12_tooling/scripts/update_evidence_registry.py:96-107 | The per-type counters are incremented over all entries on every scan and never reset. | two scans of a registry with one entry leave a counter at 2 while `total_entries` is 1 | counters that count the entries | not executed | `EvidenceRegistry.StatsAsWrittenDrift` | `EvidenceRegistry.StatsOf` |
| 24_meta_orchestration/triggers/ci/gates/structure_lock_l3.py:22-59 | The gate's root is the fourth parent of the script, which is `24_meta_orchestration`, so the critical files and the 24 modules are looked for inside that module. | a checkout with the six critical files and the 24 module directories at its root, and a succeeding guard: there is no `24_meta_orchestration/01_ai_layer`, so the gate reports it missing and exits with 24 | root the gate at the repository root, five parents up, as the review-status gate beside it does (`review_status_gate.py:19`) | not executed | `StructureLock.StandardRepoGates` | `StructureLock.GateAtRoot` |
| 12_tooling/scripts/export_audit_package.py:107-159 | The manifest and the archive names call `relative_to(Path.cwd())` on paths collected from relative directories, and that call raises. | `--type EU` with one file `23_compliance/evidence/a_evidence_1.json` and the working directory `/repo` | record and archive each path relative to the repository root | not executed | `AuditExport.ExportAsWrittenRaises` | `AuditExport.Export` |

=== FILE: audit_export.dfy ===
/** The audit package exporter: which export types a `--type` argument
    names, where each package is written, which files it collects, and the
    manifest and checksum files around the archive. Directory listings,
    file digests and the archive's digest are given; the clock, file sizes
    and the tar writer are not modelled. */
module AuditExport {
  import opened Wrappers
  import opened Text
  import Paths
  import EvidenceRegistry

  datatype ExportType = EU | ISO | SOC2 | Protection

  /** The key of the type in the exporter's table. */
  function TypeName(t: ExportType): string {
    match t
    case EU => "EU"
    case ISO => "ISO"
    case SOC2 => "SOC2"
    case Protection => "PROTECTION"
  }

  /** The table's description of the type. */
  function Describe(t: ExportType): string {
    match t
    case EU => "European Union GDPR/Compliance"
    case ISO => "ISO 27001 Security Standards"
    case SOC2 => "SOC 2 Type II Controls"
    case Protection => "Protection System Export"
  }

  /** Looking a name up in the table. */
  function ParseType(s: string): (r: Option<ExportType>)
    ensures r.Some? ==> TypeName(r.value) == s
    ensures r.None? ==> forall t :: TypeName(t) != s
  {
    if s == "EU" then Some(EU)
    else if s == "ISO" then Some(ISO)
    else if s == "SOC2" then Some(SOC2)
    else if s == "PROTECTION" then Some(Protection)
    else None
  }

  /** Each type is found under its own name. */
  lemma ParseTypeName(t: ExportType)
    ensures ParseType(TypeName(t)) == Some(t)
  {
  }

  /** The manifest's `description`: the table's entry, or `Unknown` for a
      name the table does not hold. */
  function Description(name: string): (d: string)
    ensures d == "Unknown" <==> ParseType(name).None?
    ensures forall t :: name == TypeName(t) ==> d == Describe(t)
  {
    match ParseType(name)
    case Some(t) => Describe(t)
    case None => "Unknown"
  }

  /** The items of `--type`: the comma-separated pieces, each stripped. */
  function Items(arg: string): seq<string> {
    StripAll(Split(arg, ','))
  }

  function StripAll(parts: seq<string>): (r: seq<string>)
    ensures |r| == |parts|
    ensures forall k :: 0 <= k < |r| ==> r[k] == Strip(parts[k])
  {
    if parts == [] then [] else [Strip(parts[0])] + StripAll(parts[1..])
  }

  /** Where the package of one type goes: `--out` itself, or, when the
      argument lists several items, `STEM_TYPE` followed by the suffix in
      the same directory. */
  function OutputPath(out: string, name: string, several: bool): string {
    if several then Paths.DirPrefix(out) + TypedName(Paths.Name(out), name) else out
  }

  /** `STEM_TYPE` followed by the suffix of the file name `n`. */
  function TypedName(n: string, name: string): string {
    Paths.Stem(n) + "_" + name + Paths.Suffix(n)
  }

  lemma StemSuffixNoSlash(n: string)
    requires '/' !in n
    ensures '/' !in Paths.Stem(n) && '/' !in Paths.Suffix(n)
  {
    match Paths.SuffixDot(n)
    case None =>
    case Some(i) =>
      assert forall k :: 0 <= k < i ==> n[..i][k] == n[k];
      assert forall k :: i <= k < |n| ==> n[i..][k - i] == n[k];
  }

  /** A per-type package lies in the directory of `--out`, under the name
      of `--out` with `_TYPE` put in front of its suffix. */
  lemma OutputPathShape(out: string, name: string)
    requires '/' !in name
    ensures var p := OutputPath(out, name, true);
      var n := Paths.Name(out);
      && Paths.DirPrefix(p) == Paths.DirPrefix(out)
      && Paths.Name(p) == Paths.Stem(n) + "_" + name + Paths.Suffix(n)
  {
    var n := Paths.Name(out);
    Paths.DirPrefixName(out);
    StemSuffixNoSlash(n);
    assert '/' !in TypedName(n, name);
    Paths.DirPrefixAppend(Paths.DirPrefix(out), TypedName(n, name));
  }

  /** A per-type path is `--out` with `_TYPE` added. */
  lemma OutputPathLength(out: string, name: string)
    ensures |OutputPath(out, name, true)| == |out| + 1 + |name|
  {
    Paths.DirPrefixName(out);
    Paths.StemSuffix(Paths.Name(out));
  }

  /** The four type names have four different lengths. */
  lemma TypeNameLengths(t1: ExportType, t2: ExportType)
    ensures t1 != t2 ==> |TypeName(t1)| != |TypeName(t2)|
  {
  }

  /** Two different types listed together never share a package path, and
      neither lands on `--out` itself. */
  lemma OutputPathsDistinct(out: string, t1: ExportType, t2: ExportType)
    ensures t1 != t2 ==> OutputPath(out, TypeName(t1), true) != OutputPath(out, TypeName(t2), true)
    ensures OutputPath(out, TypeName(t1), true) != out
  {
    OutputPathLength(out, TypeName(t1));
    OutputPathLength(out, TypeName(t2));
    TypeNameLengths(t1, t2);
  }

  /** One package to build. */
  datatype Job = Job(exportType: ExportType, out: string)

  /** The types of the jobs, in order. */
  function TypesOf(js: seq<Job>): (r: seq<ExportType>)
    ensures |r| == |js| && forall k :: 0 <= k < |js| ==> r[k] == js[k].exportType
  {
    if js == [] then [] else [js[0].exportType] + TypesOf(js[1..])
  }

  /** The loop of `main` over the items: unknown items are skipped and the
      rest become jobs in the order listed. */
  function JobsFrom(items: seq<string>, out: string, several: bool): (js: seq<Job>)
    ensures |js| <= |items|
    ensures forall k :: 0 <= k < |js| ==> js[k].out == OutputPath(out, TypeName(js[k].exportType), several)
    ensures forall t :: t in TypesOf(js) <==> TypeName(t) in items
  {
    if items == [] then []
    else
      var rest := JobsFrom(items[1..], out, several);
      assert forall s :: s in items <==> s == items[0] || s in items[1..];
      match ParseType(items[0])
      case None => rest
      case Some(t) =>
        var js := [Job(t, OutputPath(out, items[0], several))] + rest;
        assert forall k :: 0 < k < |js| ==> js[k] == rest[k - 1];
        assert js[1..] == rest;
        forall u
          ensures u in TypesOf(js) <==> TypeName(u) in items
        {
          ParseTypeName(u);
        }
        js
  }

  /** The jobs for a `--type` argument and an `--out` path. */
  function Jobs(arg: string, out: string): (js: seq<Job>)
    ensures |js| <= |Items(arg)|
    ensures |Items(arg)| == 1 ==> forall k :: 0 <= k < |js| ==> js[k].out == out
    ensures |Items(arg)| > 1 ==>
      forall k :: 0 <= k < |js| ==> js[k].out == OutputPath(out, TypeName(js[k].exportType), true)
    ensures forall t :: t in TypesOf(js) <==> TypeName(t) in Items(arg)
  {
    var items := Items(arg);
    JobsFrom(items, out, |items| > 1)
  }

  /** A lone type name keeps `--out` as it is. */
  lemma SingleTypeKeepsOut(t: ExportType, out: string)
    ensures Jobs(TypeName(t), out) == [Job(t, out)]
  {
    var s := TypeName(t);
    TypeNameClean(t);
    ItemsOfWord(s);
    ParseTypeName(t);
    assert JobsFrom([s][1..], out, false) == [];
  }

  /** A type name has no comma and no surrounding space. */
  lemma TypeNameClean(t: ExportType)
    ensures var s := TypeName(t); ',' !in s && s != [] && !IsSpace(s[0]) && !IsSpace(s[|s| - 1])
  {
    match t
    case EU =>
    case ISO =>
    case SOC2 =>
    case Protection =>
  }

  /** A word with no comma and no surrounding space is one item. */
  lemma ItemsOfWord(s: string)
    requires ',' !in s && s != [] && !IsSpace(s[0]) && !IsSpace(s[|s| - 1])
    ensures Items(s) == [s]
  {
    SplitNoSeparator(s, ',');
    StripNoop(s);
    assert StripAll([s][1..]) == [];
  }

  /** No two jobs of different types write to the same path. */
  predicate NoClash(js: seq<Job>) {
    forall i, j :: 0 <= i < |js| && 0 <= j < |js| && js[i].exportType != js[j].exportType ==> js[i].out != js[j].out
  }

  /** Whatever `--type` lists, jobs of different types never write to the
      same path. */
  lemma JobsNoClash(arg: string, out: string)
    ensures NoClash(Jobs(arg, out))
  {
    ItemsNoClash(Items(arg), out);
  }

  lemma ItemsNoClash(items: seq<string>, out: string)
    ensures NoClash(JobsFrom(items, out, |items| > 1))
  {
    if |items| > 1 {
      SeveralNoClash(items, out);
    } else {
      AtMostOne(JobsFrom(items, out, false));
    }
  }

  /** A single job clashes with nothing. */
  lemma AtMostOne(js: seq<Job>)
    requires |js| <= 1
    ensures NoClash(js)
  {
  }

  /** With several items every job's path carries its own type name. */
  lemma SeveralNoClash(items: seq<string>, out: string)
    ensures NoClash(JobsFrom(items, out, true))
  {
    var js := JobsFrom(items, out, true);
    forall i, j | 0 <= i < |js| && 0 <= j < |js| && js[i].exportType != js[j].exportType
      ensures js[i].out != js[j].out
    {
      var a, b := js[i].exportType, js[j].exportType;
      OutputPathLength(out, TypeName(a));
      OutputPathLength(out, TypeName(b));
      TypeNameLengths(a, b);
      assert |js[i].out| != |js[j].out|;
    }
  }

  /** `*_evidence_*.json`, `*_log_*.json` or `*_results_*.log` on the file's name. */
  predicate IsEvidencePath(p: string) {
    var n := Paths.Name(p);
    Paths.MatchesStarStar(n, "_evidence_", ".json") || Paths.MatchesStarStar(n, "_log_", ".json")
      || Paths.MatchesStarStar(n, "_results_", ".log")
  }

  /** `_collect_evidence_files`: the files below the evidence directory, or
      `None` when it does not exist. The three patterns are collected in
      turn, as the evidence registry scans them. */
  function EvidenceFiles(below: Option<seq<string>>): (r: seq<string>)
    ensures below.None? ==> r == []
    ensures forall p :: p in r <==> below.Some? && p in below.value && IsEvidencePath(p)
  {
    match below
    case None => []
    case Some(files) => EvidenceRegistry.Found(files)
  }

  const ConfigFiles: seq<string> :=
    ["12_tooling/scripts/structure_guard.sh", "12_tooling/hooks/pre_commit/structure_validation.sh",
     ".git/hooks/pre-commit"]

  /** The entries of `paths` that exist, in order. */
  function Present(paths: seq<string>, existing: set<string>): (r: seq<string>)
    ensures forall p :: p in r <==> p in paths && p in existing
  {
    if paths == [] then []
    else
      assert forall p :: p in paths <==> p == paths[0] || p in paths[1..];
      (if paths[0] in existing then [paths[0]] else []) + Present(paths[1..], existing)
  }

  /** The entries of `paths` whose name ends in `ext`, in order. */
  function WithExtension(paths: seq<string>, ext: string): (r: seq<string>)
    ensures forall p :: p in r <==> p in paths && EndsWith(Paths.Name(p), ext)
  {
    if paths == [] then []
    else
      assert forall p :: p in paths <==> p == paths[0] || p in paths[1..];
      (if EndsWith(Paths.Name(paths[0]), ext) then [paths[0]] else []) + WithExtension(paths[1..], ext)
  }

  /** `_collect_policy_files`: the `*.yaml` then the `*.yml` entries of the
      policy directory (`None` when it does not exist), then the three
      configuration files that exist. */
  function PolicyFiles(policies: Option<seq<string>>, existing: set<string>): (r: seq<string>)
    ensures forall p :: p in r <==>
      || (policies.Some? && p in policies.value
          && (EndsWith(Paths.Name(p), ".yaml") || EndsWith(Paths.Name(p), ".yml")))
      || (p in ConfigFiles && p in existing)
  {
    var listed := policies.GetOr([]);
    WithExtension(listed, ".yaml") + WithExtension(listed, ".yml") + Present(ConfigFiles, existing)
  }

  /** An entry found below a protection root, and whether it is a regular file. */
  datatype Entry = Entry(path: string, isFile: bool)

  /** What a protection root is when it exists: a regular file, a
      directory with everything below it, or something else. */
  datatype Root = RootFile | RootDir(below: seq<Entry>) | RootOther

  const ProtectionRoots: seq<string> :=
    ["12_tooling/scripts", "12_tooling/hooks", "23_compliance", "05_documentation/security"]

  /** The regular files of one root. */
  function RootFiles(root: string, node: Root): (r: seq<string>)
    ensures forall p :: p in r <==> (node.RootFile? && p == root) || (node.RootDir? && Entry(p, true) in node.below)
  {
    match node
    case RootFile => [root]
    case RootOther => []
    case RootDir(below) => FilesOf(below)
  }

  function FilesOf(below: seq<Entry>): (r: seq<string>)
    ensures forall p :: p in r <==> Entry(p, true) in below
  {
    if below == [] then []
    else
      assert forall e :: e in below <==> e == below[0] || e in below[1..];
      (if below[0].isFile then [below[0].path] else []) + FilesOf(below[1..])
  }

  /** The regular files of the roots that exist, root by root. */
  function FilesUnder(roots: seq<string>, fs: map<string, Root>): (r: seq<string>)
    ensures forall p :: p in r <==> exists k :: 0 <= k < |roots| && roots[k] in fs && p in RootFiles(roots[k], fs[roots[k]])
  {
    if roots == [] then []
    else
      var rest := FilesUnder(roots[1..], fs);
      assert forall k :: 0 < k < |roots| ==> roots[k] == roots[1..][k - 1];
      (if roots[0] in fs then RootFiles(roots[0], fs[roots[0]]) else []) + rest
  }

  /** `_collect_protection_files`: a file is collected exactly when it is
      one of the roots and a regular file, or a regular file below a root
      that is a directory. */
  function ProtectionFiles(fs: map<string, Root>): (r: seq<string>)
    ensures forall p :: p in r <==>
      exists root :: root in ProtectionRoots && root in fs &&
        ((fs[root].RootFile? && p == root) || (fs[root].RootDir? && Entry(p, true) in fs[root].below))
  {
    var r := FilesUnder(ProtectionRoots, fs);
    assert forall root :: root in ProtectionRoots <==> exists k :: 0 <= k < |ProtectionRoots| && ProtectionRoots[k] == root;
    r
  }

  /** What the collectors see on disk. */
  datatype Disk = Disk(evidence: Option<seq<string>>, policies: Option<seq<string>>,
                       existing: set<string>, protection: map<string, Root>)

  /** The files one export collects: protection files for `PROTECTION`,
      evidence files followed by policy files for any other type. */
  function Collect(t: ExportType, disk: Disk): (r: seq<string>)
    ensures t == Protection ==> forall p :: p in r <==> p in ProtectionFiles(disk.protection)
    ensures t != Protection ==> forall p :: p in r <==>
      p in EvidenceFiles(disk.evidence) || p in PolicyFiles(disk.policies, disk.existing)
    ensures t != Protection ==>
      |EvidenceFiles(disk.evidence)| <= |r| && r[..|EvidenceFiles(disk.evidence)|] == EvidenceFiles(disk.evidence)
  {
    if t == Protection then ProtectionFiles(disk.protection)
    else
      var e := EvidenceFiles(disk.evidence);
      assert (e + PolicyFiles(disk.policies, disk.existing))[..|e|] == e;
      e + PolicyFiles(disk.policies, disk.existing)
  }

  /** A compliance export never holds protection files it did not also
      collect as evidence or policy files. */
  lemma ComplianceIgnoresProtection(t: ExportType, d1: Disk, d2: Disk)
    requires t != Protection && d1.evidence == d2.evidence && d1.policies == d2.policies
    requires d1.existing == d2.existing
    ensures Collect(t, d1) == Collect(t, d2)
  {
  }

  /** The manifest's recorded content; creation time, sizes and
      modification times are not modelled. */
  datatype Manifest = Manifest(exportType: string, description: string, framework: string,
                               files: seq<string>, checksums: map<string, string>)

  /** The `checksums` table: each recorded path with the digest of its file. */
  function Checksums(files: seq<string>, digest: string -> string): (m: map<string, string>)
    ensures forall p :: p in m <==> p in files
    ensures forall p :: p in m ==> m[p] == digest(p)
  {
    if files == [] then map[]
    else
      var rest := Checksums(files[1..], digest);
      assert forall p :: p in files <==> p == files[0] || p in files[1..];
      rest[files[0] := digest(files[0])]
  }

  /** `_generate_manifest` for the recorded paths of the files. */
  function MakeManifest(name: string, files: seq<string>, digest: string -> string): (m: Manifest)
    ensures m.description == Description(name) && m.exportType == name && m.framework == name
    ensures m.files == files
    ensures forall k :: 0 <= k < |files| ==> files[k] in m.checksums && m.checksums[files[k]] == digest(files[k])
  {
    Manifest(name, Description(name), name, files, Checksums(files, digest))
  }

  function ManifestName(out: string): string {
    out + ".manifest.json"
  }

  function ChecksumName(out: string): string {
    out + ".sha256"
  }

  /** The checksum file's line: the archive's digest, two spaces, the
      archive's file name and a newline. */
  function ChecksumText(hash: string, out: string): string {
    hash + "  " + Paths.Name(out) + "\n"
  }

  /** Reading a checksum line back as `sha256sum -c` does: the digest up
      to the first two spaces, the name after them, then a newline. */
  function ChecksumFields(line: string): (r: Option<(string, string)>)
    ensures r.Some? ==> line == r.value.0 + "  " + r.value.1 + "\n"
  {
    if |line| == 0 || line[|line| - 1] != '\n' then None
    else
      var body := line[..|line| - 1];
      match IndexOf(body, "  ")
      case None => None
      case Some(i) =>
        assert body[i..i + 2] == "  ";
        assert body == body[..i] + "  " + body[i + 2..];
        Some((body[..i], body[i + 2..]))
  }

  /** The first two spaces in `hash + "  " + rest` follow the hash when
      the hash has no space. */
  lemma FirstDoubleSpace(hash: string, rest: string)
    requires ' ' !in hash
    ensures IndexOf(hash + "  " + rest, "  ") == Some(|hash|)
  {
    var s := hash + "  " + rest;
    assert OccursAt(s, "  ", |hash|) by {
      assert s[|hash|..|hash| + 2] == "  ";
    }
    forall p | 0 <= p < |hash|
      ensures !OccursAt(s, "  ", p)
    {
      assert s[p] == hash[p];
    }
    IndexOfIs(s, "  ", |hash|);
  }

  /** A hex digest has no space, so the checksum line gives back the
      digest and the archive's name. */
  lemma ChecksumRoundTrip(hash: string, out: string)
    requires ' ' !in hash
    ensures ChecksumFields(ChecksumText(hash, out)) == Some((hash, Paths.Name(out)))
  {
    var line := ChecksumText(hash, out);
    var body := hash + "  " + Paths.Name(out);
    assert line[..|line| - 1] == body;
    FirstDoubleSpace(hash, Paths.Name(out));
    assert body[..|hash|] == hash;
    assert body[|hash| + 2..] == Paths.Name(out);
  }

  /** A finished export: the archive, its members as (file, name in the
      archive), the manifest packed with them, and the checksum file. */
  datatype Package = Package(archive: string, members: seq<(string, string)>, manifest: Manifest,
                             checksumFile: string, checksumText: string)

  /** What `export_audit_package` ends with: nothing to export, a raised
      error, or a package. */
  datatype Outcome = NoFiles | Raised | Exported(pkg: Package)

  /** The files an export leaves on disk: the archive and its checksum;
      the manifest is removed once packed. */
  function LeftBehind(pkg: Package): set<string> {
    {pkg.archive, pkg.checksumFile}
  }

  /** Each file with itself as its name in the archive. */
  function AsMembers(files: seq<string>): (r: seq<(string, string)>)
    ensures |r| == |files|
    ensures forall k :: 0 <= k < |r| ==> r[k] == (files[k], files[k])
  {
    if files == [] then [] else [(files[0], files[0])] + AsMembers(files[1..])
  }

  /** `export_audit_package` with the collected paths recorded as they are:
      relative to the working directory, which is what the manifest and
      the archive mean to record. `hash` is the archive's digest. */
  function Export(t: ExportType, disk: Disk, out: string, digest: string -> string, hash: string): (r: Outcome)
    ensures r != Raised
    ensures r == NoFiles <==> Collect(t, disk) == []
    ensures r.Exported? ==>
      var files := Collect(t, disk);
      var pkg := r.pkg;
      && pkg.archive == out
      && pkg.manifest.files == files
      && pkg.manifest.description == Describe(t) && pkg.manifest.description != "Unknown"
      && |pkg.members| == |files| + 1
      && (forall k :: 0 <= k < |files| ==> pkg.members[k] == (files[k], files[k]))
      && pkg.members[|files|].0 == ManifestName(out)
      && ManifestName(out) !in LeftBehind(pkg)
      && pkg.checksumFile == ChecksumName(out) && pkg.checksumFile in LeftBehind(pkg)
      && pkg.checksumText == ChecksumText(hash, out)
  {
    var files := Collect(t, disk);
    if files == [] then NoFiles
    else
      ParseTypeName(t);
      var manifest := MakeManifest(TypeName(t), files, digest);
      var members := AsMembers(files + [ManifestName(out)]);
      Exported(Package(out, members, manifest, ChecksumName(out), ChecksumText(hash, out)))
  }

  /** An export that produces a package writes its archive to the path
      it was given, and no export raises. */
  lemma ExportArchive(t: ExportType, disk: Disk, out: string, digest: string -> string, hash: string)
    ensures Export(t, disk, out, digest, hash) != Raised
    ensures Export(t, disk, out, digest, hash).Exported? ==> Export(t, disk, out, digest, hash).pkg.archive == out
  {
  }

  /** The exports of the jobs, in order: no export raises, and each package
      is written to its own job's path. */
  function RunJobs(js: seq<Job>, disk: Disk, digest: string -> string, hashes: string -> string): (r: seq<(Job, Outcome)>)
    ensures |r| == |js|
    ensures forall k :: 0 <= k < |r| ==> r[k].0 == js[k] && r[k].1 != Raised
    ensures forall k :: 0 <= k < |r| && r[k].1.Exported? ==> r[k].1.pkg.archive == js[k].out
  {
    if js == [] then []
    else
      var o := Export(js[0].exportType, disk, js[0].out, digest, hashes(js[0].out));
      ExportArchive(js[0].exportType, disk, js[0].out, digest, hashes(js[0].out));
      [(js[0], o)] + RunJobs(js[1..], disk, digest, hashes)
  }

  /** `main`: one export per job of the `--type` argument. */
  function Run(arg: string, out: string, disk: Disk, digest: string -> string, hashes: string -> string): seq<(Job, Outcome)> {
    RunJobs(Jobs(arg, out), disk, digest, hashes)
  }

  /** No export of a run raises, and two packages of different types never
      land on the same archive, whatever `--type` lists. */
  lemma RunArchivesDistinct(arg: string, out: string, disk: Disk, digest: string -> string, hashes: string -> string)
    ensures var r := Run(arg, out, disk, digest, hashes);
      forall i, j ::
        (0 <= i < |r| && 0 <= j < |r| && r[i].1.Exported? && r[j].1.Exported?
         && r[i].0.exportType != r[j].0.exportType) ==> r[i].1.pkg.archive != r[j].1.pkg.archive
    ensures var r := Run(arg, out, disk, digest, hashes);
      forall k :: 0 <= k < |r| ==> r[k].1 != Raised
  {
    JobsNoClash(arg, out);
  }

  /** The archive names as written: each path made relative to the working
      directory with `Path.relative_to`, which raises for any path that is
      not spelled below it. */
  function ArcNames(files: seq<string>, cwd: string): (r: Option<seq<string>>)
    ensures r.Some? ==> |r.value| == |files| && forall k :: 0 <= k < |files| ==> cwd + "/" + r.value[k] == files[k]
    ensures r.None? ==> exists k :: 0 <= k < |files| && Paths.RelativeTo(files[k], cwd).None?
  {
    if files == [] then Some([])
    else
      match Paths.RelativeTo(files[0], cwd)
      case None => None
      case Some(rel) =>
        match ArcNames(files[1..], cwd)
        case None =>
          assert forall k :: 0 < k < |files| ==> files[k] == files[1..][k - 1];
          None
        case Some(rest) => Some([rel] + rest)
  }

  /** `export_audit_package` as written: the manifest records and the
      archive names each collected path, and then the manifest itself,
      relative to the working directory `cwd`. */
  function ExportAsWritten(t: ExportType, disk: Disk, out: string, digest: string -> string, hash: string,
                           cwd: string): (r: Outcome)
    ensures r == NoFiles <==> Collect(t, disk) == []
    ensures r.Exported? ==> ArcNames(Collect(t, disk) + [ManifestName(out)], cwd).Some?
  {
    var files := Collect(t, disk);
    if files == [] then NoFiles
    else
      match ArcNames(files, cwd)
      case None => Raised
      case Some(recorded) =>
        var manifest := MakeManifest(TypeName(t), recorded, digest);
        match ArcNames(files + [ManifestName(out)], cwd)
        case None => Raised
        case Some(names) =>
          var members := seq(|names|, k requires 0 <= k < |names| => ((files + [ManifestName(out)])[k], names[k]));
          Exported(Package(out, members, manifest, ChecksumName(out), ChecksumText(hash, out)))
  }

  /** Every collector lists relative paths, and the working directory is
      absolute, so an export that finds any file raises instead of
      producing a package. */
  lemma ExportAsWrittenRaises(t: ExportType, disk: Disk, out: string, digest: string -> string, hash: string,
                              cwd: string)
    requires cwd != [] && cwd[0] == '/'
    requires Collect(t, disk) != []
    requires Collect(t, disk)[0] == [] || Collect(t, disk)[0][0] != '/'
    ensures ExportAsWritten(t, disk, out, digest, hash, cwd) == Raised
  {
    var files := Collect(t, disk);
    Paths.RelativeUnderAbsolute(files[0], cwd);
  }

  /** Each relative path spelled below `cwd`. */
  function Below(cwd: string, rels: seq<string>): (r: seq<string>)
    ensures |r| == |rels|
    ensures forall k :: 0 <= k < |r| ==> r[k] == cwd + "/" + rels[k]
  {
    if rels == [] then [] else [cwd + "/" + rels[0]] + Below(cwd, rels[1..])
  }

  /** Where the paths are spelled below the working directory, the names
      as written are the relative paths the corrected export records. */
  lemma {:induction false} ArcNamesBelow(cwd: string, rels: seq<string>)
    ensures ArcNames(Below(cwd, rels), cwd) == Some(rels)
  {
    if rels != [] {
      var files := Below(cwd, rels);
      Paths.RelativeToOf(cwd, rels[0]);
      assert files[1..] == Below(cwd, rels[1..]);
      ArcNamesBelow(cwd, rels[1..]);
      assert [rels[0]] + rels[1..] == rels;
    }
  }
}

=== FILE: badges.dfy ===
/** The badge generator: what each of the four badges says and in which
    colour. The SVG template around label, message and colour is not
    modelled; the structure guard's output and the files the badges read
    are given. */
module Badges {
  import opened Wrappers
  import opened Text
  import Paths

  datatype Colour = Green | Yellow | Orange | Red | Blue | LightGrey

  /** The hex code each colour is drawn with. */
  function Hex(c: Colour): string {
    match c
    case Green => "#4c1"
    case Yellow => "#dfb317"
    case Orange => "#fe7d37"
    case Red => "#e05d44"
    case Blue => "#007ec6"
    case LightGrey => "#9f9f9f"
  }

  /** No two colours share a code. */
  lemma HexInjective(a: Colour, b: Colour)
    ensures Hex(a) == Hex(b) ==> a == b
  {
  }

  /** `_get_score_color`. */
  function ScoreColour(score: int): (c: Colour)
    ensures c == Green <==> score >= 95
    ensures c == Yellow <==> 80 <= score < 95
    ensures c == Orange <==> 60 <= score < 80
    ensures c == Red <==> score < 60
  {
    if score >= 95 then Green
    else if score >= 80 then Yellow
    else if score >= 60 then Orange
    else Red
  }

  /** The score colours from worst to best. */
  function Rank(c: Colour): nat {
    match c
    case Red => 0
    case Orange => 1
    case Yellow => 2
    case _ => 3
  }

  /** A higher score never gets a worse colour. */
  lemma ScoreColourMonotone(s1: int, s2: int)
    requires s1 <= s2
    ensures Rank(ScoreColour(s1)) <= Rank(ScoreColour(s2))
  {
  }

  datatype Badge = Badge(caption: string, message: string, colour: Colour)

  datatype Compliance = Compliance(status: string, colour: Colour, score: int)

  /** `_get_compliance_status`: the guard's standard output read as an
      integer, or `None` when the guard could not be run. Anything that
      raises yields the unknown status with score 0. */
  function ComplianceStatus(guardOutput: Option<string>): (r: Compliance)
    ensures r.status == "UNKNOWN" <==> guardOutput.None? || ParseInt(guardOutput.value).None?
    ensures r.status == "UNKNOWN" ==> r == Compliance("UNKNOWN", LightGrey, 0)
    ensures r.status != "UNKNOWN" ==> Some(r.score) == ParseInt(guardOutput.value)
    ensures r.status == "COMPLIANT" <==> r.status != "UNKNOWN" && r.score >= 95
    ensures r.colour == Green <==> r.status == "COMPLIANT"
    ensures r.colour == Red <==> r.status == "NON-COMPLIANT"
  {
    match guardOutput
    case None => Compliance("UNKNOWN", LightGrey, 0)
    case Some(out) =>
      match ParseInt(Strip(out))
      case None => Compliance("UNKNOWN", LightGrey, 0)
      case Some(score) =>
        if score >= 95 then Compliance("COMPLIANT", Green, score)
        else Compliance("NON-COMPLIANT", Red, score)
  }

  /** Stripping before `int()` changes nothing: `int()` strips too. */
  lemma ParseIntStripped(s: string)
    ensures ParseInt(Strip(s)) == ParseInt(s)
  {
    StripIdempotent(s);
  }

  function ComplianceBadge(guardOutput: Option<string>): Badge {
    var c := ComplianceStatus(guardOutput);
    Badge("compliance", c.status, c.colour)
  }

  function ScoreBadge(guardOutput: Option<string>): Badge {
    var score := ComplianceStatus(guardOutput).score;
    Badge("score", IntToString(score) + "%", ScoreColour(score))
  }

  /** The two guard-based badges agree: the compliance badge is green
      exactly when the score badge is, and the score badge shows the score
      the guard printed (0 when it printed none) followed by `%`. */
  lemma GuardBadgesAgree(guardOutput: Option<string>)
    ensures ComplianceBadge(guardOutput).colour == Green <==> ScoreBadge(guardOutput).colour == Green
    ensures var m := ScoreBadge(guardOutput).message;
      && |m| >= 2 && m[|m| - 1] == '%'
      && ParseInt(m[..|m| - 1]) == Some(ComplianceStatus(guardOutput).score)
  {
    var score := ComplianceStatus(guardOutput).score;
    var m := IntToString(score) + "%";
    assert m[..|m| - 1] == IntToString(score);
    ParseIntOfString(score);
  }

  /** An evidence file in the CI-run directory: unreadable (or not valid
      JSON), or read, with the length of its `violations` list when it has
      one. */
  datatype EvidenceFile = Unreadable | Evidence(violations: Option<nat>)

  /** `*_evidence_*.json` on a file name. */
  predicate IsEvidenceName(name: string) {
    Paths.MatchesStarStar(name, "_evidence_", ".json")
  }

  /** The violations listed across the readable evidence files; unreadable
      files and files of another name are skipped. */
  function ViolationsCount(files: seq<(string, EvidenceFile)>): (n: nat)
    ensures n == 0 <==> forall k :: 0 <= k < |files| ==> Contributes(files[k]) == 0
  {
    if files == [] then 0
    else
      assert forall k :: 0 < k < |files| ==> files[k] == files[1..][k - 1];
      Contributes(files[0]) + ViolationsCount(files[1..])
  }

  function Contributes(f: (string, EvidenceFile)): nat {
    if IsEvidenceName(f.0) && f.1.Evidence? then f.1.violations.GetOr(0) else 0
  }

  /** The count over two groups of files is the sum of their counts, so
      the order `glob` lists files in does not matter. */
  lemma {:induction false} ViolationsAdd(a: seq<(string, EvidenceFile)>, b: seq<(string, EvidenceFile)>)
    ensures ViolationsCount(a + b) == ViolationsCount(a) + ViolationsCount(b)
  {
    if a != [] {
      ViolationsAdd(a[1..], b);
      assert (a + b)[1..] == a[1..] + b;
      assert (a + b)[0] == a[0];
    } else {
      assert a + b == b;
    }
  }

  /** An unreadable file, or one with another name, adds nothing. */
  lemma UnreadableSkipped(files: seq<(string, EvidenceFile)>, name: string, f: EvidenceFile)
    requires f == Unreadable || !IsEvidenceName(name)
    ensures ViolationsCount(files + [(name, f)]) == ViolationsCount(files)
  {
    ViolationsAdd(files, [(name, f)]);
  }

  /** `generate_violations_badge`; a missing directory counts nothing. */
  function ViolationsBadge(dirExists: bool, files: seq<(string, EvidenceFile)>): (b: Badge)
    ensures b.caption == "violations"
    ensures b.colour == Green <==> !dirExists || ViolationsCount(files) == 0
    ensures b.colour == Green || b.colour == Red
    ensures ParseInt(b.message) == Some(if dirExists then ViolationsCount(files) else 0)
  {
    var n := if dirExists then ViolationsCount(files) else 0;
    ParseIntOfString(n);
    Badge("violations", NatToString(n), if n == 0 then Green else Red)
  }

  /** The override registry file: unreadable, or read, with its
      `active_count` when present. */
  datatype RegistryFile = UnreadableRegistry | RegistryRead(activeCount: Option<int>)

  /** `generate_overrides_badge`: the active count, 0 when the registry is
      missing, unreadable or has none. */
  function OverridesBadge(registry: Option<RegistryFile>): (b: Badge)
    ensures var n := if registry.Some? && registry.value.RegistryRead? then registry.value.activeCount.GetOr(0) else 0;
      && ParseInt(b.message) == Some(n)
      && (b.colour == Green <==> n == 0)
      && (b.colour == Yellow <==> n != 0)
  {
    var n :=
      match registry
      case Some(RegistryRead(c)) => c.GetOr(0)
      case _ => 0;
    ParseIntOfString(n);
    Badge("overrides", IntToString(n), if n == 0 then Green else Yellow)
  }

  /** Which badge `main` generates: the first flag set wins. */
  datatype Request = Request(compliance: bool, score: bool, violations: bool, overrides: bool)

  function Generate(req: Request, guardOutput: Option<string>, dirExists: bool,
                    files: seq<(string, EvidenceFile)>, registry: Option<RegistryFile>): (b: Option<Badge>)
    ensures b.None? <==> !req.compliance && !req.score && !req.violations && !req.overrides
    ensures b.Some? ==> (b.value.caption == if req.compliance then "compliance" else if req.score then "score"
                                             else if req.violations then "violations" else "overrides")
  {
    if req.compliance then Some(ComplianceBadge(guardOutput))
    else if req.score then Some(ScoreBadge(guardOutput))
    else if req.violations then Some(ViolationsBadge(dirExists, files))
    else if req.overrides then Some(OverridesBadge(registry))
    else None
  }
}

=== FILE: circular_validator.dfy ===
/** The circular-dependency validator: a heuristic, line-based scan of the
    compliance scripts, a fixed keyword-to-script edge table, and the
    verdict "valid iff the resulting graph has no cycle". */
module CircularValidator {
  import opened Wrappers
  import opened Text
  import opened Paths
  import opened Digraph

  /** Directories scanned, relative to the repository root. */
  const ScanDirs: seq<string> := [
    "12_tooling/scripts",
    "12_tooling/hooks",
    "23_compliance/anti_gaming",
    "24_meta_orchestration/triggers/ci/gates"
  ]

  /** Only files with one of these suffixes are analysed. */
  const ScannedSuffixes: seq<string> := [".py", ".sh", ".yaml", ".yml"]

  const GuardScript: Node := "12_tooling/scripts/structure_guard.sh"
  const HookScript: Node := "12_tooling/hooks/pre_commit/structure_validation.sh"
  const GateScript: Node := "24_meta_orchestration/triggers/ci/gates/structure_lock_l3.py"

  // ---------------------------------------------------------------------
  // Dependency records

  /** The three indicator kinds, in the order a line is checked for them. */
  datatype Kind = PythonImport | ShellCall | YamlRef {
    function Tag(): string {
      match this
      case PythonImport => "python_import: "
      case ShellCall => "shell_call: "
      case YamlRef => "yaml_ref: "
    }
    function Rank(): nat {
      match this
      case PythonImport => 0
      case ShellCall => 1
      case YamlRef => 2
    }
  }

  /** The text of a record, as stored in `dependencies`: tag then the stripped line. */
  function Record(k: Kind, line: string): string {
    k.Tag() + line
  }

  /** Reads a record back into its kind and line. */
  function Decode(rec: string): Option<(Kind, string)> {
    if StartsWith(rec, PythonImport.Tag()) then Some((PythonImport, rec[|PythonImport.Tag()|..]))
    else if StartsWith(rec, ShellCall.Tag()) then Some((ShellCall, rec[|ShellCall.Tag()|..]))
    else if StartsWith(rec, YamlRef.Tag()) then Some((YamlRef, rec[|YamlRef.Tag()|..]))
    else None
  }

  /** Records are unambiguous: decoding gives back kind and line. */
  lemma DecodeRecord(k: Kind, line: string)
    ensures Decode(Record(k, line)) == Some((k, line))
  {
    var r := Record(k, line);
    assert r[..|k.Tag()|] == k.Tag();
    assert r[0] == k.Tag()[0];
  }

  predicate IsImport(line: string) {
    StartsWith(line, "import ") || StartsWith(line, "from ")
  }

  predicate IsShellCall(line: string) {
    Contains(line, ".sh") && (Contains(line, "$ROOT_DIR") || Contains(line, "./"))
  }

  predicate IsYamlRef(line: string) {
    Contains(line, "path:") || Contains(line, "script:")
  }

  /** The test `_analyze_file` applies to a stripped line for each kind. */
  predicate Indicates(k: Kind, line: string) {
    match k
    case PythonImport => IsImport(line)
    case ShellCall => IsShellCall(line)
    case YamlRef => IsYamlRef(line)
  }

  /** The record of kind `k`, when the line indicates it. */
  function Piece(k: Kind, line: string): (p: seq<string>)
    ensures |p| <= 1
    ensures p != [] <==> Indicates(k, line)
    ensures p != [] ==> p[0] == Record(k, line)
  {
    if Indicates(k, line) then [Record(k, line)] else []
  }

  /** The records one raw line yields: the stripped line checked for each
      indicator kind in turn. */
  function LineRecords(raw: string): seq<string> {
    StrippedLineRecords(Strip(raw))
  }

  function StrippedLineRecords(line: string): seq<string> {
    Piece(PythonImport, line) + Piece(ShellCall, line) + Piece(YamlRef, line)
  }

  /** Different kinds give different records of the same line. */
  lemma RecordInjective(k1: Kind, k2: Kind, line: string)
    requires Record(k1, line) == Record(k2, line)
    ensures k1 == k2
  {
    assert Record(k1, line)[0] == k1.Tag()[0];
    assert Record(k2, line)[0] == k2.Tag()[0];
  }

  /** A line yields a record of kind `k` exactly when it indicates `k`; every
      record is a record of the stripped line; and the records come in the
      fixed order import, shell call, YAML reference (so at most three). */
  lemma LineRecordsShape(line: string)
    ensures var recs := StrippedLineRecords(line);
      && (forall k: Kind :: Record(k, line) in recs <==> Indicates(k, line))
      && (forall i :: 0 <= i < |recs| ==> exists k: Kind :: recs[i] == Record(k, line))
      && (forall i, j, ki: Kind, kj: Kind ::
            0 <= i < j < |recs| && recs[i] == Record(ki, line) && recs[j] == Record(kj, line)
            ==> ki.Rank() < kj.Rank())
  {
    var a := Piece(PythonImport, line);
    var b := Piece(ShellCall, line);
    var c := Piece(YamlRef, line);
    var s := a + b + c;
    forall i | 0 <= i < |s|
      ensures s[i] == Record(KindAt(|a|, |b|, i), line)
      ensures Indicates(KindAt(|a|, |b|, i), line)
    {
      if i < |a| {
        assert KindAt(|a|, |b|, i) == PythonImport;
        assert s[i] == a[0];
      } else if i < |a| + |b| {
        assert KindAt(|a|, |b|, i) == ShellCall;
        assert s[i] == b[i - |a|] == b[0];
      } else {
        assert KindAt(|a|, |b|, i) == YamlRef;
        assert s[i] == c[i - |a| - |b|] == c[0];
      }
    }
    forall i, j, ki: Kind, kj: Kind |
      0 <= i < j < |s| && s[i] == Record(ki, line) && s[j] == Record(kj, line)
      ensures ki.Rank() < kj.Rank()
    {
      RecordInjective(ki, KindAt(|a|, |b|, i), line);
      RecordInjective(kj, KindAt(|a|, |b|, j), line);
    }
    forall k: Kind
      ensures Record(k, line) in s <==> Indicates(k, line)
    {
      if Indicates(k, line) {
        match k
        case PythonImport => assert s[0] == Record(k, line);
        case ShellCall => assert s[|a|] == Record(k, line);
        case YamlRef => assert s[|a| + |b|] == Record(k, line);
      }
      if Record(k, line) in s {
        var i :| 0 <= i < |s| && s[i] == Record(k, line);
        RecordInjective(k, KindAt(|a|, |b|, i), line);
      }
    }
  }

  /** The kind of the `i`-th record when `na`, `nb` records of the first two kinds precede. */
  function KindAt(na: nat, nb: nat, i: nat): Kind {
    if i < na then PythonImport else if i < na + nb then ShellCall else YamlRef
  }

  function LinesRecords(lines: seq<string>): seq<string> {
    if |lines| == 0 then [] else LineRecords(lines[0]) + LinesRecords(lines[1..])
  }

  /** All records of a file: its lines (split on `\n`) in order. */
  function FileRecords(content: string): seq<string> {
    LinesRecords(Split(content, '\n'))
  }

  // ---------------------------------------------------------------------
  // Edge table

  /** Keyword to canonical target, tried in this order. */
  const EdgeRules: seq<(string, Node)> := [
    ("structure_guard", GuardScript),
    ("structure_validation", HookScript),
    ("structure_lock_l3", GateScript)
  ]

  /** Index of the first rule (from `i` on) whose keyword occurs in `rec`. */
  function FirstMatch(rules: seq<(string, Node)>, rec: string, i: nat): (r: Option<nat>)
    requires i <= |rules|
    ensures r.Some? ==>
      && i <= r.value < |rules| && Contains(rec, rules[r.value].0)
      && forall j :: i <= j < r.value ==> !Contains(rec, rules[j].0)
    ensures r.None? ==> forall j :: i <= j < |rules| ==> !Contains(rec, rules[j].0)
    decreases |rules| - i
  {
    if i == |rules| then None
    else if Contains(rec, rules[i].0) then Some(i)
    else FirstMatch(rules, rec, i + 1)
  }

  /** Rule `j` is the first rule whose keyword occurs in `rec`. */
  predicate FirstRule(rec: string, j: nat) {
    && j < |EdgeRules| && Contains(rec, EdgeRules[j].0)
    && forall j' :: 0 <= j' < j ==> !Contains(rec, EdgeRules[j'].0)
  }

  /** The one edge target a record contributes, if any. */
  function EdgeTarget(rec: string): Option<Node> {
    match FirstMatch(EdgeRules, rec, 0)
    case None => None
    case Some(j) => Some(EdgeRules[j].1)
  }

  /** A record yields a target iff some keyword occurs in it, and then the
      target of the first rule whose keyword occurs. */
  lemma EdgeTargetFirstRule(rec: string)
    ensures EdgeTarget(rec).Some? <==> exists j :: 0 <= j < |EdgeRules| && Contains(rec, EdgeRules[j].0)
    ensures EdgeTarget(rec).Some? ==>
      exists j :: 0 <= j < |EdgeRules| && FirstRule(rec, j) && EdgeTarget(rec).value == EdgeRules[j].1
  {
  }

  /** Some record of `recs` points at `t`. */
  predicate HasTarget(recs: seq<string>, t: Node) {
    exists k :: 0 <= k < |recs| && EdgeTarget(recs[k]) == Some(t)
  }

  /** The targets of `recs`, one per record that has one, in record order. */
  function RecordTargets(recs: seq<string>): (ts: seq<Node>)
    ensures forall t :: t in ts <==> HasTarget(recs, t)
  {
    if |recs| == 0 then []
    else
      var rest := RecordTargets(recs[1..]);
      assert forall t :: HasTarget(recs, t) <==> EdgeTarget(recs[0]) == Some(t) || HasTarget(recs[1..], t) by {
        forall t | HasTarget(recs, t) && EdgeTarget(recs[0]) != Some(t)
          ensures HasTarget(recs[1..], t)
        {
          var k :| 0 <= k < |recs| && EdgeTarget(recs[k]) == Some(t);
          assert recs[1..][k - 1] == recs[k];
        }
        forall t | HasTarget(recs[1..], t)
          ensures HasTarget(recs, t)
        {
          var k :| 0 <= k < |recs[1..]| && EdgeTarget(recs[1..][k]) == Some(t);
          assert recs[k + 1] == recs[1..][k];
        }
      }
      match EdgeTarget(recs[0])
      case Some(t) => [t] + rest
      case None => rest
  }

  /** One `add_edge(file, t)` per target, in order. */
  function AddTargetEdges(g: Graph, file: Node, ts: seq<Node>): (r: Graph)
    requires Valid(g) && file in g.nodes
    decreases |ts|
    ensures Valid(r)
    ensures forall e :: e in r.edges <==> e in g.edges || (e.0 == file && e.1 in ts)
    ensures forall n :: n in r.nodes <==> n in g.nodes || n in ts
  {
    if |ts| == 0 then g
    else
      var r := AddTargetEdges(AddEdge(g, file, ts[0]), file, ts[1..]);
      assert forall x :: x in ts <==> x == ts[0] || x in ts[1..] by {
        HeadOrRest(ts);
      }
      r
  }

  /** Membership in a non-empty list: the head or the rest. */
  lemma HeadOrRest<T>(s: seq<T>)
    requires |s| > 0
    ensures forall x :: x in s <==> x == s[0] || x in s[1..]
  {
    assert s == [s[0]] + s[1..];
  }

  /** `_add_to_graph`: the file becomes a node even when no record yields an edge. */
  function AddToGraph(g: Graph, file: Node, recs: seq<string>): (r: Graph)
    requires Valid(g)
    ensures Valid(r) && file in r.nodes
    ensures forall e :: e in r.edges <==> e in g.edges || (e.0 == file && HasTarget(recs, e.1))
    ensures forall n :: n in r.nodes <==> n in g.nodes || n == file || HasTarget(recs, n)
  {
    AddTargetEdges(AddNode(g, file, None, None), file, RecordTargets(recs))
  }

  // ---------------------------------------------------------------------
  // Scanning

  /** The repository as the scan sees it: existing directories, every
      regular file in traversal order, and the decoded text of each file
      that can be read as UTF-8 (a missing entry is a read failure). */
  datatype FileSystem = FileSystem(dirs: set<string>, files: seq<string>, text: map<string, string>)

  predicate Analysed(p: string) {
    Suffix(Name(p)) in ScannedSuffixes
  }

  /** The files of `files` under directory `d` (at any depth) with a scanned suffix. */
  function FilesUnder(files: seq<string>, d: string): (r: seq<string>)
    ensures forall p :: p in r <==> p in files && StartsWith(p, d + "/") && Analysed(p)
  {
    if |files| == 0 then []
    else
      var here := if StartsWith(files[0], d + "/") && Analysed(files[0]) then [files[0]] else [];
      here + FilesUnder(files[1..], d)
  }

  function ScanFrom(fs: FileSystem, dirs: seq<string>): (r: seq<string>)
    ensures forall p :: p in r <==> exists d :: d in dirs && d in fs.dirs && p in FilesUnder(fs.files, d)
  {
    if |dirs| == 0 then []
    else (if dirs[0] in fs.dirs then FilesUnder(fs.files, dirs[0]) else []) + ScanFrom(fs, dirs[1..])
  }

  /** `scan_dependencies`: the files analysed, directory by directory;
      a scan directory that does not exist is skipped. */
  function ScanOrder(fs: FileSystem): seq<string> {
    ScanFrom(fs, ScanDirs)
  }

  /** The records of a readable file; an unreadable one contributes none. */
  function RecordMap(fs: FileSystem): map<string, seq<string>> {
    map p | p in fs.text :: FileRecords(fs.text[p])
  }

  /** The records a file yields under a record table; a file missing from
      the table yields none. */
  function RecordsIn(rm: map<string, seq<string>>, p: string): seq<string> {
    if p in rm then rm[p] else []
  }

  function RecordsOf(fs: FileSystem, p: string): seq<string> {
    if p in fs.text then FileRecords(fs.text[p]) else []
  }

  /** The validator's state: `dependencies` (an insertion-ordered dict) and the graph. */
  datatype Validator = Validator(deps: seq<(string, seq<string>)>, graph: Graph)

  predicate Recorded(deps: seq<(string, seq<string>)>, p: string) {
    exists i :: 0 <= i < |deps| && deps[i].0 == p
  }

  /** A dict never holds a key twice. */
  predicate DistinctKeys(deps: seq<(string, seq<string>)>) {
    forall i, j :: 0 <= i < j < |deps| ==> deps[i].0 != deps[j].0
  }

  /** `dependencies[p] = recs`: replaces in place, or appends a new key. */
  function PutDeps(deps: seq<(string, seq<string>)>, p: string, recs: seq<string>): (r: seq<(string, seq<string>)>)
    requires DistinctKeys(deps)
    ensures DistinctKeys(r)
    ensures |r| == |deps| + (if Recorded(deps, p) then 0 else 1)
    ensures forall i :: 0 <= i < |deps| ==> r[i] == (if deps[i].0 == p then (p, recs) else deps[i])
    ensures !Recorded(deps, p) ==> r[|deps|] == (p, recs)
  {
    if |deps| == 0 then [(p, recs)]
    else
      assert Recorded(deps, p) <==> deps[0].0 == p || Recorded(deps[1..], p) by {
        if Recorded(deps, p) && deps[0].0 != p {
          var i :| 0 <= i < |deps| && deps[i].0 == p;
          assert deps[1..][i - 1].0 == p;
        }
        if Recorded(deps[1..], p) {
          var i :| 0 <= i < |deps[1..]| && deps[1..][i].0 == p;
          assert deps[i + 1].0 == p;
        }
      }
      if deps[0].0 == p then
        assert !Recorded(deps[1..], p);
        [(p, recs)] + deps[1..]
      else
        [deps[0]] + PutDeps(deps[1..], p, recs)
  }

  /** After `dependencies[p] = recs` the keys are the old keys and `p`. */
  lemma PutDepsKeys(deps: seq<(string, seq<string>)>, p: string, recs: seq<string>)
    requires DistinctKeys(deps)
    ensures forall q :: Recorded(PutDeps(deps, p, recs), q) <==> Recorded(deps, q) || q == p
  {
    var r := PutDeps(deps, p, recs);
    forall q | Recorded(r, q)
      ensures Recorded(deps, q) || q == p
    {
      var i :| 0 <= i < |r| && r[i].0 == q;
      if i < |deps| && deps[i].0 != p {
        assert deps[i].0 == q;
      }
    }
    forall q | Recorded(deps, q) || q == p
      ensures Recorded(r, q)
    {
      if Recorded(deps, q) {
        var i :| 0 <= i < |deps| && deps[i].0 == q;
        assert r[i].0 == q;
      } else {
        assert r[|deps|].0 == p;
      }
    }
  }

  /** What the scan maintains: every recorded file maps to its own non-empty
      record list, and the graph holds exactly the recorded files, the
      targets their records point at, and one edge per (file, target). */
  ghost predicate ScanInv(st: Validator, rm: map<string, seq<string>>) {
    && Valid(st.graph)
    && DistinctKeys(st.deps)
    && (forall i :: 0 <= i < |st.deps| ==>
          st.deps[i].1 == RecordsIn(rm, st.deps[i].0) && st.deps[i].1 != [])
    && (forall e :: e in st.graph.edges <==> Recorded(st.deps, e.0) && HasTarget(RecordsIn(rm, e.0), e.1))
    && (forall n :: n in st.graph.nodes <==>
          Recorded(st.deps, n) || exists e :: e in st.graph.edges && e.1 == n)
  }

  /** `_analyze_file`: an unreadable file or one without records changes nothing. */
  function AnalyzeFile(st: Validator, rm: map<string, seq<string>>, p: string): Validator
    requires Valid(st.graph) && DistinctKeys(st.deps)
  {
    var recs := RecordsIn(rm, p);
    if recs == [] then st
    else Validator(PutDeps(st.deps, p, recs), AddToGraph(st.graph, p, recs))
  }

  /** Analysing a file keeps the scan invariant and records the file exactly
      when it yields a record. */
  lemma AnalyzeFileKeepsInv(st: Validator, rm: map<string, seq<string>>, p: string)
    requires ScanInv(st, rm)
    ensures ScanInv(AnalyzeFile(st, rm, p), rm)
    ensures forall q ::
      Recorded(AnalyzeFile(st, rm, p).deps, q) <==> Recorded(st.deps, q) || (q == p && RecordsIn(rm, p) != [])
  {
    var recs := RecordsIn(rm, p);
    if recs != [] {
      var r := AnalyzeFile(st, rm, p);
      var deps := r.deps;
      var g := r.graph;
      PutDepsKeys(st.deps, p, recs);
      forall i | 0 <= i < |deps|
        ensures deps[i].1 == RecordsIn(rm, deps[i].0) && deps[i].1 != []
      {
        if i < |st.deps| && st.deps[i].0 != p {
          assert deps[i] == st.deps[i];
        } else {
          assert deps[i] == (p, recs);
        }
      }
      forall e
        ensures e in g.edges <==> Recorded(deps, e.0) && HasTarget(RecordsIn(rm, e.0), e.1)
      {
      }
      forall n | n in g.nodes
        ensures Recorded(deps, n) || exists e :: e in g.edges && e.1 == n
      {
        if n !in st.graph.nodes && n != p {
          assert HasTarget(recs, n);
          assert (p, n) in g.edges;
        }
      }
      forall n | Recorded(deps, n) || exists e :: e in g.edges && e.1 == n
        ensures n in g.nodes
      {
        if !Recorded(deps, n) {
          var e :| e in g.edges && e.1 == n;
          assert e.1 in g.nodes;
        } else if n != p {
          assert Recorded(st.deps, n);
          assert n in st.graph.nodes;
        }
      }
    }
  }

  function AnalyzeAll(st: Validator, rm: map<string, seq<string>>, paths: seq<string>): (r: Validator)
    requires ScanInv(st, rm)
    ensures ScanInv(r, rm)
    ensures forall q :: Recorded(r.deps, q) <==> Recorded(st.deps, q) || (q in paths && RecordsIn(rm, q) != [])
    decreases |paths|
  {
    if |paths| == 0 then st
    else
      AnalyzeFileKeepsInv(st, rm, paths[0]);
      AnalyzeAll(AnalyzeFile(st, rm, paths[0]), rm, paths[1..])
  }

  /** A fresh validator satisfies the scan invariant. */
  lemma FreshScanInv(rm: map<string, seq<string>>)
    ensures ScanInv(Validator([], Empty), rm)
  {
    EmptyValid();
  }

  /** Scanning `paths` from a fresh validator, reading records from `rm`.
      A file is recorded iff it was scanned and yielded a record; every edge
      runs from a recorded file to the target one of its records names;
      every recorded file is a node, even when no edge leaves it; and
      nothing else is a node. */
  function ScanPaths(rm: map<string, seq<string>>, paths: seq<string>): (st: Validator)
    ensures ScanInv(st, rm)
    ensures forall p :: Recorded(st.deps, p) <==> p in paths && RecordsIn(rm, p) != []
    ensures forall e :: e in st.graph.edges <==> e.0 in paths && HasTarget(RecordsIn(rm, e.0), e.1)
    ensures forall p :: p in paths && RecordsIn(rm, p) != [] ==> p in st.graph.nodes
  {
    FreshScanInv(rm);
    AnalyzeAll(Validator([], Empty), rm, paths)
  }

  /** `scan_dependencies` on a fresh validator: the files of `ScanOrder`,
      each with the records of its text. */
  function Scan(fs: FileSystem): Validator {
    ScanPaths(RecordMap(fs), ScanOrder(fs))
  }

  /** The record table holds exactly the records of each readable file. */
  lemma RecordMapLookup(fs: FileSystem, p: string)
    ensures RecordsIn(RecordMap(fs), p) == RecordsOf(fs, p)
  {
  }

  // ---------------------------------------------------------------------
  // Verdict and report

  /** `detect_circular_dependencies`: true iff no cycle exists; an internal
      failure of the cycle search is reported as true as well. */
  function DetectCircular(g: Graph, searchFailed: bool): (valid: bool)
    requires Valid(g)
    ensures searchFailed ==> valid
    ensures !searchFailed ==> (valid <==> Acyclic(g))
  {
    IsAcyclicCorrect(g);
    searchFailed || IsAcyclic(g)
  }

  /** Exit status of a plain run: 0 when valid, 1 when a cycle was found. */
  function ExitCode(fs: FileSystem, searchFailed: bool): (code: int)
    ensures code == 0 || code == 1
    ensures code == 1 <==> !searchFailed && !Acyclic(Scan(fs).graph)
  {
    if DetectCircular(Scan(fs).graph, searchFailed) then 0 else 1
  }

  /** The total printed as "Dependencies found". */
  function TotalRecords(deps: seq<(string, seq<string>)>): nat {
    if |deps| == 0 then 0 else |deps[0].1| + TotalRecords(deps[1..])
  }

  /** Every analysed file contributes at least one record, so the printed
      number of dependencies is at least the number of files analysed. */
  lemma {:induction false} FilesAtMostRecords(deps: seq<(string, seq<string>)>)
    requires forall i :: 0 <= i < |deps| ==> deps[i].1 != []
    ensures |deps| <= TotalRecords(deps)
  {
    if |deps| > 0 {
      FilesAtMostRecords(deps[1..]);
    }
  }

  /** A reported cycle: its nodes joined by ` -> `, then ` -> ` and the first node. */
  function CycleLine(cycle: seq<Node>): string
    requires |cycle| >= 1
  {
    Join(cycle, " -> ") + " -> " + cycle[0]
  }

  lemma {:induction false} JoinSnoc(parts: seq<string>, x: string, sep: string)
    requires |parts| >= 1
    ensures Join(parts + [x], sep) == Join(parts, sep) + sep + x
    decreases |parts|
  {
    if |parts| > 1 {
      assert (parts + [x])[1..] == parts[1..] + [x];
      JoinSnoc(parts[1..], x, sep);
    }
  }

  /** The printed cycle is the closed walk: the cycle with its first node
      appended, joined by ` -> `. */
  lemma CycleLineCloses(cycle: seq<Node>)
    requires |cycle| >= 1
    ensures CycleLine(cycle) == Join(cycle + [cycle[0]], " -> ")
  {
    JoinSnoc(cycle, cycle[0], " -> ");
  }

  /** The printed cycle starts and ends at the same node. */
  lemma CycleLineEnds(cycle: seq<Node>)
    requires |cycle| >= 1
    ensures StartsWith(CycleLine(cycle), cycle[0])
    ensures EndsWith(CycleLine(cycle), " -> " + cycle[0])
  {
    var a := Join(cycle, " -> ");
    var b := " -> " + cycle[0];
    assert CycleLine(cycle) == a + b;
    assert (a + b)[|a|..] == b;
    JoinStartsWithFirst(cycle, " -> ");
    assert (a + b)[..|cycle[0]|] == a[..|cycle[0]|];
  }

  lemma JoinStartsWithFirst(parts: seq<string>, sep: string)
    requires |parts| >= 1
    ensures StartsWith(Join(parts, sep), parts[0])
  {
    if |parts| > 1 {
      var rest := sep + Join(parts[1..], sep);
      assert Join(parts, sep) == parts[0] + rest;
      assert (parts[0] + rest)[..|parts[0]|] == parts[0];
    }
  }
}

=== FILE: compliance_graph.dfy ===
/** The curated compliance dependency graph: nine named compliance
    components with their paths, eight fixed dependencies between them,
    and the 24 root modules, each depended on by the structure guard;
    plus its DOT and JSON renderings and the analysis report. */
module ComplianceGraph {
  import opened Wrappers
  import opened Text
  import opened Digraph
  import Layout

  const ComponentKind := "compliance_component"
  const ModuleKind := "module"
  const Guard: Node := "structure_guard"

  /** The component names, in the order the component table lists them. */
  const ComponentNames: seq<Node> := [
    "structure_guard", "pre_commit_hook", "ci_gate", "policy", "exceptions",
    "tests", "circular_validator", "badge_checker", "blueprint"
  ]

  /** The path recorded for each component. */
  function ComponentPath(n: Node): string {
    match n
    case "structure_guard" => "12_tooling/scripts/structure_guard.sh"
    case "pre_commit_hook" => "12_tooling/hooks/pre_commit/structure_validation.sh"
    case "ci_gate" => "24_meta_orchestration/triggers/ci/gates/structure_lock_l3.py"
    case "policy" => "23_compliance/policies/structure_policy.yaml"
    case "exceptions" => "23_compliance/exceptions/structure_exceptions.yaml"
    case "tests" => "23_compliance/tests/unit/test_structure_policy_vs_md.py"
    case "circular_validator" => "23_compliance/anti_gaming/circular_dependency_validator.py"
    case "badge_checker" => "23_compliance/anti_gaming/badge_integrity_checker.sh"
    case _ => "24_meta_orchestration/registry/logs/SSID_opencore_structure_level3.md"
  }

  /** The component table: each name with its path, in insertion order. */
  function Components(): (cs: seq<(Node, string)>)
    ensures |cs| == |ComponentNames|
  {
    seq(|ComponentNames|, i requires 0 <= i < |ComponentNames| => (ComponentNames[i], ComponentPath(ComponentNames[i])))
  }

  /** The fixed dependencies among components, in insertion order. */
  const StaticEdges: seq<Edge> := [
    ("pre_commit_hook", "structure_guard"),
    ("ci_gate", "structure_guard"),
    ("structure_guard", "policy"),
    ("tests", "policy"),
    ("ci_gate", "badge_checker"),
    ("badge_checker", "structure_guard"),
    ("circular_validator", "structure_guard"),
    ("policy", "blueprint")
  ]

  function Names(cs: seq<(Node, string)>): (ns: seq<Node>)
    ensures |ns| == |cs| && forall i :: 0 <= i < |cs| ==> ns[i] == cs[i].0
  {
    if |cs| == 0 then [] else [cs[0].0] + Names(cs[1..])
  }

  /** One edge from the structure guard to each module, in module order. */
  function GuardEdges(ms: seq<Node>): (es: seq<Edge>)
    ensures |es| == |ms| && forall i :: 0 <= i < |ms| ==> es[i] == (Guard, ms[i])
  {
    if |ms| == 0 then [] else [(Guard, ms[0])] + GuardEdges(ms[1..])
  }

  function AddComponents(g: Graph, cs: seq<(Node, string)>): (r: Graph)
    requires Valid(g)
    ensures Valid(r)
    decreases |cs|
  {
    if |cs| == 0 then g
    else AddComponents(AddNode(g, cs[0].0, Some(ComponentKind), Some(cs[0].1)), cs[1..])
  }

  function AddEdges(g: Graph, es: seq<Edge>): (r: Graph)
    requires Valid(g)
    ensures Valid(r)
    decreases |es|
  {
    if |es| == 0 then g else AddEdges(AddEdge(g, es[0].0, es[0].1), es[1..])
  }

  function AddModules(g: Graph, ms: seq<Node>): (r: Graph)
    requires Valid(g)
    ensures Valid(r)
    decreases |ms|
  {
    if |ms| == 0 then g
    else AddModules(AddEdge(AddNode(g, ms[0], Some(ModuleKind), None), Guard, ms[0]), ms[1..])
  }

  /** The build steps for given components, fixed edges and modules. */
  function BuildWith(g: Graph, cs: seq<(Node, string)>, es: seq<Edge>, ms: seq<Node>): (r: Graph)
    requires Valid(g)
    ensures Valid(r)
  {
    AddModules(AddEdges(AddComponents(g, cs), es), ms)
  }

  /** `build_compliance_graph` applied to the generator's current graph. */
  function Build(g: Graph): (r: Graph)
    requires Valid(g)
    ensures Valid(r)
  {
    BuildWith(g, Components(), StaticEdges, Layout.Modules())
  }

  // ---------------------------------------------------------------------
  // Shape of a build from scratch

  lemma {:induction false} AddComponentsFresh(g: Graph, cs: seq<(Node, string)>)
    requires Valid(g) && Distinct(Names(cs))
    requires forall i :: 0 <= i < |cs| ==> cs[i].0 !in g.nodes
    ensures AddComponents(g, cs).nodes == g.nodes + Names(cs)
    decreases |cs|
  {
    if |cs| > 0 {
      var g1 := AddNode(g, cs[0].0, Some(ComponentKind), Some(cs[0].1));
      assert g1.nodes == g.nodes + [cs[0].0] by {
        AddNewNode(g, cs[0].0, Some(ComponentKind), Some(cs[0].1));
      }
      assert Valid(g1) && Distinct(Names(cs[1..]))
        && forall i :: 0 <= i < |cs[1..]| ==> cs[1..][i].0 !in g1.nodes
      by {
        assert Names(cs[1..]) == Names(cs)[1..];
        forall i | 0 <= i < |cs| - 1
          ensures cs[1..][i].0 !in g1.nodes
        {
          assert Names(cs)[i + 1] != Names(cs)[0];
        }
      }
      AddComponentsFresh(g1, cs[1..]);
      assert Names(cs) == [cs[0].0] + Names(cs[1..]);
      SnocRest(g.nodes, Names(cs));
    }
  }

  /** Appending a non-empty sequence one element at a time. */
  lemma SnocRest<T>(a: seq<T>, b: seq<T>)
    requires |b| > 0
    ensures a + [b[0]] + b[1..] == a + b
  {
  }

  /** Adding a new node appends it with exactly the given attributes. */
  lemma AddNewNode(g: Graph, n: Node, kind: Option<string>, path: Option<string>)
    requires Valid(g) && n !in g.nodes
    ensures AddNode(g, n, kind, path) == Graph(g.nodes + [n], g.attrs[n := Attrs(kind, path)], g.edges)
  {
  }

  /** Re-adding a node whose attributes already agree changes nothing. */
  lemma AddNodeAgain(g: Graph, n: Node, kind: Option<string>, path: Option<string>)
    requires Valid(g) && n in g.nodes && Merge(g.attrs[n], kind, path) == g.attrs[n]
    ensures AddNode(g, n, kind, path) == g
  {
    assert g.attrs[n := g.attrs[n]] == g.attrs;
  }

  /** Re-adding an existing edge changes nothing. */
  lemma AddEdgeAgain(g: Graph, u: Node, v: Node)
    requires Valid(g) && (u, v) in g.edges
    ensures AddEdge(g, u, v) == g
  {
  }

  /** Adding a new edge between existing nodes just appends it. */
  lemma AddFreshEdge(g: Graph, u: Node, v: Node)
    requires Valid(g) && u in g.nodes && v in g.nodes && (u, v) !in g.edges
    ensures AddEdge(g, u, v) == Graph(g.nodes, g.attrs, g.edges + [(u, v)])
  {
  }

  lemma {:induction false} AddEdgesFresh(g: Graph, es: seq<Edge>)
    requires Valid(g) && Distinct(es)
    requires forall e :: e in es ==> e.0 in g.nodes && e.1 in g.nodes && e !in g.edges
    ensures AddEdges(g, es) == Graph(g.nodes, g.attrs, g.edges + es)
    decreases |es|
  {
    if |es| > 0 {
      var g1 := Graph(g.nodes, g.attrs, g.edges + [es[0]]);
      assert AddEdge(g, es[0].0, es[0].1) == g1 by {
        AddFreshEdge(g, es[0].0, es[0].1);
      }
      assert Valid(g1) && Distinct(es[1..])
        && forall e :: e in es[1..] ==> e.0 in g1.nodes && e.1 in g1.nodes && e !in g1.edges
      by {
        forall e | e in es[1..]
          ensures e != es[0]
        {
          var k :| 0 <= k < |es| - 1 && es[1..][k] == e;
          assert es[k + 1] == e;
        }
      }
      AddEdgesFresh(g1, es[1..]);
      SnocRest(g.edges, es);
    }
  }

  lemma {:induction false} AddModulesFresh(g: Graph, ms: seq<Node>)
    requires Valid(g) && Distinct(ms) && Guard in g.nodes
    requires forall m :: m in ms ==> m !in g.nodes
    ensures AddModules(g, ms).nodes == g.nodes + ms
    ensures AddModules(g, ms).edges == g.edges + GuardEdges(ms)
    decreases |ms|
  {
    if |ms| > 0 {
      var m := ms[0];
      AddNewNode(g, m, Some(ModuleKind), None);
      var g0 := AddNode(g, m, Some(ModuleKind), None);
      assert (Guard, m) !in g0.edges;
      AddFreshEdge(g0, Guard, m);
      var g1 := AddEdge(g0, Guard, m);
      forall m' | m' in ms[1..]
        ensures m' !in g1.nodes
      {
        var k :| 1 <= k < |ms| && ms[k] == m';
        assert ms[0] != ms[k];
      }
      AddModulesFresh(g1, ms[1..]);
      SnocRest(g.nodes, ms);
      assert GuardEdges(ms) == [(Guard, m)] + GuardEdges(ms[1..]);
      SnocRest(g.edges, GuardEdges(ms));
    }
  }

  /** The rest of a list without repeats has no repeats and lacks the head. */
  lemma DistinctRest<T>(s: seq<T>)
    requires |s| > 0
    ensures Distinct(s) ==> Distinct(s[1..]) && s[0] !in s[1..]
  {
    if Distinct(s) {
      forall k | 0 <= k < |s| - 1
        ensures s[1..][k] != s[0]
      {
        assert s[k + 1] != s[0];
      }
    }
  }

  /** A module added to a graph that did not hold it gets no path. */
  lemma {:induction false} AddModulesFreshPaths(g: Graph, ms: seq<Node>)
    requires Valid(g) && Distinct(ms) && Guard in g.nodes
    requires forall m :: m in ms ==> m !in g.nodes
    ensures forall m :: m in ms ==> m in AddModules(g, ms).attrs && AddModules(g, ms).attrs[m].path == None
    decreases |ms|
  {
    if |ms| > 0 {
      var m := ms[0];
      var g0 := AddNode(g, m, Some(ModuleKind), None);
      assert g0 == Graph(g.nodes + [m], g.attrs[m := Attrs(Some(ModuleKind), None)], g.edges) by {
        AddNewNode(g, m, Some(ModuleKind), None);
      }
      var g1 := AddEdge(g0, Guard, m);
      assert g1 == Graph(g0.nodes, g0.attrs, g0.edges + [(Guard, m)]) by {
        AddFreshEdge(g0, Guard, m);
      }
      DistinctRest(ms);
      var rest := ms[1..];
      assert forall m' :: m' in rest ==> m' !in g1.nodes;
      AddModulesFreshPaths(g1, rest);
      AddModulesSets(g1, rest);
      var r := AddModules(g1, rest);
      assert AddModules(g, ms) == r;
      assert r.attrs[m] == g1.attrs[m];
    }
  }

  lemma ComponentNamesLiteral()
    ensures Names(Components()) == ComponentNames
  {
  }

  lemma ComponentNamesDistinct()
    ensures Distinct(ComponentNames)
  {
  }

  lemma StaticEdgesDistinct()
    ensures Distinct(StaticEdges)
  {
  }

  lemma StaticEdgesBetweenComponents()
    ensures forall e :: e in StaticEdges ==> e.0 in ComponentNames && e.1 in ComponentNames
  {
  }

  lemma ComponentNamesStartWithLetter()
    ensures forall i :: 0 <= i < |ComponentNames| ==> |ComponentNames[i]| > 0 && 'a' <= ComponentNames[i][0] <= 'z'
  {
  }

  /** Module names start with a digit, component names with a letter. */
  lemma ModulesAreNotComponents()
    ensures forall m :: m in Layout.Modules() ==> m !in ComponentNames
  {
    Layout.ModulesNumbered();
    ComponentNamesStartWithLetter();
    forall m | m in Layout.Modules()
      ensures m !in ComponentNames
    {
      assert '0' <= m[0] <= '9';
    }
  }

  /** What a build from scratch needs of its inputs: distinct component
      names including the guard, distinct fixed edges between components,
      and distinct modules that are not components. */
  ghost predicate Buildable(cs: seq<(Node, string)>, es: seq<Edge>, ms: seq<Node>) {
    && Distinct(Names(cs)) && Guard in Names(cs)
    && Distinct(es) && (forall e :: e in es ==> e.0 in Names(cs) && e.1 in Names(cs))
    && Distinct(ms) && (forall m :: m in ms ==> m !in Names(cs))
  }

  lemma CuratedBuildable()
    ensures Buildable(Components(), StaticEdges, Layout.Modules())
  {
    ComponentNamesLiteral();
    ComponentNamesDistinct();
    StaticEdgesDistinct();
    StaticEdgesBetweenComponents();
    ModulesAreNotComponents();
    Layout.ModulesDistinct();
  }

  /** The graph a build from scratch leaves: exactly the given components,
      then the modules, as nodes; the fixed edges, then the guard edges;
      each component typed and given its path, each module typed `module`
      with no path. */
  ghost predicate FreshlyBuilt(b: Graph, cs: seq<(Node, string)>, es: seq<Edge>, ms: seq<Node>) {
    && Valid(b)
    && b.nodes == Names(cs) + ms
    && b.edges == es + GuardEdges(ms)
    && (forall c :: c in cs ==> c.0 in b.attrs && b.attrs[c.0] == Attrs(Some(ComponentKind), Some(c.1)))
    && (forall m :: m in ms ==> m in b.attrs && b.attrs[m] == Attrs(Some(ModuleKind), None))
  }

  /** A build on an empty graph lays out exactly the given components, the
      fixed edges and the modules, in that order. */
  lemma BuildWithFresh(g: Graph, cs: seq<(Node, string)>, es: seq<Edge>, ms: seq<Node>)
    requires Valid(g) && g.nodes == [] && Buildable(cs, es, ms)
    ensures FreshlyBuilt(BuildWith(g, cs, es, ms), cs, es, ms)
  {
    assert g.edges == [] by {
      assert |g.edges| == 0 || g.edges[0].0 in g.nodes;
    }
    var g1 := AddComponents(g, cs);
    assert g1.nodes == Names(cs) && g1.edges == [] by {
      AddComponentsFresh(g, cs);
      AddComponentsSets(g, cs);
    }
    var g2 := AddEdges(g1, es);
    assert g2 == Graph(g1.nodes, g1.attrs, es) by {
      AddEdgesFresh(g1, es);
    }
    AddModulesFresh(g2, ms);
    AddModulesFreshPaths(g2, ms);
    AddModulesSets(g2, ms);
    BuildWithEstablishes(g, cs, es, ms);
    forall c | c in cs
      ensures c.0 in BuildWith(g, cs, es, ms).attrs
      ensures BuildWith(g, cs, es, ms).attrs[c.0] == Attrs(Some(ComponentKind), Some(c.1))
    {
      var i :| 0 <= i < |cs| && cs[i] == c;
    }
  }

  /** One build on an empty graph yields the curated layout. */
  lemma CuratedBuilt(g: Graph)
    requires Valid(g) && g.nodes == []
    ensures FreshlyBuilt(Build(g), Components(), StaticEdges, Layout.Modules())
  {
    CuratedBuildable();
    BuildWithFresh(g, Components(), StaticEdges, Layout.Modules());
  }

  /** The graph a fresh generator holds after one build: the 9 components,
      then the 24 modules, as nodes; the 8 fixed edges, then one guard edge
      per module. */
  lemma CuratedShape(g: Graph)
    requires Valid(g) && g.nodes == []
    ensures Build(g).nodes == ComponentNames + Layout.Modules()
    ensures Build(g).edges == StaticEdges + GuardEdges(Layout.Modules())
  {
    CuratedBuilt(g);
    ComponentNamesLiteral();
  }

  /** A freshly built graph has a node per component and module and an edge
      per fixed edge and module. */
  lemma FreshSize(b: Graph, cs: seq<(Node, string)>, es: seq<Edge>, ms: seq<Node>)
    ensures FreshlyBuilt(b, cs, es, ms) ==> |b.nodes| == |cs| + |ms| && |b.edges| == |es| + |ms|
  {
  }

  /** So the curated graph has 33 nodes and 32 edges. */
  lemma CuratedSize(g: Graph)
    requires Valid(g) && g.nodes == []
    ensures (|Build(g).nodes|, |Build(g).edges|) == (33, 32)
  {
    CuratedShape(g);
    Layout.ModulesCount();
  }

  /** A freshly built graph types exactly the components as components and
      exactly the modules as modules. */
  lemma {:induction false} FreshCounts(b: Graph, cs: seq<(Node, string)>, es: seq<Edge>, ms: seq<Node>)
    ensures FreshlyBuilt(b, cs, es, ms) && Buildable(cs, es, ms) ==>
      CountKind(b, b.nodes, ComponentKind) == |cs| && CountKind(b, b.nodes, ModuleKind) == |ms|
  {
    if FreshlyBuilt(b, cs, es, ms) && Buildable(cs, es, ms) {
      var ns := Names(cs);
      CountKindAppend(b, ns, ms, ComponentKind);
      CountKindAppend(b, ns, ms, ModuleKind);
      forall n | n in ns
        ensures AttrsOf(b, n).kind == Some(ComponentKind)
      {
        var i :| 0 <= i < |ns| && ns[i] == n;
        assert cs[i] in cs;
      }
      CountKindAll(b, ns, ComponentKind, true);
      CountKindAll(b, ns, ModuleKind, false);
      CountKindAll(b, ms, ComponentKind, false);
      CountKindAll(b, ms, ModuleKind, true);
    }
  }

  /** The peeling test agrees with acyclicity on valid graphs. */
  lemma AcyclicTest(b: Graph)
    ensures Valid(b) ==> (IsAcyclic(b) <==> Acyclic(b))
  {
    if Valid(b) {
      IsAcyclicCorrect(b);
    }
  }

  /** A ranking of the curated nodes: hooks, gates, tests and the validator
      first, then the badge checker, the guard, the policy and the modules,
      and the blueprint last. */
  function Rank(n: Node): int {
    if n in ["pre_commit_hook", "ci_gate", "tests", "circular_validator", "exceptions"] then 0
    else if n == "badge_checker" then 1
    else if n == Guard then 2
    else if n == "policy" then 3
    else if n == "blueprint" then 4
    else 3
  }

  lemma StaticEdgesRanked()
    ensures forall e :: e in StaticEdges ==> Rank(e.0) < Rank(e.1)
  {
  }

  /** A name that starts with a digit is no component, so it ranks 3. */
  lemma RankOfDigitName(m: Node)
    requires |m| > 0 && '0' <= m[0] <= '9'
    ensures Rank(m) == 3
  {
    assert m != "badge_checker" && m != Guard && m != "policy" && m != "blueprint";
    assert m !in ["pre_commit_hook", "ci_gate", "tests", "circular_validator", "exceptions"];
  }

  lemma ModulesRanked()
    ensures forall m :: m in Layout.Modules() ==> Rank(Guard) < Rank(m)
  {
    Layout.ModulesNumbered();
    forall m | m in Layout.Modules()
      ensures Rank(Guard) < Rank(m)
    {
      RankOfDigitName(m);
    }
  }

  /** A guard edge climbs in rank when every module outranks the guard. */
  lemma GuardEdgesClimb(ms: seq<Node>)
    ensures (forall m :: m in ms ==> Rank(Guard) < Rank(m)) ==>
      forall e :: e in GuardEdges(ms) ==> Rank(e.0) < Rank(e.1)
  {
    if forall m :: m in ms ==> Rank(Guard) < Rank(m) {
      forall e | e in GuardEdges(ms)
        ensures Rank(e.0) < Rank(e.1)
      {
        var k :| 0 <= k < |ms| && GuardEdges(ms)[k] == e;
        assert ms[k] in ms;
      }
    }
  }

  /** Every curated edge climbs in rank. */
  lemma CuratedEdgesClimb()
    ensures forall e :: e in StaticEdges + GuardEdges(Layout.Modules()) ==> Rank(e.0) < Rank(e.1)
  {
    StaticEdgesRanked();
    ModulesRanked();
    GuardEdgesClimb(Layout.Modules());
  }

  /** So a graph with the curated edge list has no cycle. */
  lemma CuratedEdgesAcyclic(b: Graph)
    ensures b.edges == StaticEdges + GuardEdges(Layout.Modules()) ==> Acyclic(b)
  {
    if b.edges == StaticEdges + GuardEdges(Layout.Modules()) {
      CuratedEdgesClimb();
      RankedIsAcyclic(b, Rank);
    }
  }

  /** The curated graph has no cycle. */
  lemma CuratedAcyclic(g: Graph)
    requires Valid(g) && g.nodes == []
    ensures Acyclic(Build(g))
  {
    CuratedShape(g);
    CuratedEdgesAcyclic(Build(g));
  }

  // ---------------------------------------------------------------------
  // Rebuilding

  /** What one build guarantees, whatever the graph held before. */
  ghost predicate BuiltWith(g: Graph, cs: seq<(Node, string)>, es: seq<Edge>, ms: seq<Node>) {
    && (forall i :: 0 <= i < |cs| ==>
          cs[i].0 in g.nodes && cs[i].0 in g.attrs
          && g.attrs[cs[i].0] == Attrs(Some(ComponentKind), Some(cs[i].1)))
    && (forall e :: e in es ==> e in g.edges)
    && (forall m :: m in ms ==>
          m in g.nodes && m in g.attrs && g.attrs[m].kind == Some(ModuleKind) && (Guard, m) in g.edges)
  }

  lemma {:induction false} AddComponentsSets(g: Graph, cs: seq<(Node, string)>)
    requires Valid(g) && Distinct(Names(cs))
    ensures forall i :: 0 <= i < |cs| ==>
      cs[i].0 in AddComponents(g, cs).nodes
      && AddComponents(g, cs).attrs[cs[i].0] == Attrs(Some(ComponentKind), Some(cs[i].1))
    ensures forall n :: n in g.nodes ==> n in AddComponents(g, cs).nodes
    ensures AddComponents(g, cs).edges == g.edges
    decreases |cs|
  {
    if |cs| > 0 {
      var g1 := AddNode(g, cs[0].0, Some(ComponentKind), Some(cs[0].1));
      assert Names(cs[1..]) == Names(cs)[1..];
      AddComponentsSets(g1, cs[1..]);
      forall i | 0 <= i < |cs|
        ensures AddComponents(g, cs).attrs[cs[i].0] == Attrs(Some(ComponentKind), Some(cs[i].1))
      {
        if i > 0 {
          assert cs[1..][i - 1] == cs[i];
        } else {
          assert forall k :: 0 <= k < |cs| - 1 ==> cs[1..][k].0 != cs[0].0 by {
            forall k | 0 <= k < |cs| - 1
              ensures cs[1..][k].0 != cs[0].0
            {
              assert Names(cs)[k + 1] != Names(cs)[0];
            }
          }
          AddComponentsKeeps(g1, cs[1..], cs[0].0);
        }
      }
    }
  }

  lemma {:induction false} AddComponentsKeeps(g: Graph, cs: seq<(Node, string)>, n: Node)
    requires Valid(g) && n in g.nodes
    requires forall k :: 0 <= k < |cs| ==> cs[k].0 != n
    ensures n in AddComponents(g, cs).nodes && AddComponents(g, cs).attrs[n] == g.attrs[n]
    decreases |cs|
  {
    if |cs| > 0 {
      AddComponentsKeeps(AddNode(g, cs[0].0, Some(ComponentKind), Some(cs[0].1)), cs[1..], n);
    }
  }

  lemma {:induction false} AddEdgesSets(g: Graph, es: seq<Edge>)
    requires Valid(g)
    ensures forall e :: e in es ==> e in AddEdges(g, es).edges
    ensures forall e :: e in g.edges ==> e in AddEdges(g, es).edges
    ensures forall n :: n in g.nodes ==> n in AddEdges(g, es).nodes && AddEdges(g, es).attrs[n] == g.attrs[n]
    decreases |es|
  {
    if |es| > 0 {
      AddEdgesSets(AddEdge(g, es[0].0, es[0].1), es[1..]);
    }
  }

  lemma {:induction false} AddModulesSets(g: Graph, ms: seq<Node>)
    requires Valid(g)
    ensures forall m :: m in ms ==>
      m in AddModules(g, ms).nodes && AddModules(g, ms).attrs[m].kind == Some(ModuleKind)
      && (Guard, m) in AddModules(g, ms).edges
    ensures forall e :: e in g.edges ==> e in AddModules(g, ms).edges
    ensures forall n :: n in g.nodes && n !in ms ==> n in AddModules(g, ms).nodes && AddModules(g, ms).attrs[n] == g.attrs[n]
    decreases |ms|
  {
    if |ms| > 0 {
      var g1 := AddEdge(AddNode(g, ms[0], Some(ModuleKind), None), Guard, ms[0]);
      AddModulesSets(g1, ms[1..]);
      var r := AddModules(g, ms);
      forall m | m in ms
        ensures m in r.nodes && r.attrs[m].kind == Some(ModuleKind) && (Guard, m) in r.edges
      {
        if m !in ms[1..] {
          assert m == ms[0];
        }
      }
    }
  }

  /** Whatever the graph held, one build establishes `BuiltWith`. */
  lemma BuildWithEstablishes(g: Graph, cs: seq<(Node, string)>, es: seq<Edge>, ms: seq<Node>)
    requires Valid(g) && Distinct(Names(cs)) && forall m :: m in ms ==> m !in Names(cs)
    ensures BuiltWith(BuildWith(g, cs, es, ms), cs, es, ms)
  {
    var g1 := AddComponents(g, cs);
    AddComponentsSets(g, cs);
    var g2 := AddEdges(g1, es);
    AddEdgesSets(g1, es);
    var g3 := AddModules(g2, ms);
    AddModulesSets(g2, ms);
    forall i | 0 <= i < |cs|
      ensures cs[i].0 in g3.nodes && cs[i].0 in g3.attrs
      ensures g3.attrs[cs[i].0] == Attrs(Some(ComponentKind), Some(cs[i].1))
    {
      assert cs[i].0 == Names(cs)[i];
    }
  }

  lemma {:induction false} AddComponentsNoop(g: Graph, cs: seq<(Node, string)>)
    requires Valid(g)
    requires forall i :: 0 <= i < |cs| ==>
      cs[i].0 in g.nodes && cs[i].0 in g.attrs && g.attrs[cs[i].0] == Attrs(Some(ComponentKind), Some(cs[i].1))
    ensures AddComponents(g, cs) == g
    decreases |cs|
  {
    if |cs| > 0 {
      AddNodeAgain(g, cs[0].0, Some(ComponentKind), Some(cs[0].1));
      AddComponentsNoop(g, cs[1..]);
    }
  }

  lemma {:induction false} AddEdgesNoop(g: Graph, es: seq<Edge>)
    requires Valid(g)
    requires forall e :: e in es ==> e in g.edges
    ensures AddEdges(g, es) == g
    decreases |es|
  {
    if |es| > 0 {
      AddEdgeAgain(g, es[0].0, es[0].1);
      AddEdgesNoop(g, es[1..]);
    }
  }

  lemma {:induction false} AddModulesNoop(g: Graph, ms: seq<Node>)
    requires Valid(g)
    requires forall m :: m in ms ==>
      m in g.nodes && m in g.attrs && g.attrs[m].kind == Some(ModuleKind) && (Guard, m) in g.edges
    ensures AddModules(g, ms) == g
    decreases |ms|
  {
    if |ms| > 0 {
      var m := ms[0];
      AddNodeAgain(g, m, Some(ModuleKind), None);
      AddEdgeAgain(g, Guard, m);
      AddModulesNoop(g, ms[1..]);
    }
  }

  lemma BuildWithIdempotent(g: Graph, cs: seq<(Node, string)>, es: seq<Edge>, ms: seq<Node>)
    requires Valid(g) && Distinct(Names(cs)) && forall m :: m in ms ==> m !in Names(cs)
    ensures BuildWith(BuildWith(g, cs, es, ms), cs, es, ms) == BuildWith(g, cs, es, ms)
  {
    var b := BuildWith(g, cs, es, ms);
    BuildWithEstablishes(g, cs, es, ms);
    AddComponentsNoop(b, cs);
    AddEdgesNoop(b, es);
    AddModulesNoop(b, ms);
  }

  /** Building again changes nothing, so the report that rebuilds after an
      export still sees 33 nodes and 32 edges. */
  lemma BuildIdempotent(g: Graph)
    requires Valid(g)
    ensures Build(Build(g)) == Build(g)
  {
    ComponentNamesLiteral();
    ComponentNamesDistinct();
    ModulesAreNotComponents();
    BuildWithIdempotent(g, Components(), StaticEdges, Layout.Modules());
  }

  // ---------------------------------------------------------------------
  // DOT rendering

  /** How `export_dot` draws a node, decided by its `type` attribute. */
  datatype Style = ComponentStyle | ModuleStyle | PlainStyle

  function StyleFor(kind: Option<string>): (s: Style)
    ensures s == ComponentStyle <==> kind == Some(ComponentKind)
    ensures s == ModuleStyle <==> kind == Some(ModuleKind)
  {
    if kind == Some(ComponentKind) then ComponentStyle
    else if kind == Some(ModuleKind) then ModuleStyle
    else PlainStyle
  }

  /** The attribute list of a filled, coloured node. */
  function Filled(color: string, fill: string): string {
    " [color=" + color + ", style=\"rounded,filled\", fillcolor=" + fill + "]"
  }

  function StyleText(s: Style): string {
    match s
    case ComponentStyle => Filled("red", "lightcoral")
    case ModuleStyle => Filled("blue", "lightblue")
    case PlainStyle => ""
  }

  function Quote(n: Node): string {
    "\"" + n + "\""
  }

  function NodeLine(n: Node, s: Style): string {
    "  " + Quote(n) + StyleText(s) + ";\n"
  }

  function EdgeLine(e: Edge): string {
    "  " + Quote(e.0) + " -> " + Quote(e.1) + ";\n"
  }

  const DotHeader: seq<string> := [
    "digraph compliance_dependencies {\n",
    "  rankdir=TB;\n",
    "  node [shape=box, style=rounded];\n"
  ]

  function NodeLines(g: Graph, ns: seq<Node>): (ls: seq<string>)
    ensures |ls| == |ns|
    ensures forall i :: 0 <= i < |ns| ==> ls[i] == NodeLine(ns[i], StyleFor(AttrsOf(g, ns[i]).kind))
  {
    if |ns| == 0 then [] else [NodeLine(ns[0], StyleFor(AttrsOf(g, ns[0]).kind))] + NodeLines(g, ns[1..])
  }

  function EdgeLines(es: seq<Edge>): (ls: seq<string>)
    ensures |ls| == |es| && forall i :: 0 <= i < |es| ==> ls[i] == EdgeLine(es[i])
  {
    if |es| == 0 then [] else [EdgeLine(es[0])] + EdgeLines(es[1..])
  }

  /** The lines `export_dot` writes: three header lines, one line per node
      in node order, one `->` line per edge in `graph.edges()` order, `}`. */
  function DotLines(g: Graph): seq<string> {
    DotHeader + NodeLines(g, g.nodes) + EdgeLines(EdgeList(g)) + ["}\n"]
  }

  /** The DOT text is the three header lines, the node lines in node order,
      the edge lines in `graph.edges()` order, and `}`. */
  lemma DotFrame(g: Graph)
    ensures var ls := DotLines(g);
      && |ls| == 3 + |g.nodes| + |EdgeList(g)| + 1
      && ls[..3] == DotHeader && ls[|ls| - 1] == "}\n"
      && ls[3..3 + |g.nodes|] == NodeLines(g, g.nodes)
      && ls[3 + |g.nodes|..|ls| - 1] == EdgeLines(EdgeList(g))
  {
    var ls := DotLines(g);
    var front := DotHeader + NodeLines(g, g.nodes);
    assert ls == front + EdgeLines(EdgeList(g)) + ["}\n"];
    assert ls[..|front|] == front;
    assert front[..3] == DotHeader;
    assert front[3..] == NodeLines(g, g.nodes);
  }

  /** Every edge of the graph has its line among the edge lines. */
  lemma EdgeLinesCover(g: Graph, e: Edge)
    requires Valid(g) && e in g.edges
    ensures EdgeLine(e) in EdgeLines(EdgeList(g))
  {
    EdgeListIsPermutation(g);
    var es := EdgeList(g);
    assert e in multiset(es);
    var k :| 0 <= k < |es| && es[k] == e;
    assert EdgeLines(es)[k] == EdgeLine(e);
  }

  /** Every edge line names an edge of the graph, when node names are
      quote-free. */
  lemma EdgeLinesSound(g: Graph, e: Edge)
    requires Valid(g)
    requires forall n :: n in g.nodes ==> QuoteFree(n)
    requires QuoteFree(e.0) && QuoteFree(e.1)
    requires EdgeLine(e) in EdgeLines(EdgeList(g))
    ensures e in g.edges
  {
    EdgeListIsPermutation(g);
    var es := EdgeList(g);
    var k :| 0 <= k < |es| && EdgeLines(es)[k] == EdgeLine(e);
    assert es[k] in multiset(g.edges) by {
      assert es[k] in multiset(es);
    }
    EdgeLineInjective(es[k], e);
  }

  /** With quote-free node names, the edge lines of the DOT text name
      exactly the edges of the graph, one line each. */
  lemma DotEdges(g: Graph)
    requires Valid(g)
    requires forall n :: n in g.nodes ==> QuoteFree(n)
    ensures |EdgeLines(EdgeList(g))| == |g.edges|
    ensures forall e: Edge :: QuoteFree(e.0) && QuoteFree(e.1) ==>
      (e in g.edges <==> EdgeLine(e) in EdgeLines(EdgeList(g)))
  {
    EdgeListIsPermutation(g);
    forall e: Edge | QuoteFree(e.0) && QuoteFree(e.1)
      ensures e in g.edges <==> EdgeLine(e) in EdgeLines(EdgeList(g))
    {
      if e in g.edges {
        EdgeLinesCover(g, e);
      }
      if EdgeLine(e) in EdgeLines(EdgeList(g)) {
        EdgeLinesSound(g, e);
      }
    }
  }

  /** Character 8 of a filled style, followed by anything, is the first
      letter of its colour. */
  lemma FilledColorAt(t: string, s: Style)
    requires s != PlainStyle && t == StyleText(s)
    ensures |t| > 8 && (t + ";\n")[8] == (if s == ComponentStyle then 'r' else 'b')
  {
    var c := if s == ComponentStyle then "red" else "blue";
    var f := if s == ComponentStyle then "lightcoral" else "lightblue";
    assert t == " [color=" + c + (", style=\"rounded,filled\", fillcolor=" + f + "]");
  }

  /** The three drawing styles end their node lines differently. */
  lemma StyleTextInjective(s1: Style, s2: Style)
    ensures StyleText(s1) + ";\n" == StyleText(s2) + ";\n" ==> s1 == s2
  {
    var t1 := StyleText(s1) + ";\n";
    var t2 := StyleText(s2) + ";\n";
    if s1 != s2 {
      assert t1 != t2 by {
        if s1 == PlainStyle || s2 == PlainStyle {
          assert |t1| != |t2|;
        } else {
          FilledColorAt(StyleText(s1), s1);
          FilledColorAt(StyleText(s2), s2);
        }
      }
    }
  }

  /** Two nodes' lines coincide only for the same name and style, when names
      contain no quote character: the rendering loses nothing. */
  lemma NodeLineInjective(n1: Node, s1: Style, n2: Node, s2: Style)
    requires QuoteFree(n1) && QuoteFree(n2)
    requires NodeLine(n1, s1) == NodeLine(n2, s2)
    ensures n1 == n2 && s1 == s2
  {
    var x1 := StyleText(s1) + ";\n";
    var x2 := StyleText(s2) + ";\n";
    assert NodeLine(n1, s1) == "  " + Quote(n1) + x1;
    assert NodeLine(n2, s2) == "  " + Quote(n2) + x2;
    QuotedPrefix(n1, n2, "  ", x1, x2);
    StyleTextInjective(s1, s2);
  }

  /** Edge lines coincide only for the same edge. */
  lemma EdgeLineInjective(e1: Edge, e2: Edge)
    requires QuoteFree(e1.0) && QuoteFree(e1.1) && QuoteFree(e2.0) && QuoteFree(e2.1)
    requires EdgeLine(e1) == EdgeLine(e2)
    ensures e1 == e2
  {
    var x1 := " -> " + Quote(e1.1) + ";\n";
    var x2 := " -> " + Quote(e2.1) + ";\n";
    assert EdgeLine(e1) == "  " + Quote(e1.0) + x1;
    assert EdgeLine(e2) == "  " + Quote(e2.0) + x2;
    QuotedPrefix(e1.0, e2.0, "  ", x1, x2);
    QuotedPrefix(e1.1, e2.1, " -> ", ";\n", ";\n");
  }

  /** A node name that can be written between quotes unescaped. */
  predicate QuoteFree(n: Node) {
    '"' !in n
  }

  /** Where the pieces of `p + "\"" + a + "\"" + x` sit. */
  lemma QuoteAt(p: string, a: string, x: string)
    ensures var s := p + Quote(a) + x;
      && |s| == |p| + |a| + 2 + |x|
      && s[|p| + 1 + |a|] == '"'
      && s[|p| + |a| + 2..] == x
      && forall i :: 0 <= i < |a| ==> s[|p| + 1 + i] == a[i]
  {
    var s := p + Quote(a) + x;
    assert s == p + ("\"" + a + "\"") + x;
  }

  /** `p + "\"" + a + "\"" + x == p + "\"" + b + "\"" + y` with quote-free `a`, `b` forces `a == b`. */
  lemma QuotedPrefix(a: string, b: string, p: string, x: string, y: string)
    requires QuoteFree(a) && QuoteFree(b)
    requires p + Quote(a) + x == p + Quote(b) + y
    ensures a == b && x == y
  {
    QuoteAt(p, a, x);
    QuoteAt(p, b, y);
    if |a| < |b| {
      assert false;
    } else if |b| < |a| {
      assert false;
    }
  }

  // ---------------------------------------------------------------------
  // JSON export and report

  /** A node entry of `export_json`. */
  datatype JsonNode = JsonNode(id: Node, kind: string, path: string)

  /** Absent attributes default to type `unknown` and path `""`. */
  function NodeEntry(g: Graph, n: Node): (j: JsonNode)
    ensures j.id == n
    ensures AttrsOf(g, n).kind.None? ==> j.kind == "unknown"
    ensures AttrsOf(g, n).kind.Some? ==> j.kind == AttrsOf(g, n).kind.value
    ensures AttrsOf(g, n).path.None? ==> j.path == ""
    ensures AttrsOf(g, n).path.Some? ==> j.path == AttrsOf(g, n).path.value
  {
    JsonNode(n, AttrsOf(g, n).kind.GetOr("unknown"), AttrsOf(g, n).path.GetOr(""))
  }

  /** The number of nodes whose `type` is `kind`. */
  function CountKind(g: Graph, ns: seq<Node>, kind: string): (c: nat)
    ensures c <= |ns|
  {
    if |ns| == 0 then 0
    else (if AttrsOf(g, ns[0]).kind == Some(kind) then 1 else 0) + CountKind(g, ns[1..], kind)
  }

  datatype Report = Report(totalNodes: nat, totalEdges: nat, isAcyclic: bool, components: nat, modules: nat)

  /** The statistics `generate_report` prints for a graph. */
  function Stats(b: Graph): Report {
    Report(|b.nodes|, |b.edges|, IsAcyclic(b), CountKind(b, b.nodes, ComponentKind), CountKind(b, b.nodes, ModuleKind))
  }

  /** `generate_report` on the generator's graph, which it rebuilds first. */
  function MakeReport(g: Graph): Report
    requires Valid(g)
  {
    Stats(Build(g))
  }

  lemma {:induction false} CountKindAppend(g: Graph, a: seq<Node>, b: seq<Node>, kind: string)
    ensures CountKind(g, a + b, kind) == CountKind(g, a, kind) + CountKind(g, b, kind)
    decreases |a|
  {
    if |a| == 0 {
      assert a + b == b;
    } else {
      assert (a + b)[0] == a[0];
      assert (a + b)[1..] == a[1..] + b;
      CountKindAppend(g, a[1..], b, kind);
    }
  }

  lemma {:induction false} CountKindAll(g: Graph, ns: seq<Node>, kind: string, yes: bool)
    requires forall n :: n in ns ==> (AttrsOf(g, n).kind == Some(kind) <==> yes)
    ensures yes ==> CountKind(g, ns, kind) == |ns|
    ensures !yes ==> CountKind(g, ns, kind) == 0
    decreases |ns|
  {
    if |ns| > 0 {
      CountKindAll(g, ns[1..], kind, yes);
    }
  }

  /** The statistics of the curated graph: 33 nodes, 32 edges, acyclic,
      9 components and 24 modules. */
  const CuratedReport := Report(33, 32, true, 9, 24)

  /** The statistics of the curated graph built from scratch. */
  lemma CuratedStats(g: Graph)
    requires Valid(g) && g.nodes == []
    ensures Stats(Build(g)) == CuratedReport
  {
    CuratedSize(g);
    CuratedAcyclic(g);
    CuratedBuilt(g);
    CuratedBuildable();
    FreshCounts(Build(g), Components(), StaticEdges, Layout.Modules());
    AcyclicTest(Build(g));
    Layout.ModulesCount();
  }

  /** What `export_graph` prints after exporting from a fresh generator:
      the report rebuilds the already built graph and shows 33 nodes,
      32 edges, acyclic, 9 components and 24 modules. */
  lemma ReportAfterExport(g: Graph)
    requires Valid(g) && g.nodes == []
    ensures MakeReport(Build(g)) == CuratedReport
  {
    BuildIdempotent(g);
    CuratedStats(g);
  }
}

=== FILE: digraph.dfy ===
/** The part of a `networkx.DiGraph` both dependency-graph scripts use:
    nodes kept in insertion order with a `type`/`path` attribute record,
    `add_node` / `add_edge` with their idempotent behaviour, the order in
    which `graph.edges()` lists edges, and the acyclicity question answered
    by `simple_cycles` / `is_directed_acyclic_graph`. */
module Digraph {
  import opened Wrappers

  type Node = string
  type Edge = (Node, Node)

  /** The node attributes the scripts set: `type` and `path`. */
  datatype Attrs = Attrs(kind: Option<string>, path: Option<string>)

  const NoAttrs := Attrs(None, None)

  datatype Graph = Graph(nodes: seq<Node>, attrs: map<Node, Attrs>, edges: seq<Edge>)

  const Empty := Graph([], map[], [])

  predicate Distinct<T(==)>(s: seq<T>) {
    forall i, j :: 0 <= i < j < |s| ==> s[i] != s[j]
  }

  /** What networkx maintains: each node once, an attribute record per node,
      each edge once, and both endpoints of every edge are nodes. */
  ghost predicate Valid(g: Graph) {
    && Distinct(g.nodes)
    && (forall n :: n in g.attrs <==> n in g.nodes)
    && Distinct(g.edges)
    && (forall e :: e in g.edges ==> e.0 in g.nodes && e.1 in g.nodes)
  }

  lemma EmptyValid()
    ensures Valid(Empty)
  {
  }

  /** Attribute update of `add_node(n, **attr)`: given keys overwrite, others stay. */
  function Merge(a: Attrs, kind: Option<string>, path: Option<string>): Attrs {
    Attrs(if kind.Some? then kind else a.kind, if path.Some? then path else a.path)
  }

  function AttrsOf(g: Graph, n: Node): Attrs {
    if n in g.attrs then g.attrs[n] else NoAttrs
  }

  /** `g.add_node(n, type=kind, path=path)`: a new node is appended; an
      existing node keeps its position and has the given attributes updated. */
  function AddNode(g: Graph, n: Node, kind: Option<string>, path: Option<string>): (r: Graph)
    requires Valid(g)
    ensures Valid(r)
    ensures n in r.nodes && r.edges == g.edges
    ensures n in g.nodes ==> r.nodes == g.nodes
    ensures n !in g.nodes ==> r.nodes == g.nodes + [n]
    ensures forall m :: m in g.attrs && m != n ==> m in r.attrs && r.attrs[m] == g.attrs[m]
    ensures kind.Some? ==> r.attrs[n].kind == kind
    ensures path.Some? ==> r.attrs[n].path == path
    ensures kind.None? ==> r.attrs[n].kind == AttrsOf(g, n).kind
    ensures path.None? ==> r.attrs[n].path == AttrsOf(g, n).path
  {
    var nodes := if n in g.nodes then g.nodes else g.nodes + [n];
    Graph(nodes, g.attrs[n := Merge(AttrsOf(g, n), kind, path)], g.edges)
  }

  /** The node-adding step of `add_edge`: a missing node is appended with
      an empty attribute record. */
  function EnsureNode(g: Graph, n: Node): (r: Graph)
    requires Valid(g)
    ensures Valid(r)
    ensures r.edges == g.edges && n in r.nodes
    ensures r.nodes == if n in g.nodes then g.nodes else g.nodes + [n]
    ensures forall m :: m in g.attrs ==> m in r.attrs && r.attrs[m] == g.attrs[m]
  {
    if n in g.nodes then g else Graph(g.nodes + [n], g.attrs[n := NoAttrs], g.edges)
  }

  /** `g.add_edge(u, v)`: missing endpoints are added first (u, then v), with
      no attributes; an edge already present is not duplicated. */
  function AddEdge(g: Graph, u: Node, v: Node): (r: Graph)
    requires Valid(g)
    ensures Valid(r)
    ensures forall e :: e in r.edges <==> e in g.edges || e == (u, v)
    ensures forall m :: m in r.nodes <==> m in g.nodes || m == u || m == v
    ensures |g.nodes| <= |r.nodes| && r.nodes[..|g.nodes|] == g.nodes
    ensures forall m :: m in g.attrs ==> m in r.attrs && r.attrs[m] == g.attrs[m]
  {
    var g2 := EnsureNode(EnsureNode(g, u), v);
    assert g2.nodes[..|g.nodes|] == g.nodes;
    if (u, v) in g2.edges then g2 else Graph(g2.nodes, g2.attrs, g2.edges + [(u, v)])
  }

  /** Re-adding a node with the same attributes changes nothing. */
  lemma AddNodeIdempotent(g: Graph, n: Node, kind: Option<string>, path: Option<string>)
    requires Valid(g)
    ensures AddNode(AddNode(g, n, kind, path), n, kind, path) == AddNode(g, n, kind, path)
  {
  }

  /** Re-adding an edge changes nothing (a DiGraph has no parallel edges). */
  lemma AddEdgeIdempotent(g: Graph, u: Node, v: Node)
    requires Valid(g)
    ensures AddEdge(AddEdge(g, u, v), u, v) == AddEdge(g, u, v)
  {
  }

  // ---------------------------------------------------------------------
  // Edge iteration order

  /** The edges leaving `n`, in the order they were added (`g.adj[n]`). */
  function OutEdges(edges: seq<Edge>, n: Node): (r: seq<Edge>)
    ensures forall e :: e in r <==> e in edges && e.0 == n
  {
    if |edges| == 0 then []
    else (if edges[0].0 == n then [edges[0]] else []) + OutEdges(edges[1..], n)
  }

  function EdgesFrom(nodes: seq<Node>, edges: seq<Edge>): seq<Edge> {
    if |nodes| == 0 then [] else OutEdges(edges, nodes[0]) + EdgesFrom(nodes[1..], edges)
  }

  /** `list(g.edges())`: grouped by source node in node order, each group in
      insertion order. */
  function EdgeList(g: Graph): seq<Edge> {
    EdgesFrom(g.nodes, g.edges)
  }

  /** The edges whose source is one of `nodes`, in their original order. */
  function EdgesWithSourceIn(edges: seq<Edge>, nodes: seq<Node>): seq<Edge> {
    if |edges| == 0 then []
    else (if edges[0].0 in nodes then [edges[0]] else []) + EdgesWithSourceIn(edges[1..], nodes)
  }

  lemma {:induction false} SplitOffSource(edges: seq<Edge>, n: Node, rest: seq<Node>)
    requires n !in rest
    ensures multiset(EdgesWithSourceIn(edges, [n] + rest))
         == multiset(OutEdges(edges, n)) + multiset(EdgesWithSourceIn(edges, rest))
  {
    if |edges| > 0 {
      SplitOffSource(edges[1..], n, rest);
    }
  }

  lemma {:induction false} EdgesFromIsFilter(nodes: seq<Node>, edges: seq<Edge>)
    requires Distinct(nodes)
    ensures multiset(EdgesFrom(nodes, edges)) == multiset(EdgesWithSourceIn(edges, nodes))
  {
    if |nodes| == 0 {
      EmptyFilter(edges);
    } else {
      EdgesFromIsFilter(nodes[1..], edges);
      assert nodes == [nodes[0]] + nodes[1..];
      SplitOffSource(edges, nodes[0], nodes[1..]);
    }
  }

  lemma {:induction false} EmptyFilter(edges: seq<Edge>)
    ensures EdgesWithSourceIn(edges, []) == []
  {
    if |edges| > 0 {
      EmptyFilter(edges[1..]);
    }
  }

  lemma {:induction false} FilterKeepsAll(edges: seq<Edge>, nodes: seq<Node>)
    requires forall e :: e in edges ==> e.0 in nodes
    ensures EdgesWithSourceIn(edges, nodes) == edges
  {
    if |edges| > 0 {
      FilterKeepsAll(edges[1..], nodes);
      assert edges == [edges[0]] + edges[1..];
    }
  }

  /** `g.edges()` lists every edge exactly once: it is a permutation of the
      edges in insertion order, so exporters emit one line per edge. */
  lemma EdgeListIsPermutation(g: Graph)
    requires Valid(g)
    ensures multiset(EdgeList(g)) == multiset(g.edges)
    ensures |EdgeList(g)| == |g.edges|
  {
    EdgesFromIsFilter(g.nodes, g.edges);
    FilterKeepsAll(g.edges, g.nodes);
    assert |multiset(EdgeList(g))| == |multiset(g.edges)|;
  }

  // ---------------------------------------------------------------------
  // Walks, cycles and acyclicity

  /** A sequence of nodes each joined to the next by an edge. */
  ghost predicate IsWalk(g: Graph, w: seq<Node>) {
    |w| >= 1 && forall k :: 0 <= k < |w| - 1 ==> (w[k], w[k + 1]) in g.edges
  }

  /** A closed walk of at least one edge; every simple cycle networkx
      reports is one, and every closed walk contains one. */
  ghost predicate IsCycle(g: Graph, w: seq<Node>) {
    |w| >= 2 && IsWalk(g, w) && w[0] == w[|w| - 1]
  }

  ghost predicate Acyclic(g: Graph) {
    forall w :: !IsCycle(g, w)
  }

  lemma {:induction false} RankIncreasesAlongWalk(g: Graph, rank: Node -> int, w: seq<Node>)
    requires forall e :: e in g.edges ==> rank(e.0) < rank(e.1)
    requires IsWalk(g, w) && |w| >= 2
    ensures rank(w[0]) < rank(w[|w| - 1])
    decreases |w|
  {
    if |w| > 2 {
      RankIncreasesAlongWalk(g, rank, w[..|w| - 1]);
      assert (w[|w| - 2], w[|w| - 1]) in g.edges;
    } else {
      assert (w[0], w[1]) in g.edges;
    }
  }

  /** A graph whose edges all climb a ranking has no cycle. */
  lemma RankedIsAcyclic(g: Graph, rank: Node -> int)
    requires forall e :: e in g.edges ==> rank(e.0) < rank(e.1)
    ensures Acyclic(g)
  {
    forall w | IsCycle(g, w)
      ensures false
    {
      RankIncreasesAlongWalk(g, rank, w);
    }
  }

  /** Some node of `rem` has an edge into `v`. */
  predicate HasPredIn(edges: seq<Edge>, rem: seq<Node>, v: Node) {
    exists k :: 0 <= k < |edges| && edges[k].1 == v && edges[k].0 in rem
  }

  /** Index of the first node of `rem` (from `i` on) with no predecessor in `rem`. */
  function FirstSource(edges: seq<Edge>, rem: seq<Node>, i: nat): (r: Option<nat>)
    requires i <= |rem|
    ensures r.Some? ==> i <= r.value < |rem| && !HasPredIn(edges, rem, rem[r.value])
    ensures r.None? ==> forall j :: i <= j < |rem| ==> HasPredIn(edges, rem, rem[j])
    decreases |rem| - i
  {
    if i == |rem| then None
    else if !HasPredIn(edges, rem, rem[i]) then Some(i)
    else FirstSource(edges, rem, i + 1)
  }

  /** Kahn's peeling: drop a node with no predecessor among the remaining
      ones until none is left or every remaining node has one. */
  function Peel(edges: seq<Edge>, rem: seq<Node>): (left: seq<Node>)
    ensures forall v :: v in left ==> v in rem
    ensures forall j :: 0 <= j < |left| ==> HasPredIn(edges, left, left[j])
    decreases |rem|
  {
    match FirstSource(edges, rem, 0)
    case None => rem
    case Some(i) => Peel(edges, rem[..i] + rem[i + 1..])
  }

  /** The executable acyclicity test standing in for `simple_cycles` being
      empty and for `is_directed_acyclic_graph`. */
  predicate IsAcyclic(g: Graph) {
    Peel(g.edges, g.nodes) == []
  }

  /** The source peeled off is not on any cycle through the remaining
      nodes, so the cycle survives the step. */
  lemma PeelStepKeepsCycle(g: Graph, rem: seq<Node>, i: nat, w: seq<Node>)
    requires i < |rem| && !HasPredIn(g.edges, rem, rem[i])
    requires IsCycle(g, w)
    requires forall k :: 0 <= k < |w| ==> w[k] in rem
    ensures forall k :: 0 <= k < |w| ==> w[k] in rem[..i] + rem[i + 1..]
  {
    forall k | 0 <= k < |w|
      ensures w[k] in rem[..i] + rem[i + 1..]
    {
      if w[k] == rem[i] {
        PredecessorOnCycle(g, w, k, rem);
        assert false;
      }
      RemoveKeepsOthers(rem, i, w[k]);
    }
  }

  /** A cycle whose nodes all remain blocks the peel from emptying them. */
  lemma {:induction false} CycleBlocksPeel(g: Graph, rem: seq<Node>, w: seq<Node>)
    requires IsCycle(g, w)
    requires forall k :: 0 <= k < |w| ==> w[k] in rem
    ensures Peel(g.edges, rem) != []
    decreases |rem|
  {
    match FirstSource(g.edges, rem, 0)
    case None =>
      assert w[0] in rem;
    case Some(i) =>
      PeelStepKeepsCycle(g, rem, i, w);
      CycleBlocksPeel(g, rem[..i] + rem[i + 1..], w);
  }

  /** Removing position `i` keeps every element other than the removed one. */
  lemma RemoveKeepsOthers<T>(s: seq<T>, i: nat, x: T)
    requires i < |s| && x in s && x != s[i]
    ensures x in s[..i] + s[i + 1..]
  {
    var m :| 0 <= m < |s| && s[m] == x;
    if m < i {
      assert (s[..i] + s[i + 1..])[m] == x;
    } else {
      assert (s[..i] + s[i + 1..])[m - 1] == x;
    }
  }

  /** Every node on a cycle has its cycle predecessor among the cycle's nodes. */
  lemma PredecessorOnCycle(g: Graph, w: seq<Node>, k: nat, rem: seq<Node>)
    requires IsCycle(g, w) && k < |w|
    requires forall j :: 0 <= j < |w| ==> w[j] in rem
    ensures HasPredIn(g.edges, rem, w[k])
  {
    var k' := if k == 0 then |w| - 1 else k;
    assert w[k'] == w[k];
    var e := (w[k' - 1], w[k']);
    assert e in g.edges;
    var idx :| 0 <= idx < |g.edges| && g.edges[idx] == e;
    assert g.edges[idx].0 in rem;
  }

  /** Soundness of the test: when every node peels off, there is no cycle. */
  lemma PeelEmptyIsAcyclic(g: Graph)
    requires Valid(g)
    requires IsAcyclic(g)
    ensures Acyclic(g)
  {
    forall w | IsCycle(g, w)
      ensures false
    {
      forall k | 0 <= k < |w|
        ensures w[k] in g.nodes
      {
        if k < |w| - 1 {
          assert (w[k], w[k + 1]) in g.edges;
        } else {
          assert (w[k - 1], w[k]) in g.edges;
        }
      }
      CycleBlocksPeel(g, g.nodes, w);
    }
  }

  ghost function PredOf(edges: seq<Edge>, left: seq<Node>, v: Node): (u: Node)
    requires HasPredIn(edges, left, v)
    ensures (u, v) in edges && u in left
  {
    var k :| 0 <= k < |edges| && edges[k].1 == v && edges[k].0 in left;
    assert edges[k] == (edges[k].0, v);
    edges[k].0
  }

  /** Walking `n` steps backwards from `v` inside a node set where every
      node has a predecessor. */
  ghost function BackWalk(edges: seq<Edge>, left: seq<Node>, v: Node, n: nat): (w: seq<Node>)
    requires v in left
    requires forall j :: 0 <= j < |left| ==> HasPredIn(edges, left, left[j])
    ensures |w| == n + 1 && w[0] == v
    ensures forall k :: 0 <= k < |w| ==> w[k] in left
    ensures forall k :: 0 <= k < n ==> (w[k + 1], w[k]) in edges
    decreases n
  {
    if n == 0 then [v]
    else
      var u := PredOf(edges, left, v);
      [v] + BackWalk(edges, left, u, n - 1)
  }

  lemma {:induction false} SeqSetCard<T>(s: seq<T>)
    ensures |set x | x in s| <= |s|
  {
    if |s| > 0 {
      var init := s[..|s| - 1];
      SeqSetCard(init);
      assert s == init + [s[|s| - 1]];
      assert (set x | x in s) == (set x | x in init) + {s[|s| - 1]};
    }
  }

  /** More entries than distinct values forces a repeat. */
  lemma {:induction false} Pigeonhole<T>(w: seq<T>, pool: set<T>)
    requires forall k :: 0 <= k < |w| ==> w[k] in pool
    requires |w| > |pool|
    ensures exists i, j :: 0 <= i < j < |w| && w[i] == w[j]
  {
    if j :| 1 <= j < |w| && w[j] == w[0] {
      assert w[0] == w[j];
    } else {
      var rest := w[1..];
      var smaller := pool - {w[0]};
      forall k | 0 <= k < |rest|
        ensures rest[k] in smaller
      {
        assert rest[k] == w[k + 1];
      }
      Pigeonhole(rest, smaller);
      var i, j :| 0 <= i < j < |rest| && rest[i] == rest[j];
      assert w[i + 1] == w[j + 1];
    }
  }

  /** Completeness of the test: when peeling gets stuck, the stuck nodes
      contain a cycle. */
  lemma PeelStuckHasCycle(g: Graph)
    requires !IsAcyclic(g)
    ensures !Acyclic(g)
  {
    var left := Peel(g.edges, g.nodes);
    var pool := set x | x in left;
    SeqSetCard(left);
    var back := BackWalk(g.edges, left, left[0], |left|);
    assert forall k :: 0 <= k < |back| ==> back[k] in pool;
    Pigeonhole(back, pool);
    var i, j :| 0 <= i < j < |back| && back[i] == back[j];
    ReversedSegmentIsCycle(g, back, i, j);
  }

  /** Read backwards, the stretch of a backward walk between two visits of
      the same node is a cycle. */
  lemma ReversedSegmentIsCycle(g: Graph, back: seq<Node>, i: nat, j: nat)
    requires i < j < |back| && back[i] == back[j]
    requires forall k :: 0 <= k < |back| - 1 ==> (back[k + 1], back[k]) in g.edges
    ensures !Acyclic(g)
  {
    var c := seq(j - i + 1, k requires 0 <= k <= j - i => back[j - k]);
    forall k | 0 <= k < |c| - 1
      ensures (c[k], c[k + 1]) in g.edges
    {
      var m := j - k - 1;
      assert c[k] == back[m + 1] && c[k + 1] == back[m];
    }
    assert IsCycle(g, c);
  }

  /** The executable test decides acyclicity exactly. */
  lemma IsAcyclicCorrect(g: Graph)
    requires Valid(g)
    ensures IsAcyclic(g) <==> Acyclic(g)
  {
    if IsAcyclic(g) {
      PeelEmptyIsAcyclic(g);
    } else {
      PeelStuckHasCycle(g);
    }
  }
}

=== FILE: evidence_registry.dfy ===
/** The evidence registry: every evidence file found under the evidence
    directory is registered once with a sequential id and a type read off
    its path, per-type statistics are kept, and the last ten entries are
    exported. File metadata (times, sizes, scores) is not modelled. */
module EvidenceRegistry {
  import opened Wrappers
  import opened Text
  import Paths

  datatype Entry = Entry(id: int, filePath: string, evidenceType: Option<string>)

  datatype Stats = Stats(total: int, complianceChecks: int, policyReviews: int, structureValidations: int)

  datatype Registry = Registry(entries: seq<Entry>, stats: Stats)

  /** `_determine_evidence_type`: the first keyword found in the lower-cased
      path decides. */
  function Classify(path: string): (t: string)
    ensures var p := Lower(path);
      && (t == "policy_review" <==> Contains(p, "policy_review"))
      && (t == "structure_validation" <==> !Contains(p, "policy_review") && Contains(p, "structure"))
      && (t == "write_override_registry" <==>
            !Contains(p, "policy_review") && !Contains(p, "structure") && Contains(p, "write_override"))
      && (t == "test_execution" <==>
            !Contains(p, "policy_review") && !Contains(p, "structure") && !Contains(p, "write_override")
            && Contains(p, "test"))
      && (t == "audit_log" <==>
            !Contains(p, "policy_review") && !Contains(p, "structure") && !Contains(p, "write_override")
            && !Contains(p, "test") && Contains(p, "audit"))
      && (t == "compliance_evidence" <==>
            !Contains(p, "policy_review") && !Contains(p, "structure") && !Contains(p, "write_override")
            && !Contains(p, "test") && !Contains(p, "audit"))
  {
    var p := Lower(path);
    if Contains(p, "policy_review") then "policy_review"
    else if Contains(p, "structure") then "structure_validation"
    else if Contains(p, "write_override") then "write_override_registry"
    else if Contains(p, "test") then "test_execution"
    else if Contains(p, "audit") then "audit_log"
    else "compliance_evidence"
  }

  /** The files under the evidence directory whose name matches one pattern. */
  function Matching(files: seq<string>, mid: string, ext: string): (r: seq<string>)
    ensures forall p :: p in r <==> p in files && Paths.MatchesStarStar(Paths.Name(p), mid, ext)
  {
    if files == [] then []
    else
      var rest := Matching(files[1..], mid, ext);
      assert forall p :: p in files <==> p == files[0] || p in files[1..];
      if Paths.MatchesStarStar(Paths.Name(files[0]), mid, ext) then [files[0]] + rest else rest
  }

  /** The scan list: the matches of `*_evidence_*.json`, `*_log_*.json` and
      `*_results_*.log` in turn, so a file matching two patterns is listed
      twice. */
  function Found(files: seq<string>): seq<string> {
    Matching(files, "_evidence_", ".json") + Matching(files, "_log_", ".json")
      + Matching(files, "_results_", ".log")
  }

  function RegisteredPaths(entries: seq<Entry>): set<string> {
    set k | 0 <= k < |entries| :: entries[k].filePath
  }

  /** No path is registered twice. */
  predicate DistinctPaths(entries: seq<Entry>) {
    forall i, j :: 0 <= i < j < |entries| ==> entries[i].filePath != entries[j].filePath
  }

  /** The entry registered for a new path: the next id after the current
      length. */
  function NewEntry(entries: seq<Entry>, path: string): Entry {
    Entry(|entries| + 1, path, Some(Classify(path)))
  }

  /** Which statistics counter an entry feeds. */
  datatype Bucket = PolicyBucket | StructureBucket | ComplianceBucket

  function BucketOf(e: Entry): Bucket {
    var t := e.evidenceType.GetOr("unknown");
    if Contains(t, "policy_review") then PolicyBucket
    else if Contains(t, "structure") then StructureBucket
    else ComplianceBucket
  }

  function CountBucket(entries: seq<Entry>, b: Bucket): (n: nat)
    ensures n <= |entries|
  {
    if entries == [] then 0
    else (if BucketOf(entries[0]) == b then 1 else 0) + CountBucket(entries[1..], b)
  }

  /** Every entry lands in exactly one bucket. */
  lemma {:induction false} BucketsPartition(entries: seq<Entry>)
    ensures CountBucket(entries, PolicyBucket) + CountBucket(entries, StructureBucket)
            + CountBucket(entries, ComplianceBucket) == |entries|
  {
    if entries != [] {
      BucketsPartition(entries[1..]);
    }
  }

  /** The statistics of a list of entries: its length and its bucket counts. */
  function StatsOf(entries: seq<Entry>): (s: Stats)
    ensures s.total == s.policyReviews + s.structureValidations + s.complianceChecks == |entries|
  {
    BucketsPartition(entries);
    Stats(|entries|, CountBucket(entries, ComplianceBucket), CountBucket(entries, PolicyBucket),
          CountBucket(entries, StructureBucket))
  }

  /** The registration loop, checking each path against everything
      registered so far. Returns the entries and the number appended. */
  method Register(entries: seq<Entry>, paths: seq<string>) returns (r: seq<Entry>, added: nat)
    ensures |r| == |entries| + added && r[..|entries|] == entries
    ensures forall k :: |entries| <= k < |r| ==> r[k].id == k + 1 && r[k].filePath !in RegisteredPaths(entries)
    ensures forall k :: |entries| <= k < |r| ==> r[k].evidenceType == Some(Classify(r[k].filePath))
    ensures RegisteredPaths(r) == RegisteredPaths(entries) + set p | p in paths
    ensures DistinctPaths(entries) ==> DistinctPaths(r)
  {
    r := entries;
    added := 0;
    var i := 0;
    while i < |paths|
      invariant 0 <= i <= |paths|
      invariant |r| == |entries| + added && r[..|entries|] == entries
      invariant forall k :: |entries| <= k < |r| ==> r[k].id == k + 1 && r[k].filePath !in RegisteredPaths(entries)
      invariant forall k :: |entries| <= k < |r| ==> r[k].evidenceType == Some(Classify(r[k].filePath))
      invariant RegisteredPaths(r) == RegisteredPaths(entries) + set p | p in paths[..i]
      invariant DistinctPaths(entries) ==> DistinctPaths(r)
    {
      var p := paths[i];
      assert paths[..i + 1] == paths[..i] + [p];
      if p !in RegisteredPaths(r) {
        var e := NewEntry(r, p);
        AppendPaths(r, e);
        r := r + [e];
        added := added + 1;
      }
      i := i + 1;
    }
    assert paths[..i] == paths;
  }

  lemma AppendPaths(entries: seq<Entry>, e: Entry)
    ensures RegisteredPaths(entries + [e]) == RegisteredPaths(entries) + {e.filePath}
  {
    var r := entries + [e];
    assert forall k :: 0 <= k < |entries| ==> r[k] == entries[k];
    assert r[|entries|] == e;
  }

  /** `scan_and_register_evidence` with the paths taken as found. A missing
      evidence directory changes nothing and registers nothing. */
  method Scan(reg: Registry, dirExists: bool, files: seq<string>) returns (r: Registry, added: nat)
    ensures !dirExists ==> r == reg && added == 0
    ensures dirExists ==> |r.entries| == |reg.entries| + added && r.entries[..|reg.entries|] == reg.entries
    ensures dirExists ==> forall k :: |reg.entries| <= k < |r.entries| ==>
      r.entries[k].id == k + 1 && r.entries[k].filePath !in RegisteredPaths(reg.entries)
    ensures dirExists ==> r.stats == StatsOf(r.entries)
    ensures dirExists ==> RegisteredPaths(r.entries) == RegisteredPaths(reg.entries) + set p | p in Found(files)
    ensures DistinctPaths(reg.entries) ==> DistinctPaths(r.entries)
  {
    if !dirExists {
      return reg, 0;
    }
    var entries;
    entries, added := Register(reg.entries, Found(files));
    r := Registry(entries, StatsOf(entries));
  }

  /** Scanning again over the same files registers nothing new and leaves
      the statistics as they were. */
  method ScanTwice(reg: Registry, files: seq<string>) returns (first: Registry, second: Registry, added: nat)
    ensures added == 0 && second == first
  {
    var firstAdded;
    first, firstAdded := Scan(reg, true, files);
    second, added := Scan(first, true, files);
    NothingNew(first.entries, second.entries);
  }

  /** An extension whose new entries all carry unregistered paths, but which
      registers no path beyond the old ones, adds nothing. */
  lemma NothingNew(before: seq<Entry>, after: seq<Entry>)
    requires |before| <= |after| && after[..|before|] == before
    requires forall k :: |before| <= k < |after| ==> after[k].filePath !in RegisteredPaths(before)
    requires RegisteredPaths(after) <= RegisteredPaths(before)
    ensures after == before
  {
    EntryRegistered(after, |before|);
    assert after == after[..|before|];
  }

  lemma EntryRegistered(entries: seq<Entry>, k: nat)
    ensures k < |entries| ==> entries[k].filePath in RegisteredPaths(entries)
  {
  }

  /** The registration loop as written: each found file is checked against
      the paths registered before the scan began, never against those the
      loop itself appends. A pair is the found path and the path recorded. */
  function RegisterAgainst(entries: seq<Entry>, found: seq<(string, string)>, existing: set<string>): (r: seq<Entry>)
    ensures |entries| <= |r| <= |entries| + |found| && r[..|entries|] == entries
    decreases |found|
  {
    if found == [] then entries
    else if found[0].1 in existing then RegisterAgainst(entries, found[1..], existing)
    else
      var e := Entry(|entries| + 1, found[0].1, Some(Classify(found[0].0)));
      var r := RegisterAgainst(entries + [e], found[1..], existing);
      ShorterPrefix(r, entries, e);
      r
  }

  /** A sequence that begins with `a + [e]` begins with `a`. */
  lemma ShorterPrefix<T>(r: seq<T>, a: seq<T>, e: T)
    requires |a| + 1 <= |r| && r[..|a| + 1] == a + [e]
    ensures r[..|a|] == a
  {
    assert r[..|a|] == r[..|a| + 1][..|a|];
  }

  /** The statistics as written: the total is recomputed, but the three
      counters are incremented once per entry on top of their stored values. */
  function StatsAsWritten(s: Stats, entries: seq<Entry>): (r: Stats)
    ensures r.total == |entries|
    ensures r.policyReviews == s.policyReviews + CountBucket(entries, PolicyBucket)
    ensures r.structureValidations == s.structureValidations + CountBucket(entries, StructureBucket)
    ensures r.complianceChecks == s.complianceChecks + CountBucket(entries, ComplianceBucket)
  {
    Stats(|entries|, s.complianceChecks + CountBucket(entries, ComplianceBucket),
          s.policyReviews + CountBucket(entries, PolicyBucket),
          s.structureValidations + CountBucket(entries, StructureBucket))
  }

  /** `scan_and_register_evidence` as written, with the working directory
      `cwd`: the found paths (relative, as `rglob` under a relative directory
      yields them) are made relative to `cwd`, then registered and counted.
      `None` where `relative_to` raises. */
  function ScanAsWritten(reg: Registry, dirExists: bool, files: seq<string>, cwd: string): Option<Registry> {
    if !dirExists then Some(reg)
    else
      var found := Found(files);
      if exists k :: 0 <= k < |found| && Paths.RelativeTo(found[k], cwd).None? then None
      else
        var pairs := seq(|found|, k requires 0 <= k < |found| => (found[k], Paths.RelativeTo(found[k], cwd).value));
        var entries := RegisterAgainst(reg.entries, pairs, RegisteredPaths(reg.entries));
        Some(Registry(entries, StatsAsWritten(reg.stats, entries)))
  }

  /** Run from an absolute working directory, as every process is, the scan
      as written raises as soon as it finds one relative evidence path. */
  lemma ScanAsWrittenRaises(reg: Registry, files: seq<string>, cwd: string)
    requires cwd != [] && cwd[0] == '/'
    requires forall k :: 0 <= k < |files| ==> files[k] == [] || files[k][0] != '/'
    requires Found(files) != []
    ensures ScanAsWritten(reg, true, files, cwd) == None
  {
    var found := Found(files);
    assert found[0] in files;
    Paths.RelativeUnderAbsolute(found[0], cwd);
  }

  /** A file whose name matches two of the patterns. */
  const TwiceFound := "a_evidence_log_1.json"

  /** That file is listed once per pattern it matches. */
  lemma TwiceFoundListedTwice()
    ensures Found([TwiceFound]) == [TwiceFound, TwiceFound]
  {
    TwiceFoundName();
    NamedTwiceFoundListedTwice(TwiceFound);
  }

  /** So is any path to a file of that name. */
  lemma NamedTwiceFoundListedTwice(p: string)
    requires Paths.Name(p) == TwiceFound
    ensures Found([p]) == [p, p]
  {
    assert Matching([p], "_evidence_", ".json") == [p] by {
      TwiceFoundEvidence();
      MatchingSingle(p, "_evidence_", ".json");
    }
    assert Matching([p], "_log_", ".json") == [p] by {
      TwiceFoundLog();
      MatchingSingle(p, "_log_", ".json");
    }
    assert Matching([p], "_results_", ".log") == [] by {
      assert !EndsWith(TwiceFound, ".log");
      MatchingSingle(p, "_results_", ".log");
    }
  }

  lemma MatchingSingle(p: string, mid: string, ext: string)
    ensures Matching([p], mid, ext) == if Paths.MatchesStarStar(Paths.Name(p), mid, ext) then [p] else []
  {
    assert [p][1..] == [];
  }

  lemma TwiceFoundName()
    ensures Paths.Name(TwiceFound) == TwiceFound
  {
    assert '/' !in TwiceFound;
  }

  lemma TwiceFoundEvidence()
    ensures Paths.MatchesStarStar(TwiceFound, "_evidence_", ".json")
  {
    assert TwiceFound[..16] == "a" + "_evidence_" + "log_1";
    assert Contains("_evidence_", "_evidence_");
    ContainsInfix("a", "_evidence_", "log_1", "_evidence_");
  }

  lemma TwiceFoundLog()
    ensures Paths.MatchesStarStar(TwiceFound, "_log_", ".json")
  {
    assert TwiceFound[..16] == "a_evidence" + "_log_" + "1";
    assert Contains("_log_", "_log_");
    ContainsInfix("a_evidence", "_log_", "1", "_log_");
  }

  /** The loop as written records a path listed twice twice, with two ids,
      where `Register` records it once. */
  lemma RegisterAsWrittenDuplicates(found: string, path: string)
    ensures var es := RegisterAgainst([], [(found, path), (found, path)], {});
      |es| == 2 && es[0].filePath == es[1].filePath == path && es[0].id == 1 && es[1].id == 2
      && !DistinctPaths(es)
  {
    var e1 := Entry(1, path, Some(Classify(found)));
    var e2 := Entry(2, path, Some(Classify(found)));
    var rest := [(found, path)];
    assert [(found, path), (found, path)][1..] == rest;
    assert RegisterAgainst([e1], rest, {}) == [e1, e2] by {
      assert rest[1..] == [];
    }
  }

  /** `TwiceFound` in the evidence directory, relative to the working
      directory. */
  const TwiceFoundRel := "23_compliance/evidence/" + TwiceFound

  /** Once the found paths lie under the working directory, so that
      `relative_to` succeeds, the scan as written registers `TwiceFound`
      twice under one path, with ids 1 and 2. */
  lemma ScanAsWrittenDuplicates(s: Stats, cwd: string)
    ensures var r := ScanAsWritten(Registry([], s), true, [cwd + "/" + TwiceFoundRel], cwd);
      && r.Some?
      && |r.value.entries| == 2
      && r.value.entries[0].filePath == r.value.entries[1].filePath == TwiceFoundRel
      && r.value.entries[0].id == 1 && r.value.entries[1].id == 2
      && !DistinctPaths(r.value.entries)
  {
    var p := cwd + "/" + TwiceFoundRel;
    TwiceFoundUnder(cwd);
    Paths.RelativeToOf(cwd, TwiceFoundRel);
    ScanAsWrittenListedTwice(Registry([], s), p, TwiceFoundRel, cwd);
    assert RegisteredPaths([]) == {};
    RegisterAsWrittenDuplicates(p, TwiceFoundRel);
  }

  /** `TwiceFound` in the evidence directory under any working directory is
      listed twice. */
  lemma TwiceFoundUnder(cwd: string)
    ensures var p := cwd + "/" + TwiceFoundRel; Found([p]) == [p, p]
  {
    var p := cwd + "/" + TwiceFoundRel;
    var dir := cwd + "/23_compliance/evidence/";
    assert p == dir + TwiceFound;
    assert '/' !in TwiceFound;
    Paths.DirPrefixAppend(dir, TwiceFound);
    NamedTwiceFoundListedTwice(p);
  }

  /** The scan as written of one file listed twice registers the pair
      (file, relative path) twice against the paths already known. */
  lemma ScanAsWrittenListedTwice(reg: Registry, p: string, rel: string, cwd: string)
    requires Found([p]) == [p, p]
    requires Paths.RelativeTo(p, cwd) == Some(rel)
    ensures var entries := RegisterAgainst(reg.entries, [(p, rel), (p, rel)], RegisteredPaths(reg.entries));
      ScanAsWritten(reg, true, [p], cwd) == Some(Registry(entries, StatsAsWritten(reg.stats, entries)))
  {
    var found := Found([p]);
    var pairs := seq(|found|, k requires 0 <= k < |found| => (found[k], Paths.RelativeTo(found[k], cwd).value));
    assert pairs == [(p, rel), (p, rel)];
  }

  /** A rescan as written of a registry whose statistics are right leaves
      them wrong: the three counters now add up to the old entry count plus
      the new one, more than the total. With no evidence files the scan
      cannot raise. */
  lemma StatsAsWrittenDrift(reg: Registry, files: seq<string>, cwd: string)
    requires reg.stats == StatsOf(reg.entries) && reg.entries != []
    ensures ScanAsWritten(reg, true, [], cwd).Some?
    ensures var r := ScanAsWritten(reg, true, files, cwd);
      r.Some? ==>
        && r.value.stats.policyReviews + r.value.stats.structureValidations + r.value.stats.complianceChecks
           == |reg.entries| + r.value.stats.total
        && r.value.stats != StatsOf(r.value.entries)
  {
    assert Found([]) == [];
    var r := ScanAsWritten(reg, true, files, cwd);
    if r.Some? {
      BucketsPartition(r.value.entries);
    }
  }

  /** `export_registry_log`'s `recent_evidence`: the last ten entries or all
      of them, in order. */
  function Recent(entries: seq<Entry>): (r: seq<Entry>)
    ensures |r| == (if |entries| < 10 then |entries| else 10)
    ensures r == entries[|entries| - |r|..]
  {
    if |entries| <= 10 then entries else entries[|entries| - 10..]
  }
}

=== FILE: layout.dfy ===
/** The fixed repository layout several scripts hard-code: the 24 root
    modules, numbered `01` to `24`. */
module Layout {

  /** A number below 100 as two decimal digits, zero-padded (`f"{n:02d}"`). */
  function Pad2(n: nat): (s: string)
    requires n < 100
    ensures |s| == 2 && '0' <= s[0] <= '9' && '0' <= s[1] <= '9'
    ensures (s[0] as int - '0' as int) * 10 + (s[1] as int - '0' as int) == n
  {
    [('0' as int + n / 10) as char, ('0' as int + n % 10) as char]
  }

  /** What module `i` (counting from 0) is about: its name after `NN_`. */
  function Topic(i: nat): string
    requires i < 24
  {
    match i
    case 0 => "ai_layer"
    case 1 => "audit_logging"
    case 2 => "core"
    case 3 => "deployment"
    case 4 => "documentation"
    case 5 => "data_pipeline"
    case 6 => "governance_legal"
    case 7 => "identity_score"
    case 8 => "meta_identity"
    case 9 => "interoperability"
    case 10 => "test_simulation"
    case 11 => "tooling"
    case 12 => "ui_layer"
    case 13 => "zero_time_auth"
    case 14 => "infra"
    case 15 => "codex"
    case 16 => "observability"
    case 17 => "data_layer"
    case 18 => "adapters"
    case 19 => "foundation"
    case 20 => "post_quantum_crypto"
    case 21 => "datasets"
    case 22 => "compliance"
    case _ => "meta_orchestration"
  }

  /** The name of module `i`: its number `i + 1` in two digits, `_`, its topic. */
  function ModuleName(i: nat): string
    requires i < 24
  {
    Pad2(i + 1) + "_" + Topic(i)
  }

  /** The 24 root modules, in numbering order. The same list appears in the
      structure-lock gate and in the dependency-graph generator. */
  function Modules(): (ms: seq<string>)
    ensures |ms| == 24 && forall i :: 0 <= i < 24 ==> ms[i] == ModuleName(i)
  {
    seq(24, i requires 0 <= i < 24 => ModuleName(i))
  }

  /** The module numbered `n` starts with its two-digit number and `_`. */
  predicate NumberedAs(name: string, n: nat)
    requires n < 100
  {
    |name| >= 3 && name[..2] == Pad2(n) && name[2] == '_'
  }

  lemma ModulesCount()
    ensures |Modules()| == 24
  {
  }

  /** Module `i` of the list carries the number `i + 1`. */
  lemma ModulesNumbered()
    ensures |Modules()| == 24
    ensures forall i :: 0 <= i < |Modules()| ==> NumberedAs(Modules()[i], i + 1)
  {
    forall i | 0 <= i < |Modules()|
      ensures NumberedAs(Modules()[i], i + 1)
    {
      assert Modules()[i] == Pad2(i + 1) + "_" + Topic(i);
      assert Modules()[i][..2] == Pad2(i + 1);
    }
  }

  /** No module is listed twice. */
  lemma ModulesDistinct()
    ensures forall i, j :: 0 <= i < j < |Modules()| ==> Modules()[i] != Modules()[j]
  {
    ModulesNumbered();
    forall i, j | 0 <= i < j < |Modules()|
      ensures Modules()[i] != Modules()[j]
    {
      assert Modules()[i][..2] != Modules()[j][..2];
    }
  }
}

=== FILE: paths.dfy ===
/** The `pathlib` pieces the scripts use on relative, normalised POSIX paths
    (no trailing `/`, no empty or `.` components): `name`, `suffix`, `stem`,
    the parent directory, and `glob` patterns of the forms `*X` and `*X*Y`
    matched against a file name. */
module Paths {
  import opened Wrappers
  import opened Text

  /** Position of the last `c` in `s`, as `s.rfind(c)`. */
  function LastIndexOf(s: string, c: char): (r: Option<nat>)
    ensures r.Some? ==> r.value < |s| && s[r.value] == c && c !in s[r.value + 1..]
    ensures r.None? ==> c !in s
  {
    if |s| == 0 then None
    else if s[|s| - 1] == c then Some(|s| - 1)
    else
      var r := LastIndexOf(s[..|s| - 1], c);
      assert s == s[..|s| - 1] + [s[|s| - 1]];
      if r.Some? then
        assert s[r.value + 1..] == s[..|s| - 1][r.value + 1..] + [s[|s| - 1]];
        r
      else r
  }

  /** `Path(p).name`: the last component. */
  function Name(p: string): string {
    match LastIndexOf(p, '/')
    case None => p
    case Some(i) => p[i + 1..]
  }

  /** The parent directory with its trailing `/`, or `""` for a bare name
      (joining a name onto `Path(".")` leaves just the name). */
  function DirPrefix(p: string): string {
    match LastIndexOf(p, '/')
    case None => ""
    case Some(i) => p[..i + 1]
  }

  /** `Path(p).parent`: the directory prefix without its `/`, or `.` for a
      bare name. */
  function Parent(p: string): (r: string)
    ensures DirPrefix(p) == [] ==> r == "."
    ensures DirPrefix(p) != [] ==> r + "/" == DirPrefix(p)
  {
    var d := DirPrefix(p);
    if d == [] then "." else d[..|d| - 1]
  }

  /** Writing a directory `d` and a name without `/` as `d/x`, the parent is `d`. */
  lemma ParentAppend(d: string, x: string)
    requires '/' !in x
    ensures Parent(d + "/" + x) == d
  {
    assert d + "/" + x == (d + "/") + x;
    DirPrefixAppend(d + "/", x);
    assert (d + "/")[..|d|] == d;
  }

  /** A path is its directory prefix followed by its name, and the name has no `/`. */
  lemma DirPrefixName(p: string)
    ensures p == DirPrefix(p) + Name(p)
    ensures '/' !in Name(p)
    ensures DirPrefix(p) == [] || DirPrefix(p)[|DirPrefix(p)| - 1] == '/'
  {
  }

  /** Position of the dot that starts `Path(name).suffix`, when there is one:
      the last dot, provided it is neither the first nor the last character. */
  function SuffixDot(name: string): Option<nat> {
    match LastIndexOf(name, '.')
    case Some(i) => if 0 < i < |name| - 1 then Some(i) else None
    case None => None
  }

  /** `Path(name).suffix`. */
  function Suffix(name: string): string {
    match SuffixDot(name)
    case Some(i) => name[i..]
    case None => ""
  }

  /** `Path(name).stem`. */
  function Stem(name: string): string {
    match SuffixDot(name)
    case Some(i) => name[..i]
    case None => name
  }

  /** A name splits into stem and suffix; a non-empty suffix is one dot
      followed by at least one dot-free character, after a non-empty stem. */
  lemma StemSuffix(name: string)
    ensures Stem(name) + Suffix(name) == name
    ensures Suffix(name) != [] ==>
      && Suffix(name)[0] == '.' && |Suffix(name)| >= 2
      && '.' !in Suffix(name)[1..] && |Stem(name)| >= 1
  {
  }

  /** `fnmatch(name, "*" + mid + "*" + ext)` for patterns with no other wildcards. */
  predicate MatchesStarStar(name: string, mid: string, ext: string) {
    EndsWith(name, ext) && Contains(name[..|name| - |ext|], mid)
  }

  /** The glob `*MID*EXT` matches exactly the names of shape `A + MID + B + EXT`:
      `MID` occurs somewhere that leaves room for `EXT` after it. */
  lemma MatchesStarStarIff(name: string, mid: string, ext: string)
    ensures MatchesStarStar(name, mid, ext)
        <==> EndsWith(name, ext) && exists i :: OccursAt(name, mid, i) && i + |mid| + |ext| <= |name|
  {
    if MatchesStarStar(name, mid, ext) {
      var front := name[..|name| - |ext|];
      var i :| OccursAt(front, mid, i);
      assert name[i..i + |mid|] == front[i..i + |mid|];
      assert OccursAt(name, mid, i);
    }
    if EndsWith(name, ext) && exists i :: OccursAt(name, mid, i) && i + |mid| + |ext| <= |name| {
      var i :| OccursAt(name, mid, i) && i + |mid| + |ext| <= |name|;
      var front := name[..|name| - |ext|];
      assert front[i..i + |mid|] == mid;
      assert OccursAt(front, mid, i);
    }
  }

  /** `Path.relative_to` on textual paths: the part of `p` below the
      directory `base`; `None` where it raises `ValueError`. Two answers of
      Python's are not modelled and give `None` here: `.` for a path
      relative to itself, and the path without its `/` for the base `/`.
      No modelled caller reaches either: the scripts make file paths
      relative to the working directory or to the repository root. */
  function RelativeTo(p: string, base: string): (r: Option<string>)
    ensures r.Some? ==> base + "/" + r.value == p
  {
    if StartsWith(p, base + "/") then Some(p[|base| + 1..]) else None
  }

  /** A relative path is never below an absolute directory. */
  lemma RelativeUnderAbsolute(p: string, base: string)
    requires base != [] && base[0] == '/'
    requires p == [] || p[0] != '/'
    ensures RelativeTo(p, base) == None
  {
  }

  /** A path spelled as `base/rel` is `rel` relative to `base`. */
  lemma RelativeToOf(base: string, rel: string)
    ensures RelativeTo(base + "/" + rel, base) == Some(rel)
  {
    var p := base + "/" + rel;
    assert p[..|base + "/"|] == base + "/";
    assert p[|base| + 1..] == rel;
  }

  /** The last `c` of `a + b` is the last `c` of `a` when `b` has none. */
  lemma {:induction false} LastIndexOfAppend(a: string, b: string, c: char)
    requires c !in b
    ensures LastIndexOf(a + b, c) == LastIndexOf(a, c)
    decreases |b|
  {
    if b != [] {
      var ab := a + b;
      assert ab[..|ab| - 1] == a + b[..|b| - 1];
      assert ab[|ab| - 1] == b[|b| - 1];
      LastIndexOfAppend(a, b[..|b| - 1], c);
    } else {
      assert a + b == a;
    }
  }

  /** Appending a name without `/` to a directory prefix gives a path with
      that prefix and that name. */
  lemma DirPrefixAppend(d: string, x: string)
    requires '/' !in x
    requires d == [] || d[|d| - 1] == '/'
    ensures DirPrefix(d + x) == d && Name(d + x) == x
  {
    LastIndexOfAppend(d, x, '/');
    if d != [] {
      assert LastIndexOf(d, '/') == Some(|d| - 1);
      assert (d + x)[..|d|] == d;
      assert (d + x)[|d|..] == x;
    } else {
      assert d + x == x;
    }
  }
}

=== FILE: policy_review.dfy ===
/** The policy and exception reviewer: a compliance score that starts at 100
    and loses points for an unreadable file, for each missing policy section
    and for each expired exception, with the violations and recommendations
    that explain it, and the evidence verdict read off the score.

    Parsed YAML is given: a document is either malformed (with the parser's
    message) or a mapping, of which only what the reviewer looks at is kept.
    Dates are given already read: `fromisoformat` either rejects a string
    (`ValueError`, which nothing catches) or yields a point in time on the
    same clock as `now`. */
module PolicyReview {
  import opened Wrappers
  import opened Text
  import Paths

  /** The reviewer's running state. */
  datatype Reviewer = Reviewer(score: int, violations: seq<string>, recommendations: seq<string>)

  const Start := Reviewer(100, [], [])

  /** A date string: one `fromisoformat` rejects, or a point in time. The
      last review also carries the whole days elapsed since it, as
      `timedelta.days` counts them. */
  datatype Instant = Unreadable | At(time: int, daysSince: int)

  /** A parsed structure-policy file. */
  datatype PolicyDoc = PolicyMalformed(error: string) | Policy(keys: set<string>, lastReview: Option<Instant>)

  datatype Exception = Exception(id: Option<string>, expiry: Option<Instant>)

  /** A parsed exceptions file; `exceptions` is absent when the key is. */
  datatype ExceptionsDoc = ExceptionsMalformed(error: string) | Exceptions(exceptions: Option<seq<Exception>>)

  const RequiredSections: seq<string> := ["version", "policy_name", "requirements", "violations", "enforcement"]

  /** The sections the policy lacks, in the order they are checked. */
  function MissingSections(keys: set<string>): (r: seq<string>)
    ensures forall s :: s in r <==> s in RequiredSections && s !in keys
    ensures |r| <= |RequiredSections|
  {
    MissingFrom(RequiredSections, keys)
  }

  function MissingFrom(sections: seq<string>, keys: set<string>): (r: seq<string>)
    ensures forall s :: s in r <==> s in sections && s !in keys
    ensures |r| <= |sections|
  {
    if sections == [] then []
    else
      var rest := MissingFrom(sections[1..], keys);
      assert forall s :: s in sections <==> s == sections[0] || s in sections[1..];
      if sections[0] in keys then rest else [sections[0]] + rest
  }

  function MissingMessages(missing: seq<string>): (r: seq<string>)
    ensures |r| == |missing|
    ensures forall k :: 0 <= k < |r| ==> r[k] == "Missing required policy section: " + missing[k]
  {
    if missing == [] then []
    else ["Missing required policy section: " + missing[0]] + MissingMessages(missing[1..])
  }

  /** The default policy written when the file is absent: every section,
      and a last review made just now. */
  const DefaultPolicy := Policy({"version", "policy_name", "created", "last_review", "requirements",
                                 "violations", "enforcement"}, Some(At(0, 0)))

  /** `review_structure_policy`; an absent file is first replaced by the
      default policy. `None` where a last-review date does not parse. */
  function ReviewStructure(r: Reviewer, file: Option<PolicyDoc>): (out: Option<Reviewer>)
    ensures file.Some? && file.value.PolicyMalformed? ==>
      out == Some(r.(score := r.score - 10,
                     violations := r.violations + ["Invalid YAML in policy file: " + file.value.error]))
    ensures out.None? <==> file.Some? && file.value.Policy? && file.value.lastReview == Some(Unreadable)
  {
    var doc := file.GetOr(DefaultPolicy);
    match doc
    case PolicyMalformed(e) =>
      Some(r.(score := r.score - 10, violations := r.violations + ["Invalid YAML in policy file: " + e]))
    case Policy(keys, lastReview) =>
      var missing := MissingSections(keys);
      var checked := r.(score := r.score - 5 * |missing|, violations := r.violations + MissingMessages(missing));
      match lastReview
      case None => Some(checked)
      case Some(Unreadable) => None
      case Some(At(_, days)) =>
        if days > 30 then
          Some(checked.(recommendations := checked.recommendations
                          + ["Policy review overdue by " + IntToString(days - 30) + " days"]))
        else Some(checked)
  }

  /** Each missing section costs five points and one violation naming it; a
      last review more than 30 days old adds one recommendation and costs
      nothing; the earlier findings are kept. */
  lemma ReviewStructureEffect(r: Reviewer, keys: set<string>, lastReview: Option<Instant>)
    requires lastReview != Some(Unreadable)
    ensures var out := ReviewStructure(r, Some(Policy(keys, lastReview)));
      var missing := MissingSections(keys);
      && out.Some?
      && out.value.score == r.score - 5 * |missing|
      && |out.value.violations| == |r.violations| + |missing|
      && out.value.violations[..|r.violations|] == r.violations
      && out.value.violations == r.violations + MissingMessages(missing)
      && (forall s :: s in missing <==> s in RequiredSections && s !in keys)
      && var late := lastReview.Some? && lastReview.value.daysSince > 30;
         |out.value.recommendations| == |r.recommendations| + (if late then 1 else 0)
         && out.value.recommendations[..|r.recommendations|] == r.recommendations
         && (late ==> out.value.recommendations[|r.recommendations|]
                        == "Policy review overdue by " + IntToString(lastReview.value.daysSince - 30) + " days")
  {
    var missing := MissingSections(keys);
    assert (r.violations + MissingMessages(missing))[..|r.violations|] == r.violations;
  }

  /** From the start, a structure review scores between 75 and 100, and 100
      exactly when no section is missing. */
  lemma StructureScoreRange(keys: set<string>, lastReview: Option<Instant>)
    requires lastReview != Some(Unreadable)
    ensures var out := ReviewStructure(Start, Some(Policy(keys, lastReview))).value;
      75 <= out.score <= 100
      && (out.score == 100 <==> forall k :: 0 <= k < |RequiredSections| ==> RequiredSections[k] in keys)
  {
    ReviewStructureEffect(Start, keys, lastReview);
    var missing := MissingSections(keys);
    if missing != [] {
      assert missing[0] in missing;
    }
  }

  /** An absent policy file is replaced by the default, which passes. */
  lemma DefaultPolicyPasses(r: Reviewer)
    ensures ReviewStructure(r, None) == Some(r)
  {
    assert forall k :: 0 <= k < |RequiredSections| ==> RequiredSections[k] in DefaultPolicy.keys;
    NoMember(MissingSections(DefaultPolicy.keys));
    assert r.violations + [] == r.violations;
  }

  lemma NoMember<T>(s: seq<T>)
    ensures (forall x :: x !in s) ==> s == []
  {
    if s != [] {
      assert s[0] in s;
    }
  }

  /** Which exceptions have expired by `now`: those with an expiry date
      strictly before it. `None` when some expiry date does not parse. */
  function ExpiredIds(es: seq<Exception>, now: int): (r: Option<seq<string>>)
    ensures r.None? <==> exists k :: 0 <= k < |es| && es[k].expiry == Some(Unreadable)
    ensures r.Some? ==> |r.value| == CountExpired(es, now)
  {
    if es == [] then Some([])
    else
      var rest := ExpiredIds(es[1..], now);
      assert forall k :: 0 < k < |es| ==> es[k] == es[1..][k - 1];
      match es[0].expiry
      case None => rest
      case Some(Unreadable) => None
      case Some(At(t, _)) =>
        if t < now then
          match rest
          case None => None
          case Some(ids) => Some([es[0].id.GetOr("unknown")] + ids)
        else rest
  }

  predicate ExpiredBy(e: Exception, now: int) {
    e.expiry.Some? && e.expiry.value.At? && e.expiry.value.time < now
  }

  /** The number of exceptions expired by `now`. */
  function CountExpired(es: seq<Exception>, now: int): (n: nat)
    ensures n <= |es|
  {
    if es == [] then 0
    else (if ExpiredBy(es[0], now) then 1 else 0) + CountExpired(es[1..], now)
  }

  /** The exceptions expired by `now`, in their order. */
  function ExpiredOf(es: seq<Exception>, now: int): (r: seq<Exception>)
    ensures |r| == CountExpired(es, now)
    ensures forall k :: 0 <= k < |r| ==> ExpiredBy(r[k], now) && r[k] in es
  {
    if es == [] then []
    else
      var rest := ExpiredOf(es[1..], now);
      assert forall e :: e in es[1..] ==> e in es;
      if ExpiredBy(es[0], now) then [es[0]] + rest else rest
  }

  /** The id each exception is reported under, `unknown` where it has none. */
  function IdsOf(es: seq<Exception>): (r: seq<string>)
    ensures |r| == |es|
    ensures forall k :: 0 <= k < |r| ==> r[k] == es[k].id.GetOr("unknown")
  {
    if es == [] then []
    else [es[0].id.GetOr("unknown")] + IdsOf(es[1..])
  }

  /** When every expiry date parses, the exceptions review reports exactly
      the ids of the expired exceptions, in file order. */
  lemma {:induction false} ExpiredIdsFilter(es: seq<Exception>, now: int)
    requires forall k :: 0 <= k < |es| ==> es[k].expiry != Some(Unreadable)
    ensures ExpiredIds(es, now) == Some(IdsOf(ExpiredOf(es, now)))
  {
    if es != [] {
      assert forall k :: 0 <= k < |es[1..]| ==> es[1..][k] == es[k + 1];
      ExpiredIdsFilter(es[1..], now);
      var rest := ExpiredOf(es[1..], now);
      if ExpiredBy(es[0], now) {
        assert ([es[0]] + rest)[1..] == rest;
      }
    }
  }

  /** A later `now` never finds fewer exceptions expired; an exception
      without an expiry date never expires. */
  lemma {:induction false} ExpiredMonotone(es: seq<Exception>, now1: int, now2: int)
    requires now1 <= now2
    ensures CountExpired(es, now1) <= CountExpired(es, now2)
  {
    if es != [] {
      ExpiredMonotone(es[1..], now1, now2);
    }
  }

  function ExpiredMessages(ids: seq<string>): (r: seq<string>)
    ensures |r| == |ids|
    ensures forall k :: 0 <= k < |r| ==> r[k] == "Expired exception: " + ids[k]
  {
    if ids == [] then []
    else ["Expired exception: " + ids[0]] + ExpiredMessages(ids[1..])
  }

  /** `review_exceptions`; an absent file is first replaced by the default,
      which lists no exceptions. */
  function ReviewExceptions(r: Reviewer, file: Option<ExceptionsDoc>, now: int): (out: Option<Reviewer>)
    ensures file.Some? && file.value.ExceptionsMalformed? ==>
      out == Some(r.(score := r.score - 10,
                     violations := r.violations + ["Invalid YAML in exceptions file: " + file.value.error]))
    ensures file.None? ==> out == Some(r)
  {
    assert r.violations + [] == r.violations;
    match file.GetOr(Exceptions(Some([])))
    case ExceptionsMalformed(e) =>
      Some(r.(score := r.score - 10, violations := r.violations + ["Invalid YAML in exceptions file: " + e]))
    case Exceptions(es) =>
      match ExpiredIds(es.GetOr([]), now)
      case None => None
      case Some(ids) =>
        Some(r.(score := r.score - 5 * |ids|, violations := r.violations + ExpiredMessages(ids)))
  }

  /** Each exception expired by `now` costs five points and adds one
      violation; nothing else changes. */
  lemma ReviewExceptionsEffect(r: Reviewer, es: seq<Exception>, now: int)
    requires forall k :: 0 <= k < |es| ==> es[k].expiry != Some(Unreadable)
    ensures var out := ReviewExceptions(r, Some(Exceptions(Some(es))), now);
      && out.Some?
      && out.value.score == r.score - 5 * CountExpired(es, now)
      && |out.value.violations| == |r.violations| + CountExpired(es, now)
      && out.value.violations[..|r.violations|] == r.violations
      && out.value.recommendations == r.recommendations
  {
    var ids := ExpiredIds(es, now).value;
    assert (r.violations + ExpiredMessages(ids))[..|r.violations|] == r.violations;
  }

  /** `review_status` in the evidence. */
  function ReviewStatus(score: int): (s: string)
    ensures s == "COMPLIANT" || s == "NON-COMPLIANT"
    ensures s == "COMPLIANT" <==> score >= 95
  {
    if score >= 95 then "COMPLIANT" else "NON-COMPLIANT"
  }

  /** What `main` does with a target. */
  datatype Kind = StructureReview | ExceptionsReview | UnknownTarget

  /** The review is chosen by the target's file name: `structure_policy`
      first, then `exceptions`. */
  function KindOf(target: string): (k: Kind)
    ensures var n := Paths.Name(target);
      && (k == StructureReview <==> Contains(n, "structure_policy"))
      && (k == ExceptionsReview <==> !Contains(n, "structure_policy") && Contains(n, "exceptions"))
      && (k == UnknownTarget <==> !Contains(n, "structure_policy") && !Contains(n, "exceptions"))
  {
    var n := Paths.Name(target);
    if Contains(n, "structure_policy") then StructureReview
    else if Contains(n, "exceptions") then ExceptionsReview
    else UnknownTarget
  }

  /** How a run ends: exit status 1 for an unknown target, an uncaught
      error, or the final reviewer state. */
  datatype Outcome = ExitOne | Raised | Reviewed(reviewer: Reviewer)

  /** `main`: one review of the target, from the starting state. The target
      file's parsed contents are given for either kind. */
  function Run(target: string, policy: Option<PolicyDoc>, exceptions: Option<ExceptionsDoc>, now: int): (o: Outcome)
    ensures o.ExitOne? <==> KindOf(target) == UnknownTarget
    ensures KindOf(target) == StructureReview && policy.None? ==> o == Reviewed(Start)
  {
    match KindOf(target)
    case UnknownTarget => ExitOne
    case StructureReview =>
      (match ReviewStructure(Start, policy)
       case None => Raised
       case Some(r) => Reviewed(r))
    case ExceptionsReview =>
      (match ReviewExceptions(Start, exceptions, now)
       case None => Raised
       case Some(r) => Reviewed(r))
  }

  /** The process exit status: 1 when `main` exits early or raises, 0 when
      the review completes, whatever it found. */
  function ExitStatus(o: Outcome): (s: int)
    ensures s == 1 <==> o.ExitOne? || o.Raised?
    ensures s == 0 <==> o.Reviewed?
  {
    if o.Reviewed? then 0 else 1
  }

  /** A run exits with status 1 exactly when the target is of unknown type
      or the date of the chosen review does not parse: the last review of a
      policy, or an expiry date of an exception. */
  lemma RunExitStatus(target: string, policy: Option<PolicyDoc>, exceptions: Option<ExceptionsDoc>, now: int)
    ensures ExitStatus(Run(target, policy, exceptions, now)) == 1 <==>
      || KindOf(target) == UnknownTarget
      || (KindOf(target) == StructureReview && policy.Some? && policy.value.Policy?
          && policy.value.lastReview == Some(Unreadable))
      || (KindOf(target) == ExceptionsReview && exceptions.Some? && exceptions.value.Exceptions?
          && var es := exceptions.value.exceptions.GetOr([]);
             exists k :: 0 <= k < |es| && es[k].expiry == Some(Unreadable))
  {
  }

  /** A run that completes on a well-formed exceptions file scores 100 less
      five per expired exception, and is compliant exactly when at most one
      exception has expired. */
  lemma ExceptionsRunVerdict(target: string, es: seq<Exception>, now: int)
    requires KindOf(target) == ExceptionsReview
    requires forall k :: 0 <= k < |es| ==> es[k].expiry != Some(Unreadable)
    ensures var o := Run(target, None, Some(Exceptions(Some(es))), now);
      && o.Reviewed?
      && o.reviewer.score == 100 - 5 * CountExpired(es, now)
      && (ReviewStatus(o.reviewer.score) == "COMPLIANT" <==> CountExpired(es, now) <= 1)
  {
    ReviewExceptionsEffect(Start, es, now);
  }
}

=== FILE: readme_badges.dfy ===
/** The README badge updater: the badge line it builds, and how it puts that
    line into a README, either replacing every marked badge block or, when
    there is none, inserting a marked block after the title. Reading and
    writing the files is not modelled; an absent README is `None`. */
module ReadmeBadges {
  import opened Wrappers
  import opened Text

  const Marker := "<!-- SSID-COMPLIANCE-BADGES -->"

  const StaticBadges: seq<string> := [
    "![SSID](https://img.shields.io/badge/SSID-OpenCore-blue)",
    "![Security](https://img.shields.io/badge/Security-Enhanced-green)",
    "![Structure](https://img.shields.io/badge/Structure-24--Module-orange)"]

  /** The badges `_create_badge_html` adds before the static ones: the
      compliance badge and then the score badge, each when given. */
  function OptionalBadges(compliance: Option<string>, score: Option<string>): (r: seq<string>)
    ensures |r| == (if compliance.Some? then 1 else 0) + (if score.Some? then 1 else 0)
    ensures compliance.Some? ==> r[0] == "![Compliance](" + compliance.value + ")"
    ensures score.Some? ==> r[|r| - 1] == "![Score](" + score.value + ")"
  {
    (if compliance.Some? then ["![Compliance](" + compliance.value + ")"] else [])
    + (if score.Some? then ["![Score](" + score.value + ")"] else [])
  }

  /** `_create_badge_html`: all the badges joined by single spaces. */
  function BadgeHtml(compliance: Option<string>, score: Option<string>): string {
    Join(OptionalBadges(compliance, score) + StaticBadges, " ")
  }

  /** The badge line is the optional badges, then one space, then the three
      static badges; with neither optional badge it is exactly the static
      badges. */
  lemma BadgeHtmlShape(compliance: Option<string>, score: Option<string>)
    ensures var opt := OptionalBadges(compliance, score);
      BadgeHtml(compliance, score)
      == (if opt == [] then "" else Join(opt, " ") + " ") + Join(StaticBadges, " ")
  {
    var opt := OptionalBadges(compliance, score);
    if opt == [] {
      assert opt + StaticBadges == StaticBadges;
    } else {
      JoinAppend(opt, StaticBadges, " ");
    }
  }

  /** The first block of `s`: where its first marker starts and where the
      next marker after that one ends. */
  function NextBlock(s: string, m: string): (r: Option<(nat, nat)>)
    requires m != []
    ensures r.Some? ==> IndexOf(s, m) == Some(r.value.0) && r.value.0 + 2 * |m| <= r.value.1 <= |s|
  {
    match IndexOf(s, m)
    case None => None
    case Some(i) =>
      match IndexFrom(s, m, i + |m|)
      case None => None
      case Some(j) => IndexFromFound(s, m, i + |m|); Some((i, j + |m|))
  }

  /** `re.sub(M + ".*?" + M, r, s, flags=re.DOTALL)` for a literal marker
      `M`: from left to right, each marker and the next marker after it,
      with what lies between, are replaced by `r`; a marker with no later
      marker is left as it is, as is all text outside the blocks. */
  function ReplaceBlocks(s: string, m: string, r: string): string
    requires m != []
    decreases |s|
  {
    match NextBlock(s, m)
    case None => s
    case Some((i, e)) => s[..i] + r + ReplaceBlocks(s[e..], m, r)
  }

  /** Without a `<` from `a` up to `q`, a marker starting with `<` at `q`
      is the next one from `a`. */
  lemma NextMarkerAt(s: string, m: string, a: nat, q: nat)
    requires m != [] && m[0] == '<'
    requires a <= q && OccursAt(s, m, q)
    requires forall p :: a <= p < q ==> s[p] != '<'
    ensures IndexFrom(s, m, a) == Some(q)
  {
    IndexFromIs(s, m, a, q);
  }

  /** A marker whose first character is its only `<`, placed after text
      that holds no marker, is the first marker: an earlier occurrence
      would lie in that text or overlap the `<` at `q`. */
  lemma FirstMarkerAt(s: string, m: string, q: nat)
    requires m != [] && m[0] == '<' && '<' !in m[1..]
    requires OccursAt(s, m, q)
    requires forall p :: !OccursAt(s[..q], m, p)
    ensures IndexOf(s, m) == Some(q)
  {
    forall p | 0 <= p < q ensures !OccursAt(s, m, p) {
      if p + |m| <= q {
        assert s[..q][p..p + |m|] == s[p..p + |m|];
        assert !OccursAt(s[..q], m, p);
      }
    }
    IndexOfIs(s, m, q);
  }

  /** Where the parts of a replaced block sit in `pre + (m + h + m) + t`. */
  lemma BlockLayout(pre: string, m: string, h: string, t: string)
    requires '<' !in h
    ensures var s := pre + (m + h + m) + t;
      && s[..|pre|] == pre
      && OccursAt(s, m, |pre|)
      && OccursAt(s, m, |pre| + |m| + |h|)
      && (forall p :: |pre| + |m| <= p < |pre| + |m| + |h| ==> s[p] != '<')
      && s[|pre| + |m| + |h| + |m|..] == t
  {
    var s := pre + (m + h + m) + t;
    forall p | |pre| + |m| <= p < |pre| + |m| + |h| ensures s[p] != '<' {
      assert s[p] == h[p - |pre| - |m|];
    }
  }

  /** The first block of `s` runs from the marker at `i` to the end of the
      marker at `j` when no marker comes before `i` and no `<` lies
      between the two. */
  lemma BlockAt(s: string, m: string, i: nat, j: nat)
    requires m != [] && m[0] == '<' && '<' !in m[1..]
    requires OccursAt(s, m, i) && forall p :: !OccursAt(s[..i], m, p)
    requires i + |m| <= j && OccursAt(s, m, j)
    requires forall p :: i + |m| <= p < j ==> s[p] != '<'
    ensures NextBlock(s, m) == Some((i, j + |m|))
  {
    FirstMarkerAt(s, m, i);
    NextMarkerAt(s, m, i + |m|, j);
  }

  /** A block put after marker-free text is the first block. */
  lemma BlockFound(pre: string, m: string, h: string, t: string)
    requires m != [] && m[0] == '<' && '<' !in m[1..]
    requires '<' !in h
    requires forall p :: !OccursAt(pre, m, p)
    ensures NextBlock(pre + (m + h + m) + t, m) == Some((|pre|, |pre| + |m| + |h| + |m|))
  {
    BlockLayout(pre, m, h, t);
    BlockAt(pre + (m + h + m) + t, m, |pre|, |pre| + |m| + |h|);
  }

  /** A second pass over a replaced block finds the same block again and
      moves on to what follows it. */
  lemma SecondPass(pre: string, m: string, h: string, t: string)
    requires m != [] && m[0] == '<' && '<' !in m[1..]
    requires '<' !in h
    requires forall p :: !OccursAt(pre, m, p)
    ensures ReplaceBlocks(pre + (m + h + m) + t, m, m + h + m) == pre + (m + h + m) + ReplaceBlocks(t, m, m + h + m)
  {
    BlockFound(pre, m, h, t);
    BlockLayout(pre, m, h, t);
  }

  /** The text before the first marker holds no marker. */
  lemma PrefixClear(s: string, m: string, i: nat)
    requires m != [] && IndexOf(s, m) == Some(i)
    ensures forall p :: !OccursAt(s[..i], m, p)
  {
    IndexOfFirst(s, m);
    forall p | OccursAt(s[..i], m, p) ensures OccursAt(s, m, p) {
      assert s[..i][p..p + |m|] == s[p..p + |m|];
    }
  }

  /** Replacing the blocks again with the same block changes nothing, as
      long as what goes between the markers holds no `<`. */
  lemma {:induction false} ReplaceIdempotent(s: string, m: string, h: string)
    requires m != [] && m[0] == '<' && '<' !in m[1..]
    requires '<' !in h
    ensures ReplaceBlocks(ReplaceBlocks(s, m, m + h + m), m, m + h + m) == ReplaceBlocks(s, m, m + h + m)
    decreases |s|
  {
    var r := m + h + m;
    match NextBlock(s, m)
    case None =>
    case Some((i, e)) =>
      ReplaceIdempotent(s[e..], m, h);
      PrefixClear(s, m, i);
      SecondPass(s[..i], m, h, ReplaceBlocks(s[e..], m, r));
  }

  /** The substitution leaves a README without the marker as it is, and
      keeps everything before the first marker. */
  lemma ReplaceKeepsOutside(s: string, m: string, r: string)
    requires m != []
    ensures IndexOf(s, m).None? ==> ReplaceBlocks(s, m, r) == s
    ensures IndexOf(s, m).Some? ==>
      var i := IndexOf(s, m).value;
      i <= |ReplaceBlocks(s, m, r)| && ReplaceBlocks(s, m, r)[..i] == s[..i]
  {
    match NextBlock(s, m)
    case None =>
      assert ReplaceBlocks(s, m, r) == s;
    case Some((i, e)) =>
      var u := ReplaceBlocks(s, m, r);
      assert u == s[..i] + r + ReplaceBlocks(s[e..], m, r);
      assert u[..i] == s[..i];
  }

  /** A README that has the marker still has it after the replacement. */
  lemma ReplaceKeepsMarker(s: string, m: string, r: string)
    requires m != [] && StartsWith(r, m)
    requires IndexOf(s, m).Some?
    ensures IndexOf(ReplaceBlocks(s, m, r), m).Some?
  {
    match NextBlock(s, m)
    case None =>
      assert ReplaceBlocks(s, m, r) == s;
    case Some((i, e)) =>
      var u := ReplaceBlocks(s, m, r);
      assert u == s[..i] + r + ReplaceBlocks(s[e..], m, r);
      assert u[i..i + |m|] == r[..|m|];
      ContainsIndexOf(u, m);
      assert OccursAt(u, m, i);
  }

  /** The title line: one starting with `#` but not with `##`. */
  predicate IsTitle(line: string) {
    StartsWith(line, "#") && !StartsWith(line, "##")
  }

  /** Where the badge block goes: just after the first title line, or at
      the very top when there is none. */
  function InsertAt(lines: seq<string>): (k: nat)
    ensures k <= |lines|
    ensures k > 0 ==> IsTitle(lines[k - 1]) && forall p :: 0 <= p < k - 1 ==> !IsTitle(lines[p])
    ensures k == 0 ==> forall p :: 0 <= p < |lines| ==> !IsTitle(lines[p])
  {
    if lines == [] then 0
    else if IsTitle(lines[0]) then 1
    else
      var k := InsertAt(lines[1..]);
      assert forall p :: 0 < p < |lines| ==> lines[p] == lines[1..][p - 1];
      if k == 0 then 0 else k + 1
  }

  /** The five lines of a new badge block. */
  function Section(line: string): seq<string> {
    ["", Marker, line, Marker, ""]
  }

  /** The README with the block spliced in among its lines. */
  function InsertSection(content: string, html: string): string {
    var lines := Split(content, '\n');
    var k := InsertAt(lines);
    Join(lines[..k] + Section(Strip(html)) + lines[k..], "\n")
  }

  /** Insertion is a splice: read back line by line, the README is its old
      lines with the five block lines inserted at the chosen place. */
  lemma InsertIsSplice(content: string, html: string)
    requires '\n' !in html
    ensures var lines := Split(content, '\n');
      var k := InsertAt(lines);
      Split(InsertSection(content, html), '\n') == lines[..k] + Section(Strip(html)) + lines[k..]
  {
    var lines := Split(content, '\n');
    var k := InsertAt(lines);
    StripKeepsOut(html, '\n');
    SectionOneLine(Strip(html));
    SpliceOneLine(lines, k, Section(Strip(html)));
    SplitJoin(lines[..k] + Section(Strip(html)) + lines[k..], '\n');
  }

  lemma SpliceOneLine(lines: seq<string>, k: nat, sec: seq<string>)
    requires k <= |lines|
    requires forall q :: 0 <= q < |lines| ==> '\n' !in lines[q]
    requires forall q :: 0 <= q < |sec| ==> '\n' !in sec[q]
    ensures forall q :: 0 <= q < |lines[..k] + sec + lines[k..]| ==> '\n' !in (lines[..k] + sec + lines[k..])[q]
  {
    var all := lines[..k] + sec + lines[k..];
    forall q | 0 <= q < |all| ensures '\n' !in all[q] {
      if q < k {
        assert all[q] == lines[q];
      } else if q < k + |sec| {
        assert all[q] == sec[q - k];
      } else {
        assert all[q] == lines[q - |sec|];
      }
    }
  }

  lemma SectionOneLine(line: string)
    requires '\n' !in line
    ensures forall q :: 0 <= q < |Section(line)| ==> '\n' !in Section(line)[q]
  {
    MarkerOneLine();
  }

  /** `strip()` keeps a slice of its input, so it adds no character. */
  lemma StripKeepsOut(s: string, c: char)
    requires c !in s
    ensures c !in Strip(s)
  {
    StripShape(s);
    var st := Strip(s);
    var i := |s| - |TrimStart(s)|;
    assert forall q :: 0 <= q < |st| ==> st[q] == s[i + q];
  }

  lemma MarkerOneLine()
    ensures '\n' !in Marker
  {
  }

  /** The marker starts with its only `<`. */
  lemma MarkerShape()
    ensures Marker != [] && Marker[0] == '<' && '<' !in Marker[1..]
  {
  }

  /** `update_readme_badges` on the README's text, or `None` for a README
      that does not exist. */
  function Update(content: Option<string>, compliance: Option<string>, score: Option<string>): (r: Option<string>)
    ensures r.None? <==> content.None?
  {
    match content
    case None => None
    case Some(c) =>
      var html := BadgeHtml(compliance, score);
      if Contains(c, Marker) then Some(ReplaceBlocks(c, Marker, Marker + "\n" + html + "\n" + Marker))
      else Some(InsertSection(c, html))
  }

  /** Updating a README that already has the badge block a second time
      with the same badges leaves it as the first update left it. */
  lemma UpdateIdempotent(c: string, compliance: Option<string>, score: Option<string>)
    requires Contains(c, Marker)
    requires '<' !in BadgeHtml(compliance, score)
    ensures Update(Update(Some(c), compliance, score), compliance, score) == Update(Some(c), compliance, score)
  {
    var html := BadgeHtml(compliance, score);
    var h := "\n" + html + "\n";
    assert Marker + "\n" + html + "\n" + Marker == Marker + h + Marker;
    MarkerShape();
    assert '<' !in h;
    ReplaceIdempotent(c, Marker, h);
    ContainsIndexOf(c, Marker);
    ReplaceKeepsMarker(c, Marker, Marker + h + Marker);
    ContainsIndexOf(ReplaceBlocks(c, Marker, Marker + h + Marker), Marker);
  }
}

=== FILE: review_checker.dfy ===
/** The review-status checker: it grades the next internal and the next
    external review date against its own thresholds, reports whether the
    reviews are current, appends reviews to the log, and blocks a run only
    when asked to. */
module ReviewChecker {
  import opened Wrappers
  import opened Text
  import opened ReviewLog

  datatype Status = Status(current: bool, warnings: seq<string>, errors: seq<string>, nextActions: seq<string>)

  const Fresh := Status(true, [], [], [])

  /** How far a scheduled date is from now, against the two thresholds of one
      review kind. */
  datatype Grade = Overdue | Late | Upcoming | Clear

  /** The thresholds of one review kind (with its name as it starts and
      inside a message): overdue by more than `grace` days is
      an error, due within `notice` days is an upcoming action. */
  datatype Policy = Policy(name: string, noun: string, grace: nat, notice: nat)

  const InternalPolicy := Policy("Internal", "internal", 30, 14)
  const ExternalPolicy := Policy("External", "external", 60, 30)

  function GradeOf(days: int, p: Policy): (g: Grade)
    ensures g == Overdue <==> days < -(p.grace as int)
    ensures g == Late <==> -(p.grace as int) <= days < 0
    ensures g == Upcoming <==> 0 <= days < p.notice
    ensures g == Clear <==> days >= 0 && days >= p.notice
  {
    if days < -(p.grace as int) then Overdue
    else if days < 0 then Late
    else if days < p.notice then Upcoming
    else Clear
  }

  function Rank(g: Grade): nat {
    match g
    case Overdue => 0
    case Late => 1
    case Upcoming => 2
    case Clear => 3
  }

  /** A later date never earns a worse grade. */
  lemma GradeMonotone(d1: int, d2: int, p: Policy)
    requires d1 <= d2
    ensures Rank(GradeOf(d1, p)) <= Rank(GradeOf(d2, p))
  {
  }

  function Abs(n: int): nat {
    if n < 0 then -n else n
  }

  /** What one date field adds to the status; `None` when `strptime` raises
      a `TypeError` on a non-string value, which nothing catches. */
  function CheckDate(st: Status, v: Value, cal: Calendar, p: Policy): (r: Option<Status>)
    ensures r.None? <==> v.Opaque?
    ensures r.Some? && v.s !in cal ==>
      r.value == st.(errors := st.errors + ["Invalid " + p.noun + " review date: " + v.s])
    ensures r.Some? && v.s in cal ==>
      var days := cal[v.s].until;
      && r.value.current == (st.current && GradeOf(days, p) != Overdue)
      && |r.value.errors| + |r.value.warnings| + |r.value.nextActions|
         == |st.errors| + |st.warnings| + |st.nextActions| + (if GradeOf(days, p) == Clear then 0 else 1)
  {
    match v
    case Opaque => None
    case Str(d) =>
      if d !in cal then Some(st.(errors := st.errors + ["Invalid " + p.noun + " review date: " + d]))
      else
        var days := cal[d].until;
        var overdue := p.name + " review overdue by " + NatToString(Abs(days)) + " days";
        match GradeOf(days, p)
        case Overdue => Some(st.(errors := st.errors + [overdue], current := false))
        case Late => Some(st.(warnings := st.warnings + [overdue]))
        case Upcoming => Some(st.(nextActions := st.nextActions + [p.name + " review due in " + IntToString(days) + " days"]))
        case Clear => Some(st)
  }

  /** `check_review_currency` on a usable log: the internal date, then the
      external one. */
  function Currency(log: Log, cal: Calendar): Option<Status> {
    if "review_schedule" !in log.keys then Some(Fresh)
    else
      var s := log.schedule;
      var afterInternal :=
        if "next_internal" in s then CheckDate(Fresh, s["next_internal"], cal, InternalPolicy) else Some(Fresh);
      match afterInternal
      case None => None
      case Some(st) =>
        if "next_external" in s then CheckDate(st, s["next_external"], cal, ExternalPolicy) else Some(st)
  }

  /** A date is recorded and readable, and overdue beyond its grace period. */
  predicate OverdueAt(log: Log, key: string, cal: Calendar, p: Policy) {
    key in log.schedule && log.schedule[key].Str? && log.schedule[key].s in cal
    && cal[log.schedule[key].s].until < -(p.grace as int)
  }

  /** The reviews stop being current exactly when a readable date is overdue
      beyond its grace period: 30 days for internal, 60 for external
      reviews. An unreadable date is an error that leaves `current` alone. */
  lemma CurrentIff(log: Log, cal: Calendar)
    requires Currency(log, cal).Some?
    ensures !Currency(log, cal).value.current
        <==> "review_schedule" in log.keys
             && (OverdueAt(log, "next_internal", cal, InternalPolicy)
                 || OverdueAt(log, "next_external", cal, ExternalPolicy))
  {
  }

  /** Without a schedule, or with neither date in it, all is current and
      nothing is reported. */
  lemma NoScheduleIsCurrent(log: Log, cal: Calendar)
    requires "review_schedule" !in log.keys
          || ("next_internal" !in log.schedule && "next_external" !in log.schedule)
    ensures Currency(log, cal) == Some(Fresh)
  {
  }

  /** `generate_status_report`'s verdict: `None` when it raised. */
  function StatusOk(log: Option<Log>, cal: Calendar): Option<bool> {
    if !Usable(log) then Some(false)
    else
      match Currency(log.value, cal)
      case None => None
      case Some(st) => Some(st.current)
  }

  /** `update_review_log`: refreshes the automated-check time when asked,
      appends the review when one is given (an empty object is falsy), and
      stamps `last_updated`. */
  function UpdateLog(log: Option<Log>, review: Object, automated: bool, nowIso: string): Update {
    if !Usable(log) then Refused
    else
      var l := log.value;
      if automated && "ci_integration" !in l.keys then KeyMissing("ci_integration")
      else if review != map[] && "review_history" !in l.keys then KeyMissing("review_history")
      else
        var ci := if automated then l.ci["last_automated_check" := Str(nowIso)] else l.ci;
        var history := if review != map[] then l.history + [review] else l.history;
        Saved(Touch(l.(ci := ci, history := history), nowIso))
  }

  /** A given review lands at the end of the history; the earlier entries
      and the schedule are untouched. */
  lemma UpdateAppends(log: Option<Log>, review: Object, automated: bool, nowIso: string)
    requires UpdateLog(log, review, automated, nowIso).Saved?
    ensures var r := UpdateLog(log, review, automated, nowIso).log;
      && |r.history| == |log.value.history| + (if review == map[] then 0 else 1)
      && r.history[..|log.value.history|] == log.value.history
      && (review != map[] ==> r.history[|r.history| - 1] == review)
      && r.schedule == log.value.schedule
      && r.lastUpdated == Str(nowIso)
  {
    var l := log.value;
    if review != map[] {
      assert (l.history + [review])[..|l.history|] == l.history;
    }
  }

  /** What `run_check` ends with: an exception that escaped it, or its
      verdict together with what its `update_review_log(automated=True)`
      call did to the log. */
  datatype CheckRun = Raised | Finished(pass: bool, update: Update)

  /** `run_check`: the status report first, then the automated-check
      stamp, which is attempted whatever the status; the run fails when the
      status is not current and it was asked to block on overdue reviews. */
  function RunCheck(log: Option<Log>, cal: Calendar, block: bool, nowIso: string): (r: CheckRun)
    ensures r.Raised? <==>
      StatusOk(log, cal).None? || UpdateLog(log, map[], true, nowIso) == KeyMissing("ci_integration")
    ensures r.Finished? ==> (!r.pass <==> StatusOk(log, cal) == Some(false) && block)
    ensures r.Finished? ==> (r.update.Saved? <==> Usable(log)) && (r.update.Refused? <==> !Usable(log))
    ensures r.Finished? && r.update.Saved? ==>
      && Get(r.update.log.ci, "last_automated_check") == Some(Str(nowIso))
      && r.update.log.history == log.value.history
      && r.update.log.schedule == log.value.schedule
  {
    match StatusOk(log, cal)
    case None => Raised
    case Some(ok) =>
      var u := UpdateLog(log, map[], true, nowIso);
      if u.KeyMissing? then Raised
      else Finished(!(!ok && block), u)
  }

  /** `main`'s exit status: 1 for a failed run or an escaped exception. */
  function ExitStatus(r: CheckRun): int {
    if r.Finished? && r.pass then 0 else 1
  }

  /** On a usable log with a readable schedule and CI settings, the run
      blocks exactly when it was asked to and a readable date is overdue
      beyond its grace period. */
  lemma RunCheckBlocksIff(log: Log, cal: Calendar, block: bool, nowIso: string)
    requires log.keys != {} && "ci_integration" in log.keys && Currency(log, cal).Some?
    ensures RunCheck(Some(log), cal, block, nowIso).Finished?
    ensures ExitStatus(RunCheck(Some(log), cal, block, nowIso)) == 1 <==>
      block && "review_schedule" in log.keys
      && (OverdueAt(log, "next_internal", cal, InternalPolicy) || OverdueAt(log, "next_external", cal, ExternalPolicy))
  {
    CurrentIff(log, cal);
  }

  /** A usable log without `ci_integration` makes the automated stamp raise
      `KeyError`, so the run exits with 1 even when it was not asked to
      block and every review is current. */
  lemma MissingCiFails(log: Log, cal: Calendar, block: bool, nowIso: string)
    requires log.keys != {} && "ci_integration" !in log.keys
    ensures RunCheck(Some(log), cal, block, nowIso) == Raised
    ensures ExitStatus(RunCheck(Some(log), cal, block, nowIso)) == 1
  {
  }

  /** An unusable log is reported as not current and is not written; the
      run fails exactly when it was asked to block. */
  lemma UnusableLogRun(log: Option<Log>, cal: Calendar, block: bool, nowIso: string)
    requires !Usable(log)
    ensures RunCheck(log, cal, block, nowIso) == Finished(!block, Refused)
  {
  }

  const SetupReview: Object := map[
    "review_id" := Str("2025-09-18-framework-setup"),
    "date" := Str("2025-09-18"),
    "type" := Str("internal"),
    "reviewer" := Opaque,
    "status" := Str("FRAMEWORK_READY"),
    "matrix_version" := Str("1.0"),
    "badge_logic_version" := Str("1.0"),
    "findings" := Opaque,
    "score" := Str("Framework Ready"),
    "next_review" := Str("2025-12-18"),
    "report_path" := Str("23_compliance/reviews/framework_setup_2025-09-18.md"),
    "dependencies_validated" := Opaque,
    "circular_dependencies_found" := Opaque,
    "badge_integrity_validated" := Opaque,
    "compliance_matrix_accuracy" := Str("Framework Ready")]

  const FirstInternal := "2025-12-18"
  const FirstExternal := "2026-03-18"

  /** `create_initial_review_log`: one framework-setup review and a fixed
      first schedule. */
  function InitialLog(nowIso: string): Log {
    Log(
      {"review_system_version", "last_updated", "review_history", "review_schedule", "ci_integration"},
      [SetupReview],
      map["next_internal" := Str(FirstInternal), "next_external" := Str(FirstExternal),
          "overdue_reviews" := Opaque, "scheduled_reviews" := Opaque],
      map["pr_checks_enabled" := Opaque, "review_status_check" := Str("required"),
          "overdue_review_blocking" := Opaque, "last_automated_check" := Str(nowIso)],
      Str(nowIso))
  }

  /** The initial log holds exactly one review, and is current with nothing
      to report while both first dates are far enough ahead. */
  lemma InitialLogShape(nowIso: string, cal: Calendar)
    ensures var log := InitialLog(nowIso);
      && |log.history| == 1 && log.history[0]["type"] == Str("internal")
      && log.schedule["next_internal"] == Str("2025-12-18")
      && log.schedule["next_external"] == Str("2026-03-18")
    ensures FirstInternal in cal && FirstExternal in cal
            && cal[FirstInternal].until >= 14 && cal[FirstExternal].until >= 30
            ==> Currency(InitialLog(nowIso), cal) == Some(Fresh)
  {
  }
}

=== FILE: review_gate.dfy ===
/** The CI review-status gate: it blocks when a scheduled review is more
    than 60 days overdue or a date cannot be read, warns about smaller
    delays and a stale or empty history, and is skipped unless the log
    marks the review-status check as required. */
module ReviewGate {
  import opened Wrappers
  import opened Text
  import opened ReviewLog

  const BlockingDays := 60
  const WarningDays := 30
  const StaleDays := 365

  function Error(text: string): string {
    "ERROR: " + text
  }

  function Warning(text: string): string {
    "WARNING: " + text
  }

  /** Error issues carry the blocking prefix and warnings do not. */
  lemma IssuePrefixes(text: string)
    ensures StartsWith(Error(text), "ERROR:")
    ensures !StartsWith(Warning(text), "ERROR:")
  {
    assert Error(text)[..6] == "ERROR:";
    assert Warning(text)[0] == 'W';
  }

  function Abs(n: int): nat {
    if n < 0 then -n else n
  }

  /** `any(issue.startswith("ERROR:") for issue in issues)`. */
  function AnyError(issues: seq<string>): (b: bool)
    ensures b <==> exists k :: 0 <= k < |issues| && StartsWith(issues[k], "ERROR:")
  {
    if issues == [] then false
    else
      var rest := AnyError(issues[1..]);
      assert forall k :: 0 < k < |issues| ==> issues[k] == issues[1..][k - 1];
      StartsWith(issues[0], "ERROR:") || rest
  }

  /** One stage of the check: either the gate returns `False` at once, or it
      goes on with these issues added. */
  datatype Step = Stop | Go(issues: seq<string>)

  /** A date field the gate reads: a non-string value makes `strptime` raise
      a `TypeError` nobody catches, which fails the run like `Stop`. The
      schedule is named `which` at the head of the overdue messages and
      `noun`, in lower case, inside the invalid-date message. */
  function ScheduleStep(v: Value, cal: Calendar, which: string, noun: string, warnBand: bool): (s: Step)
    ensures s.Stop? <==> v.Opaque? || (v.s in cal && cal[v.s].until < -BlockingDays)
    ensures s.Go? && v.Str? && v.s !in cal ==> |s.issues| == 1 && StartsWith(s.issues[0], "ERROR:")
    ensures s.Go? && v.Str? && v.s !in cal ==> s.issues == [Error("Invalid " + noun + " review date format: " + v.s)]
    ensures s.Go? && v.Str? && v.s in cal ==> |s.issues| <= 1 && !AnyError(s.issues)
    ensures s.Go? && v.Str? && v.s in cal ==> (s.issues == [] <==> cal[v.s].until >= 0)
  {
    match v
    case Opaque => Stop
    case Str(d) =>
      if d !in cal then
        IssuePrefixes("Invalid " + noun + " review date format: " + d);
        Go([Error("Invalid " + noun + " review date format: " + d)])
      else
        var n := cal[d].until;
        var text := which + " review overdue by " + NatToString(Abs(n)) + " days";
        IssuePrefixes(text);
        IssuePrefixes(text + " (warning)");
        if n < -BlockingDays then Stop
        else if warnBand && n < -WarningDays then Go([Warning(text + " (warning)")])
        else if n < 0 then Go([Warning(text)])
        else Go([])
  }

  /** The external schedule: the only one with a separate 30-day warning band. */
  function ExternalStep(log: Log, cal: Calendar): Step {
    if "review_schedule" in log.keys && "next_external" in log.schedule
    then ScheduleStep(log.schedule["next_external"], cal, "External", "external", true)
    else Go([])
  }

  function InternalStep(log: Log, cal: Calendar): Step {
    if "review_schedule" in log.keys && "next_internal" in log.schedule
    then ScheduleStep(log.schedule["next_internal"], cal, "Internal", "internal", false)
    else Go([])
  }

  /** The history check looks at the last review only. */
  function HistoryStep(log: Log, cal: Calendar): (s: Step)
    ensures ("review_history" !in log.keys || log.history == []) ==> s == Go([Warning("No review history found")])
    ensures s.Go? ==> |s.issues| <= 1
    ensures s.Go? && AnyError(s.issues) <==>
      "review_history" in log.keys && log.history != [] && Unreadable(log.history[|log.history| - 1], "date", cal)
  {
    if "review_history" in log.keys && log.history != [] then
      var last := log.history[|log.history| - 1];
      if "date" in last then
        match last["date"]
        case Opaque => Stop
        case Str(d) =>
          if d !in cal then
            IssuePrefixes("Invalid last review date format: " + d);
            Go([Error("Invalid last review date format: " + d)])
          else
            var text := "Last review was " + IntToString(cal[d].since) + " days ago (consider scheduling)";
            IssuePrefixes(text);
            if cal[d].since > StaleDays then Go([Warning(text)]) else Go([])
      else Go([])
    else
      IssuePrefixes("No review history found");
      Go([Warning("No review history found")])
  }

  /** The issues `check_review_status` collects, external schedule first, or
      `None` when it returned early. */
  function GateIssues(log: Log, cal: Calendar): Option<seq<string>> {
    var ext := ExternalStep(log, cal);
    if ext.Stop? then None
    else
      var intl := InternalStep(log, cal);
      if intl.Stop? then None
      else
        var hist := HistoryStep(log, cal);
        if hist.Stop? then None
        else Some(ext.issues + intl.issues + hist.issues)
  }

  /** `check_review_status`. */
  function CheckStatus(log: Option<Log>, cal: Calendar): bool {
    Usable(log)
    && match GateIssues(log.value, cal)
       case None => false
       case Some(issues) => !AnyError(issues)
  }

  /** The log asks for the review-status check. */
  predicate Required(log: Log) {
    "ci_integration" in log.keys && Get(log.ci, "review_status_check") == Some(Str("required"))
  }

  /** `run_gate_check`: a usable log that does not require the check passes
      without it. */
  function RunGate(log: Option<Log>, cal: Calendar): (ok: bool)
    ensures Usable(log) && !Required(log.value) ==> ok
    ensures !(Usable(log) && !Required(log.value)) ==> ok == CheckStatus(log, cal)
  {
    if Usable(log) && !Required(log.value) then true else CheckStatus(log, cal)
  }

  /** An external review more than 60 days overdue fails the gate whatever
      the internal schedule and the history hold. */
  lemma ExternalBlocks(log: Log, cal: Calendar, internal: Value, history: seq<Object>)
    requires "review_schedule" in log.keys && Get(log.schedule, "next_external").Some?
    requires log.schedule["next_external"].Str? && log.schedule["next_external"].s in cal
    requires cal[log.schedule["next_external"].s].until < -BlockingDays
    ensures GateIssues(log, cal).None?
    ensures GateIssues(log.(schedule := log.schedule["next_internal" := internal], history := history), cal).None?
    ensures !CheckStatus(Some(log), cal)
  {
  }

  /** So does an internal review more than 60 days overdue. */
  lemma InternalBlocks(log: Log, cal: Calendar)
    requires "review_schedule" in log.keys && Get(log.schedule, "next_internal").Some?
    requires log.schedule["next_internal"].Str? && log.schedule["next_internal"].s in cal
    requires cal[log.schedule["next_internal"].s].until < -BlockingDays
    ensures !CheckStatus(Some(log), cal)
  {
  }

  /** The value under `key` is a string `strptime` rejects. */
  predicate Unreadable(obj: Object, key: string, cal: Calendar) {
    key in obj && obj[key].Str? && obj[key].s !in cal
  }

  /** An unreadable schedule date or last-review date fails the gate. */
  lemma UnreadableDateFails(log: Log, cal: Calendar)
    requires log.keys != {}
    requires || ("review_schedule" in log.keys
                 && (Unreadable(log.schedule, "next_external", cal) || Unreadable(log.schedule, "next_internal", cal)))
             || ("review_history" in log.keys && log.history != []
                 && Unreadable(log.history[|log.history| - 1], "date", cal))
    ensures !CheckStatus(Some(log), cal)
  {
    match GateIssues(log, cal)
    case None =>
    case Some(issues) =>
      var ext := ExternalStep(log, cal);
      var intl := InternalStep(log, cal);
      var hist := HistoryStep(log, cal);
      assert issues == ext.issues + intl.issues + hist.issues;
      if "review_schedule" in log.keys && Unreadable(log.schedule, "next_external", cal) {
        assert issues[0] == ext.issues[0];
      } else if "review_schedule" in log.keys && Unreadable(log.schedule, "next_internal", cal) {
        assert issues[|ext.issues|] == intl.issues[0];
      } else {
        IssuePrefixes("Invalid last review date format: " + log.history[|log.history| - 1]["date"].s);
        assert issues[|ext.issues| + |intl.issues|] == hist.issues[0];
      }
  }

  /** With no issues at all the gate passes. */
  lemma NoIssuesPasses(log: Log, cal: Calendar)
    requires log.keys != {} && GateIssues(log, cal) == Some([])
    ensures CheckStatus(Some(log), cal)
  {
  }

  /** A log whose schedule and history only give rise to warnings passes. */
  lemma WarningsPass(log: Log, cal: Calendar)
    requires log.keys != {}
    requires GateIssues(log, cal).Some?
    requires forall k :: 0 <= k < |GateIssues(log, cal).value| ==> !StartsWith(GateIssues(log, cal).value[k], "ERROR:")
    ensures CheckStatus(Some(log), cal)
  {
  }

  /** A freshly created default log passes the gate while its two scheduled
      dates lie ahead, with only the empty-history warning. */
  lemma DefaultLogPasses(nowIso: string, in90: string, in180: string, cal: Calendar)
    requires in90 in cal && in180 in cal && cal[in90].until >= 0 && cal[in180].until >= 0
    ensures GateIssues(DefaultLog(nowIso, in90, in180), cal) == Some([Warning("No review history found")])
    ensures RunGate(Some(DefaultLog(nowIso, in90, in180)), cal)
  {
    var log := DefaultLog(nowIso, in90, in180);
    assert log.schedule["next_external"] == Str(in180);
    assert log.schedule["next_internal"] == Str(in90);
    assert ExternalStep(log, cal) == Go([]);
    assert InternalStep(log, cal) == Go([]);
    assert [] + [] + [Warning("No review history found")] == [Warning("No review history found")];
    IssuePrefixes("No review history found");
  }
}

=== FILE: review_log.dfy ===
/** The machine-readable review log (`review_log.json`) that the review
    scripts share, as a parsed JSON document, and the calendar the scripts
    consult through `datetime`.

    A JSON object is a map from key to value; only string values are looked
    into, every other JSON value is opaque. The clock is not modelled: a
    `Calendar` says, for each date string `strptime(.., "%Y-%m-%d")`
    accepts, how many whole days lie from now until that date and from that
    date until now (`timedelta.days`, which floors, so the two need not be
    opposites). A string the calendar does not know is one `strptime`
    rejects. */
module ReviewLog {
  import opened Wrappers

  datatype Value = Str(s: string) | Opaque

  /** A JSON object. */
  type Object = map<string, Value>

  /** The review log's top level. `keys` are the keys present in the
      document; each other field holds the value under its key and means
      nothing when the key is absent. */
  datatype Log = Log(
    keys: set<string>,
    history: seq<Object>,
    schedule: Object,
    ci: Object,
    lastUpdated: Value)

  datatype Offsets = Offsets(until: int, since: int)

  type Calendar = map<string, Offsets>

  /** An empty JSON object is falsy: `if not review_log` rejects it as it
      rejects a log that failed to load. */
  predicate Usable(log: Option<Log>) {
    log.Some? && log.value.keys != {}
  }

  /** `obj.get(key)`. */
  function Get(obj: Object, key: string): Option<Value> {
    if key in obj then Some(obj[key]) else None
  }

  /** A string option is truthy when present and non-empty. */
  predicate Truthy(s: Option<string>) {
    s.Some? && s.value != ""
  }

  /** What a log-updating operation did: saved a new log, refused (the log is
      unusable or the input invalid; it returns `False`), or stopped with a
      `KeyError` on a top-level key it indexes without checking. */
  datatype Update = Saved(log: Log) | Refused | KeyMissing(key: string)

  /** The ISO timestamp of "now" goes into a string field. */
  function Touch(log: Log, nowIso: string): (r: Log)
    ensures r.keys == log.keys + {"last_updated"} && r.lastUpdated == Str(nowIso)
    ensures r.history == log.history && r.schedule == log.schedule && r.ci == log.ci
  {
    log.(keys := log.keys + {"last_updated"}, lastUpdated := Str(nowIso))
  }

  /** The log both the CI gate and the log updater create when there is no
      file yet: empty history, the next internal review 90 days and the next
      external review 180 days from now (given here as the formatted dates),
      and the review-status check required. */
  function DefaultLog(nowIso: string, in90: string, in180: string): (log: Log)
    ensures log.keys == {"review_system_version", "last_updated", "review_history", "review_schedule", "ci_integration"}
    ensures log.history == []
    ensures Get(log.schedule, "next_internal") == Some(Str(in90))
    ensures Get(log.schedule, "next_external") == Some(Str(in180))
    ensures Get(log.ci, "review_status_check") == Some(Str("required"))
  {
    Log(
      {"review_system_version", "last_updated", "review_history", "review_schedule", "ci_integration"},
      [],
      map["next_internal" := Str(in90), "next_external" := Str(in180),
          "overdue_reviews" := Opaque, "scheduled_reviews" := Opaque],
      map["pr_checks_enabled" := Opaque, "review_status_check" := Str("required"),
          "overdue_review_blocking" := Opaque, "last_automated_check" := Str(nowIso)],
      Str(nowIso))
  }
}

=== FILE: review_log_updater.dfy ===
/** The review-log updater: it appends validated review entries, moves the
    schedule dates, stamps automated checks, marks a review complete and
    routes the next date by the review's type, and counts reviews by type. */
module ReviewLogUpdater {
  import opened Wrappers
  import opened ReviewLog

  const RequiredFields: seq<string> := ["review_id", "date", "type", "reviewer", "status"]

  predicate HasRequiredFields(review: Object) {
    forall k :: 0 <= k < |RequiredFields| ==> RequiredFields[k] in review
  }

  /** `add_review_entry`. */
  function AddEntry(log: Option<Log>, review: Object, nowIso: string): Update {
    if !Usable(log) || !HasRequiredFields(review) then Refused
    else if "review_history" !in log.value.keys then KeyMissing("review_history")
    else Saved(Touch(log.value.(history := log.value.history + [review]), nowIso))
  }

  /** An entry missing a required field is refused and nothing is written;
      an accepted entry becomes the last of a history one longer, with the
      earlier entries kept. */
  lemma AddEntryEffect(log: Option<Log>, review: Object, nowIso: string)
    ensures (exists k :: 0 <= k < |RequiredFields| && RequiredFields[k] !in review)
            ==> AddEntry(log, review, nowIso) == Refused
    ensures AddEntry(log, review, nowIso).Saved? ==>
      var r := AddEntry(log, review, nowIso).log;
      && |r.history| == |log.value.history| + 1
      && r.history[..|log.value.history|] == log.value.history
      && r.history[|log.value.history|] == review
      && r.schedule == log.value.schedule
  {
    if AddEntry(log, review, nowIso).Saved? {
      assert (log.value.history + [review])[..|log.value.history|] == log.value.history;
    }
  }

  /** `update_schedule`: each date given as a non-empty string replaces its
      entry; the schedule is indexed only when there is something to set. */
  function UpdateSchedule(log: Option<Log>, internal: Option<string>, external: Option<string>, nowIso: string): Update {
    if !Usable(log) then Refused
    else
      var l := log.value;
      if (Truthy(internal) || Truthy(external)) && "review_schedule" !in l.keys then KeyMissing("review_schedule")
      else
        var s1 := if Truthy(internal) then l.schedule["next_internal" := Str(internal.value)] else l.schedule;
        var s2 := if Truthy(external) then s1["next_external" := Str(external.value)] else s1;
        Saved(Touch(l.(schedule := s2), nowIso))
  }

  /** Only the dates passed as non-empty strings change; every other
      schedule entry keeps its value. */
  lemma UpdateScheduleEffect(log: Option<Log>, internal: Option<string>, external: Option<string>, nowIso: string)
    requires UpdateSchedule(log, internal, external, nowIso).Saved?
    ensures var old_ := log.value.schedule;
      var s := UpdateSchedule(log, internal, external, nowIso).log.schedule;
      && (Truthy(internal) ==> Get(s, "next_internal") == Some(Str(internal.value)))
      && (!Truthy(internal) ==> Get(s, "next_internal") == Get(old_, "next_internal"))
      && (Truthy(external) ==> Get(s, "next_external") == Some(Str(external.value)))
      && (!Truthy(external) ==> Get(s, "next_external") == Get(old_, "next_external"))
      && forall k :: k != "next_internal" && k != "next_external" ==> Get(s, k) == Get(old_, k)
  {
  }

  /** `update_automated_check`: the automated-check time always, the PR and
      CI check times only in those contexts. */
  function UpdateAutomatedCheck(log: Option<Log>, pr: bool, ci: bool, nowIso: string): Update {
    if !Usable(log) then Refused
    else if "ci_integration" !in log.value.keys then KeyMissing("ci_integration")
    else
      var c0 := log.value.ci["last_automated_check" := Str(nowIso)];
      var c1 := if pr then c0["last_pr_check" := Str(nowIso)] else c0;
      var c2 := if ci then c1["last_ci_check" := Str(nowIso)] else c1;
      Saved(Touch(log.value.(ci := c2), nowIso))
  }

  lemma AutomatedCheckEffect(log: Option<Log>, pr: bool, ci: bool, nowIso: string)
    requires UpdateAutomatedCheck(log, pr, ci, nowIso).Saved?
    ensures var old_ := log.value.ci;
      var c := UpdateAutomatedCheck(log, pr, ci, nowIso).log.ci;
      && Get(c, "last_automated_check") == Some(Str(nowIso))
      && Get(c, "last_pr_check") == (if pr then Some(Str(nowIso)) else Get(old_, "last_pr_check"))
      && Get(c, "last_ci_check") == (if ci then Some(Str(nowIso)) else Get(old_, "last_ci_check"))
  {
  }

  predicate IdIs(review: Object, id: string) {
    Get(review, "review_id") == Some(Str(id))
  }

  /** The position of the first review with this id. */
  function FirstMatch(history: seq<Object>, id: string): (r: Option<nat>)
    ensures r.Some? ==> r.value < |history| && IdIs(history[r.value], id)
    ensures r.Some? ==> forall j :: 0 <= j < r.value ==> !IdIs(history[j], id)
    ensures r.None? ==> forall j :: 0 <= j < |history| ==> !IdIs(history[j], id)
  {
    if history == [] then None
    else if IdIs(history[0], id) then Some(0)
    else
      match FirstMatch(history[1..], id)
      case None => None
      case Some(i) => Some(i + 1)
  }

  /** The first matching review gets its status and completion date. */
  function CompleteFirst(history: seq<Object>, id: string, status: string, today: string): seq<Object> {
    match FirstMatch(history, id)
    case None => history
    case Some(i) =>
      history[i := history[i]["status" := Str(status)]["completion_date" := Str(today)]]
  }

  /** Completion touches the first review with the id and no other; with no
      match the history is unchanged. */
  lemma CompleteFirstEffect(history: seq<Object>, id: string, status: string, today: string)
    ensures var h := CompleteFirst(history, id, status, today);
      && |h| == |history|
      && (FirstMatch(history, id).None? ==> h == history)
      && (FirstMatch(history, id).Some? ==>
            var i := FirstMatch(history, id).value;
            && Get(h[i], "status") == Some(Str(status))
            && Get(h[i], "completion_date") == Some(Str(today))
            && Get(h[i], "review_id") == Some(Str(id))
            && forall j :: 0 <= j < |h| && j != i ==> h[j] == history[j])
  {
  }

  /** The type of the first review with this id, as `review.get("type")`. */
  function TypeOf(history: seq<Object>, id: string): Option<Value> {
    match FirstMatch(history, id)
    case None => None
    case Some(i) => Get(history[i], "type")
  }

  /** `mark_review_complete`. */
  function MarkComplete(log: Option<Log>, id: string, status: string, today: string,
                        next: Option<string>, nowIso: string): Update
  {
    if !Usable(log) then Refused
    else
      var l := log.value;
      if "review_history" !in l.keys then KeyMissing("review_history")
      else
        var h := CompleteFirst(l.history, id, status, today);
        if !Truthy(next) then Saved(Touch(l.(history := h), nowIso))
        else if "review_schedule" !in l.keys then KeyMissing("review_schedule")
        else
          var key := if TypeOf(h, id) == Some(Str("external")) then "next_external" else "next_internal";
          Saved(Touch(l.(history := h, schedule := l.schedule[key := Str(next.value)]), nowIso))
  }

  /** The next date goes to the external schedule exactly when the matched
      review is an external one; otherwise, also when no review matches, it
      goes to the internal schedule. The other date is kept. */
  lemma MarkCompleteRouting(log: Option<Log>, id: string, status: string, today: string,
                            next: Option<string>, nowIso: string)
    requires Truthy(next) && MarkComplete(log, id, status, today, next, nowIso).Saved?
    ensures var s := MarkComplete(log, id, status, today, next, nowIso).log.schedule;
      var external := TypeOf(log.value.history, id) == Some(Str("external"));
      && (external ==> Get(s, "next_external") == Some(Str(next.value))
                       && Get(s, "next_internal") == Get(log.value.schedule, "next_internal"))
      && (!external ==> Get(s, "next_internal") == Some(Str(next.value))
                        && Get(s, "next_external") == Get(log.value.schedule, "next_external"))
  {
    var h := log.value.history;
    CompleteFirstEffect(h, id, status, today);
    CompleteFirstKeepsMatch(h, id, status, today);
  }

  /** Completing a review changes neither which review matches first nor its type. */
  lemma CompleteFirstKeepsMatch(history: seq<Object>, id: string, status: string, today: string)
    ensures TypeOf(CompleteFirst(history, id, status, today), id) == TypeOf(history, id)
  {
    var h := CompleteFirst(history, id, status, today);
    CompleteFirstEffect(history, id, status, today);
    match FirstMatch(history, id)
    case None =>
    case Some(i) =>
      assert forall j :: 0 <= j < i ==> h[j] == history[j];
      FirstMatchAt(h, id, i);
  }

  /** A review with the id, with none before it, is the first match. */
  lemma {:induction false} FirstMatchAt(history: seq<Object>, id: string, i: nat)
    requires i < |history| && IdIs(history[i], id)
    requires forall j :: 0 <= j < i ==> !IdIs(history[j], id)
    ensures FirstMatch(history, id) == Some(i)
  {
    if i > 0 {
      FirstMatchAt(history[1..], id, i - 1);
    }
  }

  /** The number of reviews whose `type` is this string. */
  function CountType(history: seq<Object>, t: string): (n: nat)
    ensures n <= |history|
  {
    if history == [] then 0
    else (if Get(history[0], "type") == Some(Str(t)) then 1 else 0) + CountType(history[1..], t)
  }

  datatype Summary = Summary(total: nat, internal: nat, external: nat)

  /** The counts `generate_summary` prints, when there is a history. */
  function Summarize(log: Log): Option<Summary> {
    if "review_history" in log.keys && log.history != [] then
      Some(Summary(|log.history|, CountType(log.history, "internal"), CountType(log.history, "external")))
    else None
  }

  /** A review is counted under at most one type, so the two counts never
      exceed the total. */
  lemma {:induction false} CountTypesBounded(history: seq<Object>)
    ensures CountType(history, "internal") + CountType(history, "external") <= |history|
  {
    if history != [] {
      CountTypesBounded(history[1..]);
    }
  }

  lemma SummaryBounded(log: Log)
    requires Summarize(log).Some?
    ensures var s := Summarize(log).value;
      s.internal + s.external <= s.total && s.total == |log.history| > 0
  {
    CountTypesBounded(log.history);
  }
}

=== FILE: structure_lock.dfy ===
/** The level-3 structure-lock CI gate: it checks six critical files, the
    24 root module directories and the inner layout of every numbered
    module, runs the structure guard, and fails with exit code 24 when any
    error was collected. The checks look below the gate's root directory,
    which the script takes to be the fourth parent of its own path; the
    guard's outcome is an input. */
module StructureLock {
  import opened Text
  import Layout
  import Paths

  datatype EntryKind = RegularFile | Directory

  /** The paths that exist below some directory, relative to it, with their
      kind. The gate's checks read the tree below its root directory. */
  type Tree = map<string, EntryKind>

  predicate IsDir(t: Tree, p: string) {
    p in t && t[p] == Directory
  }

  /** `root / module / name`. */
  function Child(dir: string, name: string): string {
    dir + "/" + name
  }

  const CriticalFiles: seq<string> := [
    "12_tooling/scripts/structure_guard.sh",
    "12_tooling/hooks/pre_commit/structure_validation.sh",
    "23_compliance/policies/structure_policy.yaml",
    "23_compliance/exceptions/structure_exceptions.yaml",
    "23_compliance/tests/unit/test_structure_policy_vs_md.py",
    ScriptPath]

  const RequiredFiles: seq<string> := ["module.yaml", "README.md"]

  const RequiredDirs: seq<string> := ["docs", "src", "tests"]

  /** How running the structure guard went. */
  datatype GuardRun = Exited(code: int, stderr: string) | Raised(message: string)

  /** The errors and warnings collected so far. */
  datatype Findings = Findings(errors: seq<string>, warnings: seq<string>)

  function MissingCritical(f: string): string {
    "Missing critical file: " + f
  }

  /** One error per absent critical file, in list order. */
  function CriticalErrors(t: Tree, files: seq<string>): (r: seq<string>)
    ensures |r| <= |files|
    ensures r == [] <==> forall f :: f in files ==> f in t
    ensures forall f :: f in files ==> (MissingCritical(f) in r <==> f !in t)
    ensures forall e :: e in r ==> exists f :: f in files && f !in t && e == MissingCritical(f)
  {
    if files == [] then []
    else
      var rest := CriticalErrors(t, files[1..]);
      assert forall f :: f in files <==> f == files[0] || f in files[1..];
      MissingCriticalInjective(files[0]);
      if files[0] !in t then [MissingCritical(files[0])] + rest else rest
  }

  lemma MissingCriticalInjective(f: string)
    ensures forall g :: MissingCritical(g) == MissingCritical(f) ==> g == f
  {
    forall g | MissingCritical(g) == MissingCritical(f)
      ensures g == f
    {
      var p := "Missing critical file: ";
      assert g == MissingCritical(g)[|p|..];
    }
  }

  /** The number of listed files that are absent. */
  function CountMissing(t: Tree, files: seq<string>): nat {
    if files == [] then 0
    else (if files[0] !in t then 1 else 0) + CountMissing(t, files[1..])
  }

  /** Each absent critical file costs exactly one error. */
  lemma {:induction false} CriticalErrorsCount(t: Tree, files: seq<string>)
    ensures |CriticalErrors(t, files)| == CountMissing(t, files)
  {
    if files != [] {
      CriticalErrorsCount(t, files[1..]);
    }
  }

  /** The error for one expected module: absent, or present but not a directory. */
  function ModuleError(t: Tree, m: string): (r: seq<string>)
    ensures |r| <= 1
    ensures r == [] <==> IsDir(t, m)
  {
    if m !in t then ["Missing module directory: " + m]
    else if t[m] != Directory then ["Module path is not a directory: " + m]
    else []
  }

  /** `validate_24_modules` over a list of expected modules. */
  function ModuleErrors(t: Tree, ms: seq<string>): (r: seq<string>)
    ensures |r| <= |ms|
    ensures r == [] <==> forall k :: 0 <= k < |ms| ==> IsDir(t, ms[k])
  {
    if ms == [] then []
    else ModuleError(t, ms[0]) + ModuleErrors(t, ms[1..])
  }

  /** The name prefixes `01_` … `24_` that select a directory for the inner check. */
  predicate HasModulePrefix(name: string) {
    exists n :: 1 <= n <= 24 && StartsWith(name, Layout.Pad2(n) + "_")
  }

  /** The warnings for one numbered module directory: two files, then three
      sub-directories, one warning for each that is absent. */
  function LayoutWarnings(t: Tree, m: string): (r: seq<string>)
    ensures |r| <= |RequiredFiles| + |RequiredDirs|
  {
    FileWarnings(t, m, RequiredFiles) + DirWarnings(t, m, RequiredDirs)
  }

  function FileWarnings(t: Tree, m: string, files: seq<string>): (r: seq<string>)
    ensures |r| <= |files|
    ensures r == [] <==> forall k :: 0 <= k < |files| ==> Child(m, files[k]) in t
  {
    if files == [] then []
    else
      (if Child(m, files[0]) !in t then ["Missing " + files[0] + " in " + m] else [])
      + FileWarnings(t, m, files[1..])
  }

  function DirWarnings(t: Tree, m: string, dirs: seq<string>): (r: seq<string>)
    ensures |r| <= |dirs|
    ensures r == [] <==> forall k :: 0 <= k < |dirs| ==> Child(m, dirs[k]) in t
  {
    if dirs == [] then []
    else
      (if Child(m, dirs[0]) !in t then ["Missing " + dirs[0] + "/ directory in " + m] else [])
      + DirWarnings(t, m, dirs[1..])
  }

  /** Whether a root entry is structure-checked: a directory with a numbered prefix. */
  predicate Checked(t: Tree, name: string) {
    IsDir(t, name) && HasModulePrefix(name)
  }

  /** `validate_module_structure` over the root's entries, in listing order. */
  function StructureWarnings(t: Tree, entries: seq<string>): seq<string> {
    if entries == [] then []
    else
      (if Checked(t, entries[0]) then LayoutWarnings(t, entries[0]) else [])
      + StructureWarnings(t, entries[1..])
  }

  /** The entries the inner check looks at, in listing order. */
  function CheckedEntries(t: Tree, entries: seq<string>): (r: seq<string>)
    ensures forall k :: 0 <= k < |r| ==> Checked(t, r[k])
    ensures forall x :: x in r <==> x in entries && Checked(t, x)
  {
    if entries == [] then []
    else if Checked(t, entries[0]) then [entries[0]] + CheckedEntries(t, entries[1..])
    else CheckedEntries(t, entries[1..])
  }

  /** Entries that are not numbered module directories contribute nothing:
      the warnings are those of the checked entries alone. */
  lemma {:induction false} OnlyCheckedEntries(t: Tree, entries: seq<string>)
    ensures StructureWarnings(t, entries) == StructureWarnings(t, CheckedEntries(t, entries))
  {
    if entries != [] {
      OnlyCheckedEntries(t, entries[1..]);
      var rest := CheckedEntries(t, entries[1..]);
      if Checked(t, entries[0]) {
        assert ([entries[0]] + rest)[1..] == rest;
      }
    }
  }

  /** At most five warnings per checked module. */
  lemma {:induction false} StructureWarningsBound(t: Tree, entries: seq<string>)
    ensures |StructureWarnings(t, entries)| <= 5 * |CheckedEntries(t, entries)|
  {
    if entries != [] {
      StructureWarningsBound(t, entries[1..]);
    }
  }

  function GuardError(g: GuardRun): (r: seq<string>)
    ensures r == [] <==> g.Exited? && g.code == 0
  {
    match g
    case Exited(code, stderr) =>
      if code != 0 then ["Structure guard validation failed: " + stderr] else []
    case Raised(message) => ["Failed to run structure guard: " + message]
  }

  /** `run_validation`'s four checks, in order, each appending to the
      findings; the critical files and the expected modules are parameters
      here and fixed by `Validate`. */
  function ValidateWith(t: Tree, critical: seq<string>, modules: seq<string>,
                        entries: seq<string>, g: GuardRun): Findings
  {
    var f0 := Findings([], []);
    var f1 := f0.(errors := f0.errors + CriticalErrors(t, critical));
    var f2 := f1.(errors := f1.errors + ModuleErrors(t, modules));
    var f3 := f2.(warnings := f2.warnings + StructureWarnings(t, entries));
    f3.(errors := f3.errors + GuardError(g))
  }

  function Validate(t: Tree, entries: seq<string>, g: GuardRun): Findings {
    ValidateWith(t, CriticalFiles, Layout.Modules(), entries, g)
  }

  /** Warnings come only from the inner-layout check, and errors from the
      other three checks in order; the inner layout never adds an error. */
  lemma ValidateParts(t: Tree, critical: seq<string>, modules: seq<string>,
                      entries: seq<string>, g: GuardRun)
    ensures var f := ValidateWith(t, critical, modules, entries, g);
      f.warnings == StructureWarnings(t, entries)
      && f.errors == CriticalErrors(t, critical) + ModuleErrors(t, modules) + GuardError(g)
  {
    var c := CriticalErrors(t, critical);
    var w := StructureWarnings(t, entries);
    assert [] + c == c;
    assert [] + w == w;
  }

  /** The gate has no errors exactly when every critical file exists, every
      expected module is a directory and the guard exited with 0. */
  lemma ValidateClean(t: Tree, critical: seq<string>, modules: seq<string>,
                      entries: seq<string>, g: GuardRun)
    ensures ValidateWith(t, critical, modules, entries, g).errors == []
        <==> ((forall f :: f in critical ==> f in t)
              && (forall k :: 0 <= k < |modules| ==> IsDir(t, modules[k]))
              && g.Exited? && g.code == 0)
  {
  }

  /** For the real gate: clean exactly when the six critical files exist, the
      24 numbered module directories exist and the guard succeeded. */
  lemma GateClean(t: Tree, entries: seq<string>, g: GuardRun)
    ensures Validate(t, entries, g).errors == []
        <==> ((forall f :: f in CriticalFiles ==> f in t)
              && (forall k :: 0 <= k < 24 ==> IsDir(t, Layout.ModuleName(k)))
              && g.Exited? && g.code == 0)
  {
    ValidateClean(t, CriticalFiles, Layout.Modules(), entries, g);
  }

  /** The `status` field of the evidence record. */
  function Status(f: Findings): (s: string)
    ensures s == "PASS" <==> f.errors == []
  {
    if f.errors == [] then "PASS" else "FAIL"
  }

  /** The process exit code. */
  function ExitCode(f: Findings): (c: int)
    ensures c == 24 <==> f.errors != []
    ensures c == 0 <==> f.errors == []
  {
    if f.errors != [] then 24 else 0
  }

  /** Warnings alone never fail the gate: changing them changes neither the
      status nor the exit code. */
  lemma WarningsDoNotFail(f: Findings, w: seq<string>)
    ensures Status(f.(warnings := w)) == Status(f)
    ensures ExitCode(f.(warnings := w)) == ExitCode(f)
  {
  }

  /** The gate script's own path in the repository, the last critical file. */
  const MetaDir := "24_meta_orchestration"
  const ScriptPath := MetaDir + "/" + "triggers" + "/" + "ci" + "/" + "gates" + "/" + "structure_lock_l3.py"

  /** `Path(p).parent` taken `n` times. */
  function Parents(p: string, n: nat): string {
    if n == 0 then p else Paths.Parent(Parents(p, n - 1))
  }

  /** The script's fourth parent, its root directory as written, is the
      `24_meta_orchestration` module; the fifth is the repository root, the
      root the review-status gate in the same directory takes. */
  lemma GateRoots()
    ensures Parents(ScriptPath, 4) == MetaDir
    ensures Parents(ScriptPath, 5) == "."
  {
    assert '/' !in MetaDir && '/' !in "triggers" && '/' !in "ci" && '/' !in "gates";
    assert '/' !in "structure_lock_l3.py";
    FourDeep(MetaDir, "triggers", "ci", "gates", "structure_lock_l3.py");
  }

  /** The parents of `a/b/c/d/x`, for components without `/`. */
  lemma FourDeep(a: string, b: string, c: string, d: string, x: string)
    requires '/' !in a && '/' !in b && '/' !in c && '/' !in d && '/' !in x
    ensures var p := a + "/" + b + "/" + c + "/" + d + "/" + x;
      Parents(p, 4) == a && Parents(p, 5) == "."
  {
    var ab := a + "/" + b;
    var abc := ab + "/" + c;
    var abcd := abc + "/" + d;
    var p := abcd + "/" + x;
    assert Parents(p, 1) == abcd by {
      Paths.ParentAppend(abcd, x);
    }
    assert Parents(p, 2) == abc by {
      Paths.ParentAppend(abc, d);
    }
    assert Parents(p, 3) == ab by {
      Paths.ParentAppend(ab, c);
    }
    assert Parents(p, 4) == a by {
      Paths.ParentAppend(a, b);
    }
    assert Paths.Parent(a) == "." by {
      Paths.DirPrefixAppend("", a);
      assert "" + a == a;
    }
  }

  /** The repository `repo`, given relative to its root, seen from its
      directory `root`: `.` sees all of it. */
  function SeenFrom(repo: Tree, root: string): (t: Tree)
    ensures root == "." ==> t == repo
    ensures root != "." ==> forall p :: p in t <==> root + "/" + p in repo
    ensures root != "." ==> forall p :: p in t ==> t[p] == repo[root + "/" + p]
  {
    if root == "." then repo
    else
      var below := set q | q in repo && StartsWith(q, root + "/") :: q[|root| + 1..];
      assert forall p :: root + "/" + p in repo ==> p in below by {
        forall p | root + "/" + p in repo
          ensures p in below
        {
          var q := root + "/" + p;
          assert q[..|root + "/"|] == root + "/";
          assert q[|root| + 1..] == p;
        }
      }
      map p | p in below && root + "/" + p in repo :: repo[root + "/" + p]
  }

  /** The gate as written, on a repository given relative to its root:
      the checks read the tree below the script's fourth parent. */
  function GateAsWritten(repo: Tree, entries: seq<string>, g: GuardRun): Findings {
    Validate(SeenFrom(repo, Parents(ScriptPath, 4)), entries, g)
  }

  /** The gate with its root at the repository root (five parents up). */
  function GateAtRoot(repo: Tree, entries: seq<string>, g: GuardRun): (f: Findings)
    ensures f == Validate(repo, entries, g)
  {
    GateRoots();
    Validate(SeenFrom(repo, Parents(ScriptPath, 5)), entries, g)
  }

  /** As written, the gate fails on every repository that has no
      `01_ai_layer` directory inside `24_meta_orchestration`: it looks for
      the module there, whatever the guard reports. */
  lemma GateAsWrittenFails(repo: Tree, entries: seq<string>, g: GuardRun)
    requires !IsDir(repo, MetaDir + "/" + Layout.ModuleName(0))
    ensures GateAsWritten(repo, entries, g).errors != []
    ensures ExitCode(GateAsWritten(repo, entries, g)) == 24
  {
    GateRoots();
    var t := SeenFrom(repo, MetaDir);
    assert !IsDir(t, Layout.ModuleName(0));
    GateClean(t, entries, g);
  }

  /** A repository with exactly the six critical files and the 24 module
      directories at its root. */
  function StandardRepo(): Tree {
    (map f | f in CriticalFiles :: RegularFile) + (map m | m in Layout.Modules() :: Directory)
  }

  /** No module name is as long as a path into a module. */
  lemma ModuleNameShort(k: nat)
    requires k < 24
    ensures |Layout.ModuleName(k)| <= 22
  {
  }

  /** On that repository the gate rooted at the repository root passes once
      the guard exits with 0, and the gate as written fails. */
  lemma StandardRepoGates(entries: seq<string>, stderr: string)
    ensures GateAtRoot(StandardRepo(), entries, Exited(0, stderr)).errors == []
    ensures GateAsWritten(StandardRepo(), entries, Exited(0, stderr)).errors != []
  {
    StandardRepoLayout();
    GateClean(StandardRepo(), entries, Exited(0, stderr));
    GateAsWrittenFails(StandardRepo(), entries, Exited(0, stderr));
  }

  /** The standard repository holds the critical files and the module
      directories, and no module inside `24_meta_orchestration`. */
  lemma StandardRepoLayout()
    ensures forall f :: f in CriticalFiles ==> f in StandardRepo()
    ensures forall k :: 0 <= k < 24 ==> IsDir(StandardRepo(), Layout.ModuleName(k))
    ensures MetaDir + "/" + Layout.ModuleName(0) !in StandardRepo()
  {
    var ms := Layout.Modules();
    forall k | 0 <= k < 24
      ensures IsDir(StandardRepo(), Layout.ModuleName(k))
    {
      assert ms[k] in ms;
    }
    NestedModuleAbsent();
  }

  lemma NestedModuleAbsent()
    ensures MetaDir + "/" + Layout.ModuleName(0) !in CriticalFiles
    ensures MetaDir + "/" + Layout.ModuleName(0) !in Layout.Modules()
  {
    var x := MetaDir + "/" + Layout.ModuleName(0);
    var ms := Layout.Modules();
    assert |x| == 33;
    forall k | 0 <= k < 24
      ensures ms[k] != x
    {
      ModuleNameShort(k);
    }
    forall k | 0 <= k < 6
      ensures CriticalFiles[k] != x
    {
      assert |CriticalFiles[k]| >= 37;
    }
  }
}

=== FILE: structure_policy.dfy ===
/** The shape the unit tests demand of the structure policy document: its
    sections, the 24 required modules with their `NN_name` naming and
    sequential numbering, the common must-have files and directories, the
    forbidden local directories and the compliance threshold. */
module StructurePolicy {
  import opened Text
  import Layout

  /** The value found under `compliance_threshold`, as YAML can produce it. */
  datatype Threshold = IntValue(n: int) | BoolValue(b: bool) | OtherValue

  /** The parsed policy document, reduced to what the tests look at. */
  datatype Policy = Policy(
    sections: set<string>,
    requirementSections: set<string>,
    requiredModules: seq<string>,
    mustFiles: seq<string>,
    mustDirs: seq<string>,
    forbiddenDirs: seq<string>,
    threshold: Threshold)

  const TopLevelSections: seq<string> := ["structure_requirements", "exceptions", "compliance_threshold"]

  const RequirementSections: seq<string> :=
    ["root_modules", "common_must_files", "common_must_directories",
     "forbidden_local_directories", "centralized_locations"]

  const ExpectedMustFiles: seq<string> := ["module.yaml", "README.md"]

  const ExpectedMustDirs: seq<string> := ["docs/", "src/", "tests/"]

  const ExpectedForbidden: seq<string> :=
    ["registry/", "policies/", "risk/", "evidence/", "exceptions/", "triggers/", "ci/", "cd/"]

  predicate IsNameChar(c: char) {
    'a' <= c <= 'z' || c == '_'
  }

  /** A full match of `\d{2}_[a-z_]+`. */
  predicate NameCore(s: string) {
    |s| >= 4 && IsDigit(s[0]) && IsDigit(s[1]) && s[2] == '_'
    && forall k :: 3 <= k < |s| ==> IsNameChar(s[k])
  }

  /** `re.match(r'^\d{2}_[a-z_]+$', s)`: `$` also matches just before a single
      final newline. */
  predicate MatchesNaming(s: string) {
    NameCore(s) || (|s| > 0 && s[|s| - 1] == '\n' && NameCore(s[..|s| - 1]))
  }

  /** The states of a scanner for the naming pattern. */
  datatype ScanState = Start | OneDigit | TwoDigits | Underscore | InName | AfterNewline | Dead

  /** The state the scanner should be in after reading `p`. */
  function Classify(p: string): ScanState {
    if |p| == 0 then Start
    else if NameCore(p) then InName
    else if p[|p| - 1] == '\n' && NameCore(p[..|p| - 1]) then AfterNewline
    else if |p| == 1 && IsDigit(p[0]) then OneDigit
    else if |p| == 2 && IsDigit(p[0]) && IsDigit(p[1]) then TwoDigits
    else if |p| == 3 && IsDigit(p[0]) && IsDigit(p[1]) && p[2] == '_' then Underscore
    else Dead
  }

  function Step(st: ScanState, c: char): ScanState {
    match st
    case Start => if IsDigit(c) then OneDigit else Dead
    case OneDigit => if IsDigit(c) then TwoDigits else Dead
    case TwoDigits => if c == '_' then Underscore else Dead
    case Underscore => if IsNameChar(c) then InName else Dead
    case InName => if IsNameChar(c) then InName else if c == '\n' then AfterNewline else Dead
    case AfterNewline => Dead
    case Dead => Dead
  }

  /** One character of input moves the scanner exactly as reading the longer
      prefix would classify it. */
  lemma StepClassify(p: string, c: char)
    ensures Step(Classify(p), c) == Classify(p + [c])
  {
    var q := p + [c];
    assert q[..|p|] == p;
    if NameCore(q) && |q| > 4 {
      assert NameCore(p);
    }
    if |q| > 1 && q[|q| - 1] == '\n' && NameCore(q[..|q| - 1]) {
      assert NameCore(p);
    }
    if NameCore(p) {
      assert IsNameChar(c) ==> NameCore(q);
    }
  }

  /** The scanner: reads the name once, left to right, and accepts exactly the
      names the naming pattern matches. */
  method MatchNaming(s: string) returns (b: bool)
    ensures b <==> MatchesNaming(s)
  {
    var st := Start;
    var i := 0;
    while i < |s|
      invariant 0 <= i <= |s|
      invariant st == Classify(s[..i])
    {
      StepClassify(s[..i], s[i]);
      assert s[..i] + [s[i]] == s[..i + 1];
      st := Step(st, s[i]);
      i := i + 1;
    }
    assert s[..i] == s;
    b := st == InName || st == AfterNewline;
  }

  /** `module.split('_')[0]`. */
  function NumberField(m: string): string {
    Split(m, '_')[0]
  }

  /** The first field of a split is everything before the first separator. */
  lemma {:induction false} SplitHead(s: string, c: char, i: nat)
    requires i < |s| && s[i] == c && c !in s[..i]
    ensures Split(s, c)[0] == s[..i]
  {
    if i > 0 {
      assert s[1..][..i - 1] == s[1..i];
      assert s[1..][i - 1] == c;
      assert s[1..][..i - 1] == s[..i][1..];
      SplitHead(s[1..], c, i - 1);
      assert [s[0]] + s[1..i] == s[..i];
    }
  }

  /** The numbers before the first `_` are `01`, `02`, … `24`, in order. */
  predicate Sequential(ms: seq<string>) {
    |ms| == 24 && forall i :: 0 <= i < 24 ==> NumberField(ms[i]) == Layout.Pad2(i + 1)
  }

  /** A boolean is an `int` to `isinstance`, with value 0 or 1. */
  predicate ThresholdOk(t: Threshold) {
    match t
    case IntValue(n) => 90 <= n <= 100
    case BoolValue(b) => var n := if b then 1 else 0; 90 <= n <= 100
    case OtherValue => false
  }

  lemma ThresholdOkIff(t: Threshold)
    ensures ThresholdOk(t) <==> t.IntValue? && 90 <= t.n <= 100
  {
  }

  predicate AllIn(xs: seq<string>, ys: seq<string>) {
    forall k :: 0 <= k < |xs| ==> xs[k] in ys
  }

  /** Every test of the policy-versus-blueprint suite passes. */
  predicate Conforms(p: Policy) {
    && (forall k :: 0 <= k < |TopLevelSections| ==> TopLevelSections[k] in p.sections)
    && (forall k :: 0 <= k < |RequirementSections| ==> RequirementSections[k] in p.requirementSections)
    && |p.requiredModules| == 24
    && (forall k :: 0 <= k < |p.requiredModules| ==> MatchesNaming(p.requiredModules[k]))
    && Sequential(p.requiredModules)
    && AllIn(ExpectedMustFiles, p.mustFiles)
    && AllIn(ExpectedMustDirs, p.mustDirs)
    && AllIn(ExpectedForbidden, p.forbiddenDirs)
    && ThresholdOk(p.threshold)
  }

  predicate NameChars(s: string) {
    forall k :: 0 <= k < |s| ==> IsNameChar(s[k])
  }

  /** Every topic is a non-empty run of lower-case letters and underscores. */
  lemma TopicChars(i: nat)
    requires i < 24
    ensures Layout.Topic(i) != [] && NameChars(Layout.Topic(i))
  {
    if i < 6 { TopicCharsLow(i); }
    else if i < 12 { TopicCharsMid(i); }
    else if i < 18 { TopicCharsHigh(i); }
    else { TopicCharsTop(i); }
  }

  lemma TopicCharsLow(i: nat)
    requires 0 <= i < 6
    ensures Layout.Topic(i) != [] && NameChars(Layout.Topic(i))
  {
    match i
    case 0 => assert NameChars("ai_layer");
    case 1 => assert NameChars("audit_logging");
    case 2 => assert NameChars("core");
    case 3 => assert NameChars("deployment");
    case 4 => assert NameChars("documentation");
    case _ => assert NameChars("data_pipeline");
  }

  lemma TopicCharsMid(i: nat)
    requires 6 <= i < 12
    ensures Layout.Topic(i) != [] && NameChars(Layout.Topic(i))
  {
    match i
    case 6 => assert NameChars("governance_legal");
    case 7 => assert NameChars("identity_score");
    case 8 => assert NameChars("meta_identity");
    case 9 => assert NameChars("interoperability");
    case 10 => assert NameChars("test_simulation");
    case _ => assert NameChars("tooling");
  }

  lemma TopicCharsHigh(i: nat)
    requires 12 <= i < 18
    ensures Layout.Topic(i) != [] && NameChars(Layout.Topic(i))
  {
    match i
    case 12 => assert NameChars("ui_layer");
    case 13 => assert NameChars("zero_time_auth");
    case 14 => assert NameChars("infra");
    case 15 => assert NameChars("codex");
    case 16 => assert NameChars("observability");
    case _ => assert NameChars("data_layer");
  }

  lemma TopicCharsTop(i: nat)
    requires 18 <= i < 24
    ensures Layout.Topic(i) != [] && NameChars(Layout.Topic(i))
  {
    match i
    case 18 => assert NameChars("adapters");
    case 19 => assert NameChars("foundation");
    case 20 => assert NameChars("post_quantum_crypto");
    case 21 => assert NameChars("datasets");
    case 22 => assert NameChars("compliance");
    case _ => assert NameChars("meta_orchestration");
  }

  /** Each of the 24 hard-coded module names matches the naming pattern. */
  lemma ModulesNamed()
    ensures forall k :: 0 <= k < |Layout.Modules()| ==> NameCore(Layout.Modules()[k])
  {
    forall k | 0 <= k < |Layout.Modules()|
      ensures NameCore(Layout.Modules()[k])
    {
      TopicChars(k);
      var m := Layout.Modules()[k];
      assert m == Layout.Pad2(k + 1) + "_" + Layout.Topic(k);
      assert forall j :: 3 <= j < |m| ==> m[j] == Layout.Topic(k)[j - 3];
    }
  }

  /** The hard-coded module list is numbered `01` to `24` in order. */
  lemma ModulesSequential()
    ensures Sequential(Layout.Modules())
  {
    forall i | 0 <= i < 24
      ensures NumberField(Layout.Modules()[i]) == Layout.Pad2(i + 1)
    {
      var m := Layout.Modules()[i];
      assert m == Layout.Pad2(i + 1) + "_" + Layout.Topic(i);
      assert m[..2] == Layout.Pad2(i + 1);
      SplitHead(m, '_', 2);
    }
  }

  /** A policy listing exactly the hard-coded modules passes the module count,
      naming and numbering tests. */
  lemma ModulesConform(p: Policy)
    requires p.requiredModules == Layout.Modules()
    ensures |p.requiredModules| == 24 && Sequential(p.requiredModules)
    ensures forall k :: 0 <= k < 24 ==> MatchesNaming(p.requiredModules[k])
  {
    ModulesNamed();
    ModulesSequential();
  }

  /** Numbering alone already rules out a module listed twice. */
  lemma SequentialDistinct(ms: seq<string>)
    requires Sequential(ms)
    ensures forall i, j :: 0 <= i < j < |ms| ==> ms[i] != ms[j]
  {
    forall i, j | 0 <= i < j < |ms|
      ensures ms[i] != ms[j]
    {
      var a := Layout.Pad2(i + 1);
      var b := Layout.Pad2(j + 1);
      assert a != b;
    }
  }
}

=== FILE: text.dfy ===
/** The handful of Python `str` operations the scripts rely on: substring
    tests, `startswith`/`endswith`, `strip()`, `split(sep)`, `sep.join`,
    `lower()` and decimal formatting. */
module Text {
  import opened Wrappers

  predicate StartsWith(s: string, p: string) {
    |p| <= |s| && s[..|p|] == p
  }

  predicate EndsWith(s: string, p: string) {
    |p| <= |s| && s[|s| - |p|..] == p
  }

  /** `t` occurs in `s` starting at index `i`. */
  ghost predicate OccursAt(s: string, t: string, i: int) {
    0 <= i && i + |t| <= |s| && s[i..i + |t|] == t
  }

  /** Python's `t in s`. */
  function Contains(s: string, t: string): (b: bool)
    ensures b <==> exists i :: OccursAt(s, t, i)
    decreases |s|
  {
    if StartsWith(s, t) then
      assert OccursAt(s, t, 0);
      true
    else if |s| == 0 then
      assert forall i :: OccursAt(s, t, i) ==> i == 0;
      false
    else
      var b := Contains(s[1..], t);
      assert forall i :: OccursAt(s[1..], t, i) <==> OccursAt(s, t, i + 1);
      assert forall i :: OccursAt(s, t, i) ==> i == 0 || OccursAt(s[1..], t, i - 1);
      b
  }

  /** `t` occurs at `k`, compared character by character. */
  predicate MatchAt(s: string, t: string, k: nat) {
    k + |t| <= |s| && forall n :: 0 <= n < |t| ==> s[k + n] == t[n]
  }

  lemma MatchAtOccurs(s: string, t: string, k: nat)
    ensures MatchAt(s, t, k) <==> OccursAt(s, t, k)
  {
    if MatchAt(s, t, k) {
      assert s[k..k + |t|] == t;
    }
    if OccursAt(s, t, k) {
      forall n | 0 <= n < |t| ensures s[k + n] == t[n] {
        assert s[k..k + |t|][n] == s[k + n];
      }
    }
  }

  /** `s.find(t, k)`: the first index from `k` on where `t` occurs
      (`IndexFromFound`, `IndexFromFirst`), `None` where `find` gives -1. */
  function IndexFrom(s: string, t: string, k: nat): (r: Option<nat>)
    decreases |s| - k
  {
    if MatchAt(s, t, k) then Some(k)
    else if k >= |s| then None
    else IndexFrom(s, t, k + 1)
  }

  /** What `find` returns is an occurrence, not before `k`. */
  lemma {:induction false} IndexFromFound(s: string, t: string, k: nat)
    ensures IndexFrom(s, t, k).Some? ==> k <= IndexFrom(s, t, k).value && OccursAt(s, t, IndexFrom(s, t, k).value)
    decreases |s| - k
  {
    MatchAtOccurs(s, t, k);
    if !MatchAt(s, t, k) && k < |s| {
      IndexFromFound(s, t, k + 1);
    }
  }

  /** `find` gives the first occurrence from `k` on, and -1 only when there
      is none. */
  lemma {:induction false} IndexFromFirst(s: string, t: string, k: nat)
    ensures IndexFrom(s, t, k).Some? ==> forall p :: k <= p < IndexFrom(s, t, k).value ==> !OccursAt(s, t, p)
    ensures IndexFrom(s, t, k).None? ==> forall p :: k <= p ==> !OccursAt(s, t, p)
    decreases |s| - k
  {
    MatchAtOccurs(s, t, k);
    if !MatchAt(s, t, k) && k < |s| {
      IndexFromFirst(s, t, k + 1);
    }
  }

  /** An occurrence from `k` on with none between `k` and it is what `find`
      returns. */
  lemma IndexFromIs(s: string, t: string, k: nat, q: nat)
    requires k <= q && OccursAt(s, t, q)
    requires forall p :: k <= p < q ==> !OccursAt(s, t, p)
    ensures IndexFrom(s, t, k) == Some(q)
  {
    IndexFromFound(s, t, k);
    IndexFromFirst(s, t, k);
  }

  /** `s.find(t)`. */
  function IndexOf(s: string, t: string): (r: Option<nat>)
    ensures r.Some? ==> OccursAt(s, t, r.value)
  {
    IndexFromFound(s, t, 0);
    IndexFrom(s, t, 0)
  }

  lemma IndexOfFirst(s: string, t: string)
    ensures IndexOf(s, t).Some? ==> forall p :: 0 <= p < IndexOf(s, t).value ==> !OccursAt(s, t, p)
    ensures IndexOf(s, t).None? ==> forall p :: !OccursAt(s, t, p)
  {
    IndexFromFirst(s, t, 0);
  }

  lemma IndexOfIs(s: string, t: string, q: nat)
    requires OccursAt(s, t, q)
    requires forall p :: 0 <= p < q ==> !OccursAt(s, t, p)
    ensures IndexOf(s, t) == Some(q)
  {
    IndexFromIs(s, t, 0, q);
  }

  /** `t in s` exactly when `s.find(t)` finds it. */
  lemma ContainsIndexOf(s: string, t: string)
    ensures Contains(s, t) <==> IndexOf(s, t).Some?
  {
    IndexOfFirst(s, t);
  }

  /** A substring of an infix is a substring of the whole. */
  lemma ContainsInfix(a: string, m: string, b: string, t: string)
    requires Contains(m, t)
    ensures Contains(a + m + b, t)
  {
    var i :| OccursAt(m, t, i);
    assert (a + m + b)[|a| + i..|a| + i + |t|] == m[i..i + |t|];
    assert OccursAt(a + m + b, t, |a| + i);
  }

  /** The characters Python's `str.isspace()` accepts, which `strip()` removes. */
  predicate IsSpace(c: char) {
    c == ' ' || '\t' <= c <= '\r' || '\U{1C}' <= c <= '\U{1F}'
    || c == '\U{85}' || c == '\U{A0}' || c == '\U{1680}'
    || '\U{2000}' <= c <= '\U{200A}' || c == '\U{2028}' || c == '\U{2029}'
    || c == '\U{202F}' || c == '\U{205F}' || c == '\U{3000}'
  }

  /** `s.lstrip()`: the suffix left after dropping leading whitespace. */
  function TrimStart(s: string): (r: string)
    ensures |r| <= |s| && r == s[|s| - |r|..]
    ensures r == [] || !IsSpace(r[0])
    ensures forall k :: 0 <= k < |s| - |r| ==> IsSpace(s[k])
  {
    if |s| > 0 && IsSpace(s[0]) then TrimStart(s[1..]) else s
  }

  /** `s.rstrip()`: the prefix left after dropping trailing whitespace. */
  function TrimEnd(s: string): (r: string)
    ensures |r| <= |s| && r == s[..|r|]
    ensures r == [] || !IsSpace(r[|r| - 1])
    ensures forall k :: |r| <= k < |s| ==> IsSpace(s[k])
  {
    if |s| > 0 && IsSpace(s[|s| - 1]) then TrimEnd(s[..|s| - 1]) else s
  }

  /** `s.strip()`. */
  function Strip(s: string): string {
    TrimEnd(TrimStart(s))
  }

  /** `strip()` keeps a contiguous slice of its input: what `lstrip()`
      dropped comes before it and what the following `rstrip()` dropped
      comes after it. */
  lemma StripShape(s: string)
    ensures var i := |s| - |TrimStart(s)|;
      0 <= i <= i + |Strip(s)| <= |s| && s[i..i + |Strip(s)|] == Strip(s)
  {
    var t := TrimStart(s);
    var r := TrimEnd(t);
    var i := |s| - |t|;
    assert t == s[i..];
    assert r == t[..|r|];
  }

  /** What `strip()` leaves neither starts nor ends with whitespace. */
  lemma StripEnds(s: string)
    ensures Strip(s) == [] || (!IsSpace(Strip(s)[0]) && !IsSpace(Strip(s)[|Strip(s)| - 1]))
  {
    var t := TrimStart(s);
    var r := TrimEnd(t);
    if r != [] {
      assert r[0] == t[0];
    }
  }

  /** A string with no whitespace at either end is its own `strip()`. */
  lemma StripNoop(s: string)
    requires s == [] || (!IsSpace(s[0]) && !IsSpace(s[|s| - 1]))
    ensures Strip(s) == s
  {
    assert TrimStart(s) == s;
  }

  /** `strip()` is idempotent. */
  lemma StripIdempotent(s: string)
    ensures Strip(Strip(s)) == Strip(s)
  {
    StripEnds(s);
    StripNoop(Strip(s));
  }

  /** `sep.join(parts)`. */
  function Join(parts: seq<string>, sep: string): string {
    if |parts| == 0 then ""
    else if |parts| == 1 then parts[0]
    else parts[0] + sep + Join(parts[1..], sep)
  }

  /** Joining two non-empty lists is joining each and putting one
      separator between. */
  lemma {:induction false} JoinAppend(a: seq<string>, b: seq<string>, sep: string)
    requires a != [] && b != []
    ensures Join(a + b, sep) == Join(a, sep) + sep + Join(b, sep)
  {
    if |a| > 1 {
      JoinAppend(a[1..], b, sep);
      assert (a + b)[1..] == a[1..] + b;
    } else {
      assert (a + b)[1..] == b;
    }
  }

  /** `s.split(c)` for a one-character separator: always at least one piece,
      and empty pieces are kept (`"a\n".split("\n") == ["a", ""]`). */
  function Split(s: string, c: char): (parts: seq<string>)
    ensures |parts| >= 1
    ensures forall k :: 0 <= k < |parts| ==> c !in parts[k]
    ensures Join(parts, [c]) == s
  {
    if |s| == 0 then [""]
    else
      var rest := Split(s[1..], c);
      if s[0] == c then
        assert s == [c] + s[1..];
        [""] + rest
      else
        var parts := [[s[0]] + rest[0]] + rest[1..];
        assert parts[1..] == rest[1..];
        parts
  }

  /** Splitting a join whose pieces avoid the separator gives the pieces back. */
  lemma {:induction false} SplitJoin(parts: seq<string>, c: char)
    requires |parts| >= 1
    requires forall k :: 0 <= k < |parts| ==> c !in parts[k]
    ensures Split(Join(parts, [c]), c) == parts
    decreases |parts|, |parts[0]|
  {
    if |parts| == 1 {
      SplitNoSeparator(parts[0], c);
    } else if parts[0] == "" {
      var j := Join(parts, [c]);
      assert j == [c] + Join(parts[1..], [c]);
      assert j[1..] == Join(parts[1..], [c]);
      SplitJoin(parts[1..], c);
      assert [""] + parts[1..] == parts;
    } else {
      var j := Join(parts, [c]);
      var tail := [parts[0][1..]] + parts[1..];
      assert tail[1..] == parts[1..];
      assert Join(tail, [c]) == parts[0][1..] + [c] + Join(parts[1..], [c]);
      assert j[1..] == Join(tail, [c]);
      assert j[0] == parts[0][0];
      SplitJoin(tail, c);
      assert [parts[0][0]] + tail[0] == parts[0];
      assert [[parts[0][0]] + tail[0]] + tail[1..] == parts;
    }
  }

  lemma {:induction false} SplitNoSeparator(s: string, c: char)
    requires c !in s
    ensures Split(s, c) == [s]
  {
    if |s| > 0 {
      SplitNoSeparator(s[1..], c);
      assert [s[0]] + s[1..] == s;
    }
  }

  /** Python's `str.lower()` restricted to the ASCII letters. */
  function LowerChar(c: char): char {
    if 'A' <= c <= 'Z' then (c as int - 'A' as int + 'a' as int) as char else c
  }

  function Lower(s: string): (r: string)
    ensures |r| == |s|
    ensures forall k :: 0 <= k < |s| ==> r[k] == LowerChar(s[k])
  {
    seq(|s|, k requires 0 <= k < |s| => LowerChar(s[k]))
  }

  predicate IsDigit(c: char) {
    '0' <= c <= '9'
  }

  function DigitChar(d: nat): char
    requires d < 10
  {
    ('0' as int + d) as char
  }

  /** Decimal rendering of a natural number, as `str(n)`. */
  function NatToString(n: nat): (s: string)
    ensures |s| >= 1
    ensures forall k :: 0 <= k < |s| ==> IsDigit(s[k])
    ensures |s| > 1 ==> s[0] != '0'
  {
    if n < 10 then [DigitChar(n)] else NatToString(n / 10) + [DigitChar(n % 10)]
  }

  /** Decimal rendering of an integer, as `str(n)` / an f-string. */
  function IntToString(n: int): string {
    if n < 0 then "-" + NatToString(-n) else NatToString(n)
  }

  /** The value of a string of decimal digits. */
  function DigitsValue(s: string): nat
    requires AllDigits(s)
  {
    if |s| == 0 then 0
    else
      assert IsDigit(s[|s| - 1]);
      10 * DigitsValue(s[..|s| - 1]) + (s[|s| - 1] as int - '0' as int)
  }

  lemma {:induction false} DigitsValueOfNat(n: nat)
    ensures DigitsValue(NatToString(n)) == n
  {
    var s := NatToString(n);
    if n >= 10 {
      DigitsValueOfNat(n / 10);
      assert s[..|s| - 1] == NatToString(n / 10);
    }
  }

  predicate AllDigits(s: string) {
    forall k :: 0 <= k < |s| ==> IsDigit(s[k])
  }

  /** Python's `int(s)` on ASCII decimal text: surrounding whitespace and one
      sign are allowed; `None` where `int` raises `ValueError`. */
  function ParseInt(s: string): Option<int> {
    var t := Strip(s);
    if t == [] then None
    else if t[0] == '-' || t[0] == '+' then
      var body := t[1..];
      if body != [] && AllDigits(body) then
        var v: int := DigitsValue(body);
        Some(if t[0] == '-' then -v else v)
      else None
    else if AllDigits(t) then Some(DigitsValue(t))
    else None
  }

  /** The decimal text of an integer reads back as that integer. */
  lemma ParseIntOfString(n: int)
    ensures ParseInt(IntToString(n)) == Some(n)
  {
    var s := IntToString(n);
    IntTextEnds(n);
    StripNoop(s);
    var m: nat := if n < 0 then -n else n;
    DigitsValueOfNat(m);
    if n < 0 {
      assert s[1..] == NatToString(m);
    }
  }

  /** Decimal text starts with a digit or `-`, ends with a digit, and so has
      no whitespace to strip. */
  lemma IntTextEnds(n: int)
    ensures var s := IntToString(n); s != [] && !IsSpace(s[0]) && !IsSpace(s[|s| - 1])
  {
    var s := IntToString(n);
    var digits := NatToString(if n < 0 then -n else n);
    assert s[|s| - 1] == digits[|digits| - 1];
    NotSpace(s[0]);
    NotSpace(s[|s| - 1]);
  }

  lemma NotSpace(c: char)
    requires IsDigit(c) || c == '-'
    ensures !IsSpace(c)
  {
  }
}

=== FILE: wrappers.dfy ===
/** Optional values, standing in for Python's `None` and for the
    "absent key" case of the JSON and YAML documents the scripts read. */
module Wrappers {

  datatype Option<+T> = None | Some(value: T) {

    /** The wrapped value, or `default` when there is none (`dict.get(k, default)`). */
    function GetOr(default: T): T {
      match this
      case Some(v) => v
      case None => default
    }
  }
}

=== FILE: write_overrides.dfy ===
/** The write-override registry: overrides older than the expiry window are
    dropped, new ones get sequential ids, and the evidence score falls by
    five points per active override. Times are microseconds since
    0001-01-01 00:00 (`datetime.min`) on one naive clock; `now` is a
    parameter. */
module WriteOverrides {
  import opened Wrappers
  import opened Text

  const MicrosPerHour := 3_600_000_000

  const MicrosPerDay := 86_400_000_000

  /** 1970-01-01 00:00, the date an override without `created` is given. */
  const Epoch1970 := 719_162 * MicrosPerDay

  /** 9999-12-31 23:59:59.999999 (`datetime.max`). */
  const MaxMicros := 3_652_059 * MicrosPerDay - 1

  /** What `fromisoformat` makes of a `created` string: it rejects it
      (`ValueError`), or yields a naive time, or a time with a UTC offset,
      which cannot be compared with the naive cutoff (`TypeError`). */
  datatype Created = Rejected | Naive(time: int) | Aware(time: int)

  /** One override. `created` is absent in entries written without it. */
  datatype Override = Override(id: int, filePath: string, reason: string, author: string,
                               created: Option<Created>, status: string)

  datatype Registry = Registry(overrides: seq<Override>, expiredCount: int, activeCount: int)

  /** An override without `created` counts as created at 1970-01-01 00:00. */
  function CreatedAt(o: Override): Created {
    o.created.GetOr(Naive(Epoch1970))
  }

  /** The expiry can compare the override with the cutoff. */
  predicate Comparable(o: Override) {
    CreatedAt(o).Naive?
  }

  /** `now - timedelta(hours=hours)` is a valid `datetime`; outside the range
      Python raises `OverflowError`. */
  predicate CutoffInRange(cutoff: int) {
    0 <= cutoff <= MaxMicros
  }

  /** Expiry raises: the cutoff is out of range, or some override's
      `created` cannot be compared with it. */
  predicate ExpireFails(os: seq<Override>, cutoff: int) {
    !CutoffInRange(cutoff) || exists k :: 0 <= k < |os| && !Comparable(os[k])
  }

  /** The override survives an expiry with this cutoff: strictly newer. */
  predicate Survives(o: Override, cutoff: int) {
    Comparable(o) && CreatedAt(o).time > cutoff
  }

  /** The overrides that survive, in their original order. */
  function Kept(os: seq<Override>, cutoff: int): seq<Override> {
    if os == [] then []
    else if Survives(os[0], cutoff) then [os[0]] + Kept(os[1..], cutoff)
    else Kept(os[1..], cutoff)
  }

  /** `a` is `b` with some elements left out, the rest in order. */
  predicate Subsequence<T(==)>(a: seq<T>, b: seq<T>)
    decreases |b|
  {
    a == [] || (b != [] && ((a[0] == b[0] && Subsequence(a[1..], b[1..])) || Subsequence(a, b[1..])))
  }

  /** What survives is exactly the overrides newer than the cutoff, in their
      original relative order. */
  lemma {:induction false} KeptSpec(os: seq<Override>, cutoff: int)
    ensures forall o :: o in Kept(os, cutoff) <==> o in os && Survives(o, cutoff)
    ensures Subsequence(Kept(os, cutoff), os)
    ensures |Kept(os, cutoff)| <= |os|
  {
    if os != [] {
      KeptSpec(os[1..], cutoff);
      var k := Kept(os, cutoff);
      if Survives(os[0], cutoff) {
        assert k[1..] == Kept(os[1..], cutoff);
      }
      assert forall o :: o in os <==> o == os[0] || o in os[1..];
    }
  }

  /** The number of overrides that do not survive. */
  function CountExpired(os: seq<Override>, cutoff: int): nat {
    if os == [] then 0
    else (if Survives(os[0], cutoff) then 0 else 1) + CountExpired(os[1..], cutoff)
  }

  /** `expire_overrides`: one pass over the overrides, keeping those created
      after `now - hours`. The expired count is replaced, not accumulated.
      `None` where the cutoff or a `created` date raises; the registry is
      only written after the loop, so nothing changes then. */
  method Expire(reg: Registry, now: int, hours: int) returns (r: Option<Registry>, expired: nat)
    ensures r.None? <==> ExpireFails(reg.overrides, now - hours * MicrosPerHour)
    ensures r.Some? ==> r.value.overrides == Kept(reg.overrides, now - hours * MicrosPerHour)
    ensures r.Some? ==> expired == CountExpired(reg.overrides, now - hours * MicrosPerHour)
    ensures r.Some? ==> |r.value.overrides| + expired == |reg.overrides|
    ensures r.Some? ==> r.value == Registry(r.value.overrides, expired, |r.value.overrides|)
  {
    var cutoff := now - hours * MicrosPerHour;
    expired := 0;
    if !CutoffInRange(cutoff) {
      return None, 0;
    }
    var active: seq<Override> := [];
    var i := 0;
    while i < |reg.overrides|
      invariant 0 <= i <= |reg.overrides|
      invariant forall j :: 0 <= j < i ==> Comparable(reg.overrides[j])
      invariant active + Kept(reg.overrides[i..], cutoff) == Kept(reg.overrides, cutoff)
      invariant expired + CountExpired(reg.overrides[i..], cutoff) == CountExpired(reg.overrides, cutoff)
      invariant |active| + expired == i
    {
      var o := reg.overrides[i];
      if !Comparable(o) {
        return None, 0;
      }
      assert reg.overrides[i..][1..] == reg.overrides[i + 1..];
      if CreatedAt(o).time > cutoff {
        active := active + [o];
      } else {
        expired := expired + 1;
      }
      i := i + 1;
    }
    r := Some(Registry(active, expired, |active|));
  }

  /** `add_override`: the next id is one more than the current list length,
      and the active count follows the list. */
  function Add(reg: Registry, filePath: string, reason: string, author: string, now: int): (r: Registry)
    ensures |r.overrides| == |reg.overrides| + 1 && r.overrides[..|reg.overrides|] == reg.overrides
    ensures var o := r.overrides[|reg.overrides|];
      o.id == |reg.overrides| + 1 && o.status == "active" && o.created == Some(Naive(now)) && o.filePath == filePath
    ensures r.activeCount == |r.overrides| && r.expiredCount == reg.expiredCount
  {
    var o := Override(|reg.overrides| + 1, filePath, reason, author, Some(Naive(now)), "active");
    assert (reg.overrides + [o])[..|reg.overrides|] == reg.overrides;
    reg.(overrides := reg.overrides + [o], activeCount := |reg.overrides| + 1)
  }

  /** The evidence compliance score. */
  function Score(active: nat): (s: int)
    ensures 0 <= s <= 100
    ensures active == 0 ==> s == 100
    ensures active >= 20 ==> s == 0
  {
    if active == 0 then 100 else Max(0, 100 - active * 5)
  }

  function Max(a: int, b: int): int {
    if a < b then b else a
  }

  /** More active overrides never raise the score; below twenty each one
      costs exactly five points. */
  lemma ScoreMonotone(a: nat, b: nat)
    requires a <= b
    ensures Score(b) <= Score(a)
    ensures b < 20 ==> Score(b) == 100 - 5 * b
  {
  }

  /** `--expire`: a value ending in `h` gives its integer prefix in hours,
      any other value leaves the default of 48; `None` where `int` raises. */
  function ParseExpire(arg: string): (r: Option<int>)
    ensures !EndsWith(arg, "h") ==> r == Some(48)
  {
    if |arg| > 0 && arg[|arg| - 1] == 'h' then ParseInt(arg[..|arg| - 1]) else Some(48)
  }

  lemma ParseExpireHours(n: int)
    ensures ParseExpire(IntToString(n) + "h") == Some(n)
  {
    var a := IntToString(n) + "h";
    assert a[..|a| - 1] == IntToString(n);
    ParseIntOfString(n);
  }

  /** One run of the script: expire with the parsed window, optionally add
      an override, and score what is active. `None` where `int` or the
      expiry raises. */
  method Run(reg: Registry, now: int, expireArg: string, add: Option<(string, string)>)
    returns (r: Option<Registry>, score: int)
    ensures r.None? <==> ParseExpire(expireArg).None?
                         || ExpireFails(reg.overrides, now - ParseExpire(expireArg).value * MicrosPerHour)
    ensures r.Some? ==> r.value.activeCount == |r.value.overrides| && score == Score(|r.value.overrides|)
    ensures r.Some? ==> 0 <= score <= 100
    ensures r.Some? && add.None? ==> |r.value.overrides| <= |reg.overrides|
  {
    match ParseExpire(expireArg)
    case None =>
      r, score := None, 0;
    case Some(hours) =>
      var kept, _ := Expire(reg, now, hours);
      if kept.None? {
        r, score := None, 0;
      } else {
        var k := kept.value;
        var next := if add.Some? then Add(k, add.value.0, add.value.1, "system", now) else k;
        r, score := Some(next), Score(|next.overrides|);
      }
  }

  /** A window that reaches back before 0001-01-01 makes the run raise
      `OverflowError`: from any time before the year 2282, `--expire
      20000000h` does. */
  lemma LongWindowOverflows(os: seq<Override>, now: int, hours: int)
    requires now < hours * MicrosPerHour
    ensures ParseExpire(IntToString(hours) + "h") == Some(hours)
    ensures ExpireFails(os, now - hours * MicrosPerHour)
  {
    ParseExpireHours(hours);
  }

  /** An override whose `created` does not parse, or carries a UTC offset,
      makes the expiry raise whatever the window. */
  lemma IncomparableFails(os: seq<Override>, k: int, cutoff: int)
    requires 0 <= k < |os|
    requires os[k].created == Some(Rejected) || (os[k].created.Some? && os[k].created.value.Aware?)
    ensures ExpireFails(os, cutoff)
  {
  }

  /** An override written by `add_override` is comparable, so a registry the
      script wrote itself expires without raising once the cutoff is valid. */
  lemma AddedComparable(reg: Registry, filePath: string, reason: string, now: int, cutoff: int)
    requires CutoffInRange(cutoff) && !ExpireFails(reg.overrides, cutoff)
    ensures !ExpireFails(Add(reg, filePath, reason, "system", now).overrides, cutoff)
  {
    var r := Add(reg, filePath, reason, "system", now);
    forall k | 0 <= k < |r.overrides|
      ensures Comparable(r.overrides[k])
    {
      if k < |reg.overrides| {
        assert r.overrides[k] == r.overrides[..|reg.overrides|][k];
      }
    }
  }
}
